=== FILE: README.md ===
# Crescare core, modelled in Dafny

Crescare is a healthcare platform with three parts: a Django backend, a
React client, and a mock of the UHI registries (ABHA for patients, HPR for
doctors, HFR for facilities). Patients book and pay for appointments with
doctors. Doctors work through a daily queue. Every consultation, test and
prescription becomes a step of the patient's health journey. Doctors of
another organisation see a journey only after the patient grants that
organisation consent.

This project models the logic of that system and proves what the code
promises about it.

**Backend**
- `Payments`: the wallet ledger. `Wallet` is a class whose `Credit` and `Debit` keep the balance equal to the opening balance plus credits minus debits.
- `PaymentViews`: payment for a consultation (fee plus commission), its refund, and wallet top-up.
- `Appointments`: the appointment record, its status, and what the serializer computes from it.
- `AppointmentViews`: booking with its 30-minute conflict window, automatic consent and the new journey step; also start, complete, and cancellation with its 5% fee.
- `AppointmentQueue`: the doctor's queue and the wait-time estimate.
- `Journeys` and `JourneyViews`: journeys, steps and consents; the access rule "own organisation or granted consent"; requesting and answering consent; fetching by ABHA id; report upload; ordering a test; writing a prescription.
- `Users`: users and their role flags.
- `Database`: the tables the views read and write. The class `Db` holds them, and `TablesValid` states the model-level constraints: unique keys, one report per step, one consent per patient and organisation, and steps numbered from one by the modelled step creators (booking, ordering a test, writing a prescription, each numbering its step `count() + 1`).
- `Registry`: the mock UHI registry, inserting ABHA, HPR and HFR records with uniqueness by aadhaar number.

**Client**
- `ApiClient`: the axios interceptors, which attach the bearer token and retry a request once after a token refresh.
- `AuthContext`: the session kept in local storage.
- `PrivateRoute` and `LoginPage`: the routing decisions.
- One module per page: sign-up, profile, the patient's appointments, booking, the doctor's queue, the doctor's appointments, consents, and the provider's report-upload wizard.

**Conventions**
- Money is a whole number of paise. Times are whole seconds, and a day is 86400 seconds.
- Server responses, "now", and generated names and ids are parameters of the operations that use them.
- Rows are identified by their position in their table.

Three modelling decisions follow the code where it is incomplete or inconsistent with itself:
- A failed token refresh removes the access and refresh tokens and sends the browser to `/login`. The stored user is kept (client/src/api/client.js:46-50).
- `DoctorProfile` declares no `organization` field (core/users/models.py:59-65), yet the booking view reads `doctor.organization` (core/appointments/views.py:90-97). The doctor's organisation is therefore modelled as an optional id.
- `AppointmentCreateSerializer` declares no `journey_id`, `reason` or `grant_consent` field (core/appointments/serializers.py:48-54), yet `perform_create` pops all three from the validated data (core/appointments/views.py:59-61). They are modelled as booking inputs. What the serializer as written always passes is the constant `AppointmentViews.NO_EXTRAS`: no journey, no reason, no consent.

## Model

| member | source | states |
|---|---|---|
| Users.RoleFlagsExclusive | core/users/models.py:17-42 | the three role properties compare the single `type` column, so at most one holds, and exactly one when `type` is one of the three choices |
| Users.NewUser | core/users/models.py:12-19 | a user created without a type is a patient and no other role, with no phone number |
| Users.FindByEmail | core/users/models.py:15-21 | the login lookup by e-mail returns the first row carrying that address, and none exactly when no row carries it |
| Users.FindByEmailUnique | core/users/models.py:15-21 | with e-mail declared unique, the lookup finds the one row that carries the address |
| Appointments.ParseStatus | core/appointments/models.py:7-19 | a stored status string is read as a status exactly when it is one of the four choices |
| Appointments.StatusNameRoundTrip | core/appointments/models.py:7-19 | writing a status and reading it back gives the same status |
| Appointments.NewAppointment | core/appointments/models.py:14-27 | a new row is SCHEDULED and unpaid, has no actual start or end, takes 15 minutes unless a duration is given, and keeps the journey step and creation time it is given |
| Appointments.ActualDuration | core/appointments/models.py:35-40 | the duration exists exactly when both actual times are recorded, and start plus duration is the end |
| Appointments.TruncMinutes | core/appointments/serializers.py:41 | `int(x / 60)` truncates toward zero: bounds for positive and for negative durations |
| Appointments.ActualDurationMinutes | core/appointments/serializers.py:39-42 | no minutes when there is no duration or it is zero (a zero timedelta is falsy); otherwise the duration in whole minutes truncated toward zero |
| Appointments.PatientName | core/appointments/serializers.py:27-28 | the trimmed "first last" whenever that is not blank, and otherwise the e-mail; the result never starts or ends with a blank |
| Appointments.DoctorName | core/appointments/serializers.py:33-34 | "Dr. first last" with only its trailing blanks removed: a prefix of that text, with everything removed being blank; it starts with "Dr." and never ends with a blank |
| Appointments.ConsultationFeeText | core/appointments/serializers.py:44-45 | the fee is rendered as a decimal string that reads back as the same number of paise |
| Appointments.ValidateScheduledTime | core/appointments/serializers.py:60-63 | a time is accepted, unchanged, exactly when it is not before now |
| Appointments.ApplyPatch | core/appointments/serializers.py:7-25 | an update leaves the read-only fields (actual times, creation time, paid flag) unchanged and takes each writable field that was sent (status, scheduled time, duration, journey step), keeping the old value of each one that was not |
| Payments.ParseTxType | core/payments/models.py:6-9 | a stored transaction type is read exactly when it is CREDIT or DEBIT, and reads as its own name |
| Payments.ParseTxReason | core/payments/models.py:11-17 | a stored reason is read exactly when it is one of the five choices |
| Payments.TxNamesRoundTrip | core/payments/models.py:6-17 | every type and reason written as its name reads back as itself |
| Payments.FirstTx | core/payments/models.py:65-82 | `filter(reason, appointment).first()` finds a row exactly when some row carries that reason and appointment, and the row found does |
| Payments.CreditLedger | core/payments/models.py:34-46 | a credit raises the balance by the amount and puts one CREDIT row with the given reason, appointment and description in front of the history |
| Payments.DebitLedger | core/payments/models.py:48-62 | a debit is refused exactly when the balance is below the amount; otherwise the balance falls by the amount, stays non-negative, and one DEBIT row is added |
| Payments.LedgerOpsKeepBalanced | core/payments/models.py:34-62 | credit and debit keep the balance equal to credits minus debits over the history |
| Payments.CreditThenDebitRestores | core/payments/models.py:34-62 | a credit then a debit of the same amount succeeds and restores the balance, adding two rows |
| Payments.Wallet.constructor | core/payments/models.py:20-27 | a new wallet has balance zero and no transactions |
| Payments.Wallet.Credit | core/payments/models.py:34-46 | the wallet's new state is the credited ledger and the ledger invariant holds |
| Payments.Wallet.Debit | core/payments/models.py:48-62 | refused and unchanged exactly when the balance is below the amount; otherwise the new state is the debited ledger; the invariant holds either way |
| Payments.RecentTransactions | core/payments/serializers.py:22-24 | the recent list is the first five rows of the history (all of them when there are fewer) |
| Payments.PrecisionCheck | core/payments/serializers.py:27-29 | an amount passing the digit checks has at most two decimal places and at most eight whole digits |
| Payments.AcceptedBelowLimit | core/payments/serializers.py:29 | an amount passing the digit checks is below 10^10 paise |
| Payments.ValidateAmount | core/payments/serializers.py:27-34 | an amount is accepted exactly when it passes the digit checks and is at least one rupee; the accepted value is its paise, and the "must be positive" branch is unreachable after `min_value=1` |
| Payments.ValidateAmountAcceptsTwoPlaces | core/payments/serializers.py:27-34 | every two-place amount from 1.00 to 99999999.99 is accepted as itself |
| PaymentViews.Commission | core/payments/views.py:84 | the commission is the fee times the rate rounded to the paisa, half to even: within half a paisa of the exact value, even on a tie, and never negative for a non-negative fee |
| PaymentViews.CommissionAtMostFee | core/payments/views.py:83-85 | with a rate of at most 100% the commission lies between zero and the fee |
| PaymentViews.Pay | core/payments/views.py:60-127 | each refusal (unknown appointment, not a patient, not the owner, a PAYMENT_DONE row for the appointment in any wallet, no fee, balance below fee plus commission) leaves every wallet and the appointment as they were; a payment makes the patient's ledger the old one debited fee plus commission with the view's description, the doctor's ledger the old one credited the fee with "Payment received from" the patient's first name, both rows carrying the appointment; it marks the appointment paid and answers the four amounts |
| PaymentViews.Refund | core/payments/views.py:134-183 | for wallets that belong to the appointment's patient and doctor, with the payment and refund lookups run over every wallet's rows: a refund goes through only for a cancelled appointment with a PAYMENT_DONE row and no REFUND row; the patient's ledger is credited the paid amount; the doctor's is debited it when the balance allows, otherwise the request fails with the patient already credited |
| PaymentViews.TopUp | core/payments/views.py:26-43 | an amount the validation refuses leaves the wallet alone; an accepted one credits exactly the validated amount with reason TOP_UP and answers the new balance |
| Database.Db.constructor | core/users/models.py:45-87 | an empty database satisfies every declared constraint |
| Database.PatientOf | core/users/models.py:45-48 | `user.patient_profile` finds a profile row of that user, and none exactly when no row belongs to the user |
| Database.DoctorOf | core/users/models.py:59-62 | `user.doctor_profile` finds a profile row of that user, and none exactly when no row belongs to the user |
| Database.ProviderOf | core/users/models.py:77-81 | `user.provider_profile` finds a profile row of that user, and none exactly when no row belongs to the user |
| Database.PatientByAbha | core/users/models.py:49 | the lookup by ABHA id finds a patient carrying that id, and none exactly when no patient does |
| Database.AppointmentUpdateKeepsValid | core/appointments/models.py:7-40 | changing an appointment's own columns keeps every foreign key and uniqueness constraint |
| Database.AddJourneyKeepsValid | core/journeys/models.py:11-26 | inserting a journey of an existing patient and organisation keeps the constraints |
| Database.SetConsentsKeepsValid | core/journeys/models.py:107-139 | a consent table unique per (patient, organisation) with existing references keeps the constraints |
| Database.AddStepKeepsValid | core/journeys/models.py:38-73 | appending a step numbered one past its journey's last keeps the steps of every journey numbered 1..n |
| Database.AddAppointmentKeepsValid | core/appointments/models.py:7-27 | inserting an appointment whose patient, doctor and step exist keeps the constraints |
| Database.AddReportKeepsValid | core/journeys/models.py:89-93 | a report for a step that has none keeps one report per step |
| Database.AddPrescribedStepKeepsValid | core/journeys/models.py:38-86 | a new step together with its prescription keeps one prescription per step and the numbering |
| AppointmentViews.HasConflict | core/appointments/views.py:66-73 | a booking conflicts exactly when some appointment of that doctor holding its slot (SCHEDULED, IN_PROGRESS or COMPLETED) lies in the window from 30 minutes before up to, but not including, 30 minutes after |
| AppointmentViews.WindowEdges | core/appointments/views.py:66-73 | the window is half open: an appointment exactly 30 minutes earlier blocks, one exactly 30 minutes later does not, and a cancelled one never does |
| AppointmentViews.BookingKeepsSpaced | core/appointments/views.py:68-76 | a booking the conflict check lets through keeps every two slot-holding appointments of a doctor at least 30 minutes apart |
| AppointmentViews.UpdateKeepsSpaced | core/appointments/views.py:154-178 | a status change that keeps doctor and time and frees or keeps the slot keeps that spacing |
| AppointmentViews.JourneyTitle | core/appointments/views.py:89 | the new journey's title is the reason when one is given and non-empty, otherwise it starts with "Consultation - " |
| AppointmentViews.AutoConsent | core/appointments/views.py:94-110 | `get_or_create` adds a consent only when none exists for the patient and organisation, touches no other pair's record, and keeps one record per pair |
| AppointmentViews.AutoConsentGrants | core/appointments/views.py:94-110 | afterwards the organisation holds a GRANTED consent exactly when no record was there or the record was not PENDING: a pending request stays pending |
| AppointmentViews.AutoConsentRefs | core/appointments/views.py:94-110 | the auto-consent's records point at existing patients and organisations and stay unique per pair |
| AppointmentViews.BookingKeepsValid | core/appointments/views.py:56-124 | the journey, consent, step and appointment rows a booking writes keep every table constraint |
| AppointmentViews.CheckBooking | core/appointments/views.py:52-84 | the booking checks run in order (the serializer's doctor key naming an existing profile and time not in the past, then role, profile, slot, named journey) and pass exactly when every one passes, yielding the patient's profile; an unknown doctor id is refused before anything else |
| AppointmentViews.BookedTablesContents | core/appointments/views.py:78-124 | an accepted booking appends the SCHEDULED appointment, a new journey unless one was named, a CONSULTATION step of the doctor numbered one past the journey's last, and writes the auto-consent only when asked for and the doctor has an organisation; no other table changes |
| AppointmentViews.BookedTablesValid | core/appointments/views.py:78-124 | the rows a booking writes for an existing patient and doctor keep every table constraint |
| AppointmentViews.Book | core/appointments/views.py:38-124 | for any doctor id, existing or not: a refused booking answers the first failing check and changes no table; an accepted one answers the new appointment's id and leaves the tables as BookedTables of the old ones |
| AppointmentViews.Start | core/appointments/views.py:145-161 | only the doctor's own SCHEDULED appointment moves to IN_PROGRESS with the start time recorded; any refusal changes nothing; the move is a lifecycle transition and keeps slots spaced |
| AppointmentViews.Complete | core/appointments/views.py:168-184 | only the doctor's own IN_PROGRESS appointment moves to COMPLETED with the end time recorded, so its duration is end minus start; any refusal changes nothing |
| AppointmentViews.CancellationFee | core/appointments/views.py:216-218 | the fee is 5% of the consultation fee rounded half up to the paisa, between zero and the fee |
| AppointmentViews.SettleCancellation | core/appointments/views.py:209-241 | the patient's ledger is the old one credited with the fee minus the cancellation fee; the doctor's ledger is the old one debited the same amount when their balance covers it, and is otherwise untouched |
| AppointmentViews.CheckCancel | core/appointments/views.py:191-203 | a cancellation passes exactly when the user is the appointment's patient or doctor and it is SCHEDULED or IN_PROGRESS; other roles are refused as unauthorised |
| AppointmentViews.Cancel | core/appointments/views.py:191-256 | for wallets that belong to the appointment's patient and doctor: a refused cancellation changes nothing; an accepted one marks the appointment CANCELLED and unpaid; a paid one credits the patient's ledger with 95% of the fee, debits the doctor's ledger by the same amount when their balance covers it (otherwise leaves it untouched), and answers the refund and the fee |
| AppointmentQueue.DoctorQueue | core/appointments/views.py:263-277 | the day's queue holds exactly the doctor's SCHEDULED and IN_PROGRESS appointments of that day, each as often as stored, in time order |
| AppointmentQueue.RecentCompleted | core/appointments/views.py:309-314 | the doctor's completed consultations that have both times, each taken at most once, latest end first: ten of them, or all when there are fewer, and every one left out ended no later than the last one shown |
| Sorting.TakeLeast | core/appointments/views.py:309-314 | `order_by(...)[:n]`: at most `n` rows, each taken at most once, in key order, all of them when there are fewer than `n`, and no row left out has a smaller key than the last one taken |
| AppointmentQueue.AverageDuration | core/appointments/views.py:316-326 | the average is 15 minutes with no history, never below 15 minutes, and otherwise the mean of the durations (rounded down to the second) |
| AppointmentQueue.EarliestScheduled | core/appointments/views.py:359-364 | the doctor's earliest SCHEDULED appointment of the day: one of them, no later than any other, and none only when there is none |
| AppointmentQueue.EarliestExists | core/appointments/views.py:359-380 | a SCHEDULED appointment is itself a candidate, so the earliest exists and the "no other appointments" branch never runs |
| AppointmentQueue.PredictedStart | core/appointments/views.py:343-380 | with a consultation running the prediction is never before now; otherwise it is never before now nor before the day's earliest SCHEDULED time |
| AppointmentQueue.WaitTime | core/appointments/views.py:284-402 | refusals for an unknown appointment, a patient asking about someone else's, and a finished one; "in progress" exactly for IN_PROGRESS; otherwise position is people ahead plus one, the average is at least 15 minutes, and the predicted start is the queue's prediction clamped up to the scheduled time with the delay its difference |
| AppointmentQueue.FirstOfDayPredicted | core/appointments/views.py:359-377 | with nothing running and nobody SCHEDULED ahead, the prediction for an appointment whose time has not passed is its own time |
| AppointmentQueue.NoneAheadNotEarlier | core/appointments/views.py:370-376 | with no SCHEDULED appointment ahead, no same-day SCHEDULED appointment is earlier |
| AppointmentQueue.FirstOfDayOnTime | core/appointments/views.py:284-402 | the day's first SCHEDULED patient, asking before their time with nothing running, is told there is no delay |
| Journeys.NewJourney | core/journeys/models.py:11-26 | a new journey is ACTIVE and belongs to the given patient and organisation |
| Journeys.NewConsent | core/journeys/models.py:107-135 | a new consent is PENDING with no response time |
| Journeys.StepsOf | core/journeys/models.py:38-42 | a journey's steps are steps of that journey |
| Journeys.StepsOfAppend | core/journeys/models.py:38-42 | a new step joins its own journey's steps, at the end, and no other journey's |
| Journeys.AppendKeepsNumbered | core/journeys/models.py:38-42 | a step numbered one past its journey's count keeps every journey numbered 1..n and adds one step to its own |
| Journeys.StepOrdersIncreasing | core/journeys/models.py:72-73 | under the numbering the modelled step creators keep, a journey's steps are strictly increasing in `order`, so ordering by `order` is creation order |
| Journeys.FindConsent | core/journeys/models.py:107-139 | the consent lookup finds a record of that patient and organisation, and none exactly when there is none |
| Journeys.GrantedIffRecordGranted | core/journeys/models.py:137-139 | with one record per (patient, organisation), consent is granted exactly when that record is GRANTED |
| JourneyViews.JourneyIds | core/journeys/views.py:35-50 | the ids listed are exactly those of the journeys passing the filter, ascending and each once (`distinct`) |
| JourneyViews.JourneyList | core/journeys/views.py:30-52 | a patient lists exactly their own journeys; a doctor exactly those their organisation created or whose patient granted it consent; any other role none |
| JourneyViews.JourneyDetail | core/journeys/views.py:63-92 | an unknown id is not found; a patient opens only their own journey, a doctor only one their organisation created or holds consent for, and any other user every journey |
| JourneyViews.ListAgreesWithDetail | core/journeys/views.py:30-92 | for patients and doctors a journey is listed exactly when its detail opens |
| JourneyViews.ProviderSeesNoListButEveryDetail | core/journeys/views.py:52-92 | a provider lists no journey, yet opens every journey's detail |
| JourneyViews.CheckRequest | core/journeys/views.py:115-137 | the request-access checks in order (body, patient by ABHA id, role, organisation); passing yields the patient, the doctor and the organisation |
| JourneyViews.Requested | core/journeys/views.py:139-166 | an existing GRANTED or PENDING record is answered unchanged; a DENIED or REVOKED one returns to PENDING with the new purpose and doctor; with none a PENDING record is created |
| JourneyViews.RequestedLeavesOpenRecord | core/journeys/views.py:139-166 | after a request the pair has exactly one record, PENDING or GRANTED, and GRANTED exactly when it was granted before |
| JourneyViews.RequestedRefs | core/journeys/views.py:139-161 | the records after a request point at existing patients and organisations |
| JourneyViews.RequestAccess | core/journeys/views.py:115-166 | a refused request changes no consent; an accepted one applies the consent state machine to the patient's record for the doctor's organisation |
| JourneyViews.ConsentFoundAgain | core/journeys/models.py:137-139 | under uniqueness a record is the one its pair finds |
| JourneyViews.ParseResponse | core/journeys/serializers.py:143-145 | only "GRANTED" and "DENIED" are accepted answers, each read as itself |
| JourneyViews.Respond | core/journeys/views.py:184-201 | only the patient owning a consent may answer; a valid answer sets the status and the response time, whatever the status was; any refusal changes nothing |
| JourneyViews.RespondDecidesAccess | core/journeys/views.py:184-201 | after GRANTED the organisation may open every journey of the patient; after DENIED only those it created |
| JourneyViews.FetchByAbha | core/journeys/views.py:212-260 | an unknown ABHA id is not found; a patient fetches only their own journeys, a doctor only with a GRANTED consent, a provider anyone's; the journeys returned are exactly the patient's |
| JourneyViews.OwnOrgNotEnoughToFetch | core/journeys/views.py:72-89 | a doctor whose organisation created a journey opens it in the detail view, yet without consent the ABHA fetch refuses them (lines 227-242) |
| JourneyViews.ReportData | core/journeys/views.py:295-302 | the stored data is nothing for an absent or empty field or unparsable text, and otherwise the parsed value |
| JourneyViews.CheckUpload | core/journeys/views.py:276-307 | an upload passes exactly when a provider with a profile sends a file for an existing TEST step that has no report yet |
| JourneyViews.UploadReport | core/journeys/views.py:276-316 | a refused upload adds no report; an accepted one adds exactly one report for the step, which had none |
| JourneyViews.TestNotes | core/journeys/views.py:425 | the notes are "name: notes" when notes are given, otherwise the name |
| JourneyViews.PrescriptionNotes | core/journeys/views.py:483 | the notes are the given notes, or "Prescription" when empty |
| JourneyViews.CheckDoctorAction | core/journeys/views.py:386-417 | the checks in order (role, body, journey, access); passing requires that the doctor's organisation created the journey or holds consent |
| JourneyViews.OrderTest | core/journeys/views.py:386-434 | a refused order adds no step; an accepted one appends one TEST step numbered one past the journey's last, by that doctor and organisation |
| JourneyViews.WritePrescription | core/journeys/views.py:444-500 | a refused prescription changes nothing; an accepted one appends a PHARMACY step numbered one past the last and the prescription of that step |
| Registry.ValidateAbha | uhi_mock_server/registry/serializers.py:4-9 | a body is valid exactly when `mobile` (at most 10) and `aadhaar` (at most 12) are present and not blank once trimmed; the validated data holds exactly those two, trimmed |
| Registry.ValidateHpr | uhi_mock_server/registry/serializers.py:11-17 | a body is valid exactly when `aadhar`, `mobile` and `specialization` pass their limits; the validated data holds exactly those three keys, trimmed |
| Registry.ValidateHfr | uhi_mock_server/registry/serializers.py:19-25 | a body is valid exactly when `name` (at most 255) and `address` are non-blank and `type` is one of the three facility types |
| Registry.HprReadsUndeclaredKey | uhi_mock_server/registry/views.py:76-78 | validated HPR data never holds the key `aadhaar` that the view reads |
| Registry.AbhaAddress | uhi_mock_server/registry/views.py:48-49 | the address is "first_last." then the four digits of the suffix, which read back as the suffix, then "@uhi" |
| Registry.HprId | uhi_mock_server/registry/views.py:83 | the HPR id is "HPR-" followed by the uuid |
| Registry.HfrId | uhi_mock_server/registry/views.py:121 | the HFR id is "IN-" followed by the first eight characters of the uuid upper-cased, with no lower-case letter |
| Registry.FindBy | uhi_mock_server/registry/views.py:52-61 | the lookup by a key column finds a record with that key, and none exactly when there is none |
| Registry.AppendKeepsUnique | uhi_mock_server/registry/models.py:8-48 | inserting a record whose key is unused keeps the key unique, and the lookup then finds the new record |
| Registry.FindLast | uhi_mock_server/registry/views.py:52-61 | a key not found before is found at the appended record |
| Registry.AbhaAppendKeepsUnique | uhi_mock_server/registry/models.py:8-14 | an ABHA record with unused aadhaar and address keeps both unique |
| Registry.MockRegistry.constructor | uhi_mock_server/registry/models.py:3-51 | an empty registry satisfies its uniqueness constraints |
| Registry.MockRegistry.CreateAbha | uhi_mock_server/registry/views.py:36-67 | the registry gains the new record exactly when the registration succeeds, and keeps its keys unique |
| Registry.MockRegistry.CreateHprAsWritten | uhi_mock_server/registry/views.py:75-106 | as written, a body that reaches line 78 without failing there must have failed validation: no HPR registration can succeed |
| Registry.MockRegistry.CreateHpr | uhi_mock_server/registry/views.py:75-106 | reading the aadhaar number under the serializer's key, the registry gains the new record exactly when the registration succeeds, and keeps its keys unique |
| Registry.MockRegistry.CreateHfr | uhi_mock_server/registry/views.py:113-131 | the registry gains the new facility exactly when the registration succeeds, and keeps the id unique |
| Registry.NewAbha | uhi_mock_server/registry/views.py:36-67 | a registered record's aadhaar number and address were both unused |
| Registry.NewAbhaDecides | uhi_mock_server/registry/views.py:36-67 | an invalid body, then a known aadhaar number, then a taken address are refused; otherwise the record holds the generated address, the fake name and the trimmed fields |
| Registry.NewHpr | uhi_mock_server/registry/views.py:75-106 | an invalid body, a known aadhaar number, or a taken id is refused; otherwise the record holds "HPR-" and the uuid, the fake name and the trimmed fields |
| Registry.NewHfr | uhi_mock_server/registry/views.py:113-131 | an invalid body or a taken id is refused; otherwise the facility holds the generated id and the validated fields |
| Registry.SecondAbhaRefused | uhi_mock_server/registry/views.py:52-63 | a second ABHA registration with the same aadhaar number is refused, whatever else differs |
| Registry.SecondHprRefused | uhi_mock_server/registry/views.py:88-101 | a second HPR registration with the same aadhaar number is refused |
| Registry.HfrNotDeduplicated | uhi_mock_server/registry/views.py:123-128 | registering the same facility body again creates a second facility whenever the new id is fresh |
| Money.RoundHalfEven | core/payments/views.py:84 | `quantize(Decimal("0.01"))` under the default rounding: the result is within half a unit of n/d, and even on an exact tie |
| Money.RoundHalfEvenUnique | core/payments/views.py:84 | those two properties determine the rounded value: any value satisfying them is the result |
| Money.RoundHalfUp | core/appointments/views.py:217 | `ROUND_HALF_UP` rounds to within half a unit, ties away from zero, and keeps the sign |
| Money.PaiseToString | core/payments/views.py:123-126 | `str()` of a two-place amount reads back, through the decimal parser, as the same number of paise |
| Text.NatToStringRoundTrip | client/src/pages/patient/BookAppointment.jsx:33-39 | the decimal text of a number parses back to that number |
| Text.TwoDigitsValue | client/src/pages/patient/BookAppointment.jsx:33-39 | `padStart(2, '0')` of an hour below 100 is two digits that parse back to the hour |
| Text.TrimStartSuffix | client/src/pages/provider/UploadReport.jsx:30 | removing leading blanks leaves a suffix of the input that starts with no blank, and everything removed was blank |
| Text.TrimEndPrefix | client/src/pages/provider/UploadReport.jsx:30 | removing trailing blanks leaves a prefix of the input that ends with no blank, and everything removed was blank |
| Text.TrimIsInfix | client/src/pages/provider/UploadReport.jsx:30 | `trim()` gives a piece of the input with no white space at either end |
| Text.TrimIdempotent | core/journeys/serializers.py:137-140 | trimming twice is trimming once, so a trimmed field trims to itself |
| Text.Contains | client/src/pages/patient/BookAppointment.jsx:27-30 | `includes` holds exactly when the text occurs at some position |
| Text.ContainsEmpty | client/src/pages/patient/BookAppointment.jsx:27-30 | every text includes the empty text |
| Seqs.Filter | client/src/pages/doctor/Queue.jsx:21-24 | `filter` keeps exactly the elements passing the test, in order, each as often as in the input |
| Seqs.FilterSplit | client/src/pages/patient/Consents.jsx:68-69 | filtering by a test and by its negation splits the list: together they hold each element exactly as often |
| Sorting.SortBy | client/src/pages/doctor/Queue.jsx:21-24 | `sort` by a comparator on a numeric key gives a permutation of the input, ordered by the key |
| Sorting.FilterKeepsSorted | client/src/pages/doctor/Queue.jsx:76-77 | filtering a sorted list keeps it sorted |
| ClientValues.Or | client/src/contexts/AuthContext.jsx:62-65 | a JavaScript or-default gives the value when it is truthy and the default otherwise |
| ClientValues.TextOr | client/src/pages/patient/Consents.jsx:39-58 | a missing or empty server message falls back to the page's text |
| ClientValues.StyleKey | client/src/pages/doctor/Appointments.jsx:106 | a status the style table lists picks its own style, any other the fallback's, which the table always lists |
| ClientValues.Banner | client/src/pages/doctor/Queue.jsx:40-66 | the banner is a success exactly when the call succeeded, with the success text, or the server's error, or the fallback text |
| ApiClient.Bearer | client/src/api/client.js:18 | the header is "Bearer " followed by the token |
| ApiClient.AttachToken | client/src/api/client.js:14-23 | the Authorization header is set to the bearer of the stored token exactly when a non-empty token is stored; nothing else changes |
| ApiClient.Intercept | client/src/api/client.js:26-57 | a 401 on a request not yet retried marks it retried; with a refresh token stored, a successful refresh stores the new access token and replays with its bearer, a failed one removes both tokens and sends the browser to /login; every other failure is rejected unchanged |
| ApiClient.OnResponseError | client/src/api/client.js:28-56 | the storage, the location, the retry flag and the headers change exactly as the interception decides |
| ApiClient.ReplayAtMostOnce | client/src/api/client.js:31-32 | a replayed request that fails again is rejected with no second refresh and the storage kept |
| ApiClient.RefreshKeepsOtherKeys | client/src/api/client.js:41-43 | a successful refresh changes only the access token in storage |
| ApiClient.FailedRefreshKeepsUserData | client/src/api/client.js:46-51 | a failed refresh removes both tokens but keeps `user_data` |
| ApiClient.ReportUploadForm | client/src/api/client.js:115-118 | the form always carries the file first, and carries the JSON of `data` only when `data` is truthy |
| ApiClient.ReportUploadPath | client/src/api/client.js:119 | the upload URL is "/journeys/steps/", the step id, "/report/", and the id reads back from it |
| AuthContext.TruthyFlagIsNotRole | client/src/contexts/AuthContext.jsx:62-65 | a role flag that is truthy but not the boolean `true` grants no role, while the user still counts as signed in |
| AuthContext.AuthProvider.constructor | client/src/contexts/AuthContext.jsx:7-8 | the provider starts with no user and loading |
| AuthContext.AuthProvider.Rehydrate | client/src/contexts/AuthContext.jsx:10-23 | the user is restored only when a token and `user_data` are both stored; unparsable data is removed; loading ends either way |
| AuthContext.AuthProvider.Login | client/src/contexts/AuthContext.jsx:25-37 | a failed call changes nothing; a successful one stores both tokens, and stores and sets the user only when the response has one |
| AuthContext.AuthProvider.Logout | client/src/contexts/AuthContext.jsx:39-44 | all three keys are removed and nobody is signed in |
| AuthContext.LogoutThenRehydrateRestoresNobody | client/src/contexts/AuthContext.jsx:10-44 | after a logout a reload finds neither a token nor user data |
| AuthContext.FailedRefreshThenRehydrateRestoresNobody | client/src/contexts/AuthContext.jsx:10-23 | after a failed refresh a reload finds no token, so nobody is restored though `user_data` is kept |
| PrivateRoute.HasAccess | client/src/components/PrivateRoute.jsx:22-27 | access is granted exactly when some listed role names a flag the user has; an unknown role name grants nothing |
| PrivateRoute.Dashboard | client/src/components/PrivateRoute.jsx:31-34 | a refused user goes to the patient, doctor or provider dashboard by the first flag they have, otherwise to "/" |
| PrivateRoute.Decide | client/src/components/PrivateRoute.jsx:8-38 | a spinner exactly while loading; the login page, remembering the location, exactly for visitors; the page exactly for users passing the role check or when no roles are listed; otherwise the user's dashboard |
| PrivateRoute.UnknownRolesAdmitNobody | client/src/components/PrivateRoute.jsx:21-35 | a route listing only unknown role names sends every signed-in user to their dashboard |
| PrivateRoute.DashboardAdmits | client/src/components/PrivateRoute.jsx:29-35 | the dashboard a refused user is sent to admits them when guarded by its own role, so refusals do not chain |
| LoginPage.From | client/src/pages/Login.jsx:16 | the page to return to is the remembered path, or "/" when there is none |
| LoginPage.AfterLogin | client/src/pages/Login.jsx:26-35 | after login the browser goes to the patient, doctor or provider page by the first truthy flag of the returned user, otherwise to the remembered page |
| LoginPage.LoginLandsOnAdmittedPage | client/src/pages/Login.jsx:26-35 | for a user with boolean flags, the page chosen by a flag is one the route guard for that role admits |
| LoginPage.LoginForm.constructor | client/src/pages/Login.jsx:7-10 | the form starts with no error, not loading, and nowhere navigated |
| LoginPage.LoginForm.Submit | client/src/pages/Login.jsx:18-41 | on success both tokens are stored, the user is stored and set when the response carries one, and the browser goes to the page chosen after login; on failure the session is untouched and the error is the server's `detail` or "Invalid email or password"; loading ends false either way |
| ProfilePage.InitialForm | client/src/pages/shared/Profile.jsx:48-53 | the form holds the three user fields, defaulting to "", plus every key of the fetched profile, whose values win over the user fields |
| ProfilePage.Change | client/src/pages/shared/Profile.jsx:112-114 | an edit sets the named field and leaves every other field as it was |
| ProfilePage.SplitForSave | client/src/pages/shared/Profile.jsx:123-133 | a form key goes to the user part exactly when it is a user field and to the profile part exactly when it is not, each with its form value |
| ProfilePage.SplitIsPartition | client/src/pages/shared/Profile.jsx:127-133 | the two parts share no key and together make up the form |
| ProfilePage.SaveBody | client/src/pages/shared/Profile.jsx:122-138 | the update body carries only user fields at the top level and none under `profile`, and together they are the form |
| ProfilePage.AfterSave | client/src/pages/shared/Profile.jsx:135-156 | a failed update shows the server's error or "Failed to save profile"; after a saved update the QR data is requested exactly for a patient, and the message says whether it was regenerated |
| ProfilePage.LoadThenSaveKeepsProfileKeys | client/src/pages/shared/Profile.jsx:48-53 | a fetched profile key that is not a user field reaches the form with its value, and so is sent back under `profile` |
| ProfilePage.PasswordChangeError | client/src/pages/shared/Profile.jsx:166-174 | the mismatch message exactly when the two new passwords differ, the length message exactly when they agree but are shorter than 8, no error otherwise |
| ProfilePage.AddDoctorError | client/src/pages/shared/Profile.jsx:76-79 | a doctor can be added exactly when an HPR id or an email is given |
| SignupPage.PasswordError | client/src/pages/Signup.jsx:48-56 | a mismatch is reported first; "at least 8 characters" exactly when the two agree but are shorter than 8; no error exactly when they agree and are long enough |
| SignupPage.RegistrationFor | client/src/pages/Signup.jsx:61-85 | a call is made exactly for the patient, doctor and provider roles; each sends email, password and phone number, the patient also aadhaar, the doctor aadhaar and specialization, the provider type, name and address, to its own endpoint, with no other keys |
| SignupPage.ProviderSendsNoAadhaar | client/src/pages/Signup.jsx:76-84 | a provider's registration body never carries an aadhaar number |
| SignupPage.DoctorBodyExtendsPatientBody | client/src/pages/Signup.jsx:62-75 | the doctor's body is the patient's body plus the specialization |
| SignupPage.ErrorText | client/src/pages/Signup.jsx:90 | the error shown is the first email error, else the server's `detail`, else the generic message, and is never empty |
| SignupPage.SignupPage.constructor | client/src/pages/Signup.jsx:33-35 | the page starts with no error, no success and not loading |
| SignupPage.SignupPage.Submit | client/src/pages/Signup.jsx:44-94 | a password error is shown without any call; otherwise the call for the role is made, success follows an accepted call or an unknown role, a refused call shows the error text, and loading ends false |
| PatientAppointmentsPage.UpcomingOf | client/src/pages/patient/Appointments.jsx:35 | the upcoming part holds exactly the fetched appointments that are scheduled and not yet due |
| PatientAppointmentsPage.OthersOf | client/src/pages/patient/Appointments.jsx:35-36 | the second filter holds only non-upcoming appointments, and with the upcoming part it holds every fetched appointment exactly once |
| PatientAppointmentsPage.SameElements | client/src/pages/patient/Appointments.jsx:39-40 | sorting a part does not move an appointment into the other part |
| PatientAppointmentsPage.ConcatParts | client/src/pages/patient/Appointments.jsx:43 | in the combined list every upcoming appointment comes before every other one, and each part keeps its order |
| PatientAppointmentsPage.Arrange | client/src/pages/patient/Appointments.jsx:33-43 | the list is a permutation of the fetched one: upcoming appointments first, earliest first, then the rest, latest first |
| PatientAppointmentsPage.ArrangeShowsEachOnce | client/src/pages/patient/Appointments.jsx:33-43 | each appointment is listed as often as it was fetched, and it is in the upcoming part exactly when it is scheduled and not yet due |
| PatientAppointmentsPage.Displayed | client/src/pages/patient/Appointments.jsx:132 | with "View All" everything is shown, otherwise the first three |
| PatientAppointmentsPage.ToggleIffSomethingHidden | client/src/pages/patient/Appointments.jsx:221-226 | the View All toggle appears exactly when the capped list hides something |
| PatientAppointmentsPage.ButtonsOnlyWhileScheduled | client/src/pages/patient/Appointments.jsx:134-136 | Pay is offered exactly for unpaid scheduled appointments, Cancel for scheduled ones, and an in-progress appointment gets neither |
| PatientAppointmentsPage.PayMessage | client/src/pages/patient/Appointments.jsx:55-71 | a successful payment reports the amount; a failed one shows the server's error or "Payment failed" |
| PatientAppointmentsPage.CancelMessage | client/src/pages/patient/Appointments.jsx:77-90 | a successful cancellation says so; a failed one shows the server's error or "Cancellation failed" |
| BookAppointmentPage.LabelMinutes | client/src/pages/patient/BookAppointment.jsx:35-37 | a label that is read back as a time has the "HH:MM" form |
| BookAppointmentPage.SlotLabelMinutes | client/src/pages/patient/BookAppointment.jsx:35-37 | the label made for an hour and half hour reads back as that minute of the day |
| BookAppointmentPage.TimeSlots | client/src/pages/patient/BookAppointment.jsx:33-39 | the loop gives 17 slots, each hour 09 to 17 at ":00" and, before 17, at ":30", in order: slot i is hour 9 + i/2, on the half hour exactly when i is odd |
| BookAppointmentPage.SlotsAscend | client/src/pages/patient/BookAppointment.jsx:33-39 | the slots are 09:00, 09:30 and so on, strictly increasing by half an hour, ending at 17:00 with no 17:30 |
| BookAppointmentPage.FilteredDoctors | client/src/pages/patient/BookAppointment.jsx:27-30 | a doctor is kept exactly when the term occurs, ignoring case, in the name or in a non-empty specialization; order is kept |
| BookAppointmentPage.EmptySearchKeepsAll | client/src/pages/patient/BookAppointment.jsx:27-30 | an empty search term lists every doctor, in order |
| BookAppointmentPage.SearchIgnoresCase | client/src/pages/patient/BookAppointment.jsx:27-30 | the term typed in upper or lower case finds the same doctors |
| BookAppointmentPage.BookingError | client/src/pages/patient/BookAppointment.jsx:49-52 | a booking is sent exactly when a doctor, a date and a time are all chosen |
| BookAppointmentPage.BookingErrorText | client/src/pages/patient/BookAppointment.jsx:65-68 | a refused booking shows the server's `error`, else its `detail`, else "Booking failed" |
| DoctorQueuePage.TodaysEntries | client/src/pages/doctor/Queue.jsx:21-23 | the queue keeps exactly today's scheduled and in-progress appointments |
| DoctorQueuePage.TodaysQueue | client/src/pages/doctor/Queue.jsx:21-24 | the queue is today's entries, each as often as fetched, earliest first |
| DoctorQueuePage.FirstInProgress | client/src/pages/doctor/Queue.jsx:76 | the search stops at the first in-progress entry, or finds none when there is none |
| DoctorQueuePage.InProgress | client/src/pages/doctor/Queue.jsx:76 | a patient is being seen exactly when the queue has an in-progress entry, and it is one of them |
| DoctorQueuePage.Waiting | client/src/pages/doctor/Queue.jsx:77 | the waiting list holds exactly the scheduled entries of the queue |
| DoctorQueuePage.WaitingInTimeOrder | client/src/pages/doctor/Queue.jsx:21-24 | the waiting list is in time order, and every queue entry is waiting or being seen |
| DoctorQueuePage.Rows | client/src/pages/doctor/Queue.jsx:158-180 | rows follow the waiting list, numbered from one, and Start is on the first row exactly while nobody is being seen |
| DoctorQueuePage.StartGoesToEarliest | client/src/pages/doctor/Queue.jsx:158-180 | a row offering Start is the first, nobody is being seen, and it is the earliest waiting appointment |
| DoctorQueuePage.StartMessage | client/src/pages/doctor/Queue.jsx:40-52 | after Start the banner says "Consultation started", or shows the server's error or "Failed to start" |
| DoctorQueuePage.CompleteMessage | client/src/pages/doctor/Queue.jsx:54-66 | after Complete the banner says "Consultation completed", or shows the server's error or "Failed to complete" |
| DoctorAppointmentsPage.NewestFirst | client/src/pages/doctor/Appointments.jsx:28-30 | the list is a permutation of the fetched one, latest appointment first |
| DoctorAppointmentsPage.ByStatus | client/src/pages/doctor/Appointments.jsx:57-59 | ALL shows the whole list; any other filter shows exactly the appointments with that status |
| DoctorAppointmentsPage.FilteredStaysNewestFirst | client/src/pages/doctor/Appointments.jsx:28-59 | whatever the filter, the list shown is latest first |
| DoctorAppointmentsPage.ListedUnderOwnStatus | client/src/pages/doctor/Appointments.jsx:57-59 | an appointment is listed under a status filter exactly when it has that status |
| DoctorAppointmentsPage.Controls | client/src/pages/doctor/Appointments.jsx:151-175 | Start exactly on scheduled cards, Complete exactly on in-progress ones, the paid badge exactly on paid ones |
| DoctorAppointmentsPage.AtMostOneAction | client/src/pages/doctor/Appointments.jsx:151-173 | a card offers at most one action, and none once completed or cancelled |
| DoctorAppointmentsPage.BadgeStyle | client/src/pages/doctor/Appointments.jsx:106 | the badge uses the status's own style, or SCHEDULED's for an unlisted status |
| ConsentsPage.PendingOf | client/src/pages/patient/Consents.jsx:68 | the pending list holds exactly the consents whose status is PENDING |
| ConsentsPage.PastOf | client/src/pages/patient/Consents.jsx:68-69 | the history holds exactly the other consents, and the two lists together hold every consent exactly once |
| ConsentsPage.ButtonsOnlyOnPending | client/src/pages/patient/Consents.jsx:119-176 | a consent has Grant and Deny buttons exactly when it is not in the history |
| ConsentsPage.RespondMessage | client/src/pages/patient/Consents.jsx:39-58 | after answering, the banner says granted or denied by the answer sent, or shows the server's error or the fallback |
| ConsentsPage.BadgeStyle | client/src/pages/patient/Consents.jsx:200 | the history badge uses the status's own style, or PENDING's for an unlisted status |
| ConsentsPage.UnknownPastStatusLooksPending | client/src/pages/patient/Consents.jsx:69-200 | a history entry with an unlisted status is not pending yet is drawn with the Pending badge |
| UploadReportPage.TestSteps | client/src/pages/provider/UploadReport.jsx:227-228 | the step buttons of a journey are exactly its TEST steps |
| UploadReportPage.ButtonsOf | client/src/pages/provider/UploadReport.jsx:221-232 | each button of a journey pairs that journey with one of its TEST steps, and every TEST step has one |
| UploadReportPage.Offered | client/src/pages/provider/UploadReport.jsx:221-232 | the page offers exactly the pairs of a fetched journey and one of its TEST steps |
| UploadReportPage.OfferedIsTestStep | client/src/pages/provider/UploadReport.jsx:205-232 | a step button on offer implies some journey has a TEST step, the condition the empty-state panel tests |
| UploadReportPage.EmptyStateIffNothingOffered | client/src/pages/provider/UploadReport.jsx:205 | the "no test steps" panel shows exactly when no step button would be offered |
| UploadReportPage.LookupId | client/src/pages/provider/UploadReport.jsx:30-37 | a blank input looks nothing up; otherwise the trimmed input is the id looked up |
| UploadReportPage.LookupIdIsTrimmed | client/src/pages/provider/UploadReport.jsx:30-37 | the id looked up is a piece of the input with no white space at either end |
| UploadReportPage.UploadWizard.constructor | client/src/pages/provider/UploadReport.jsx:10-25 | the wizard starts on step one with nothing searched, found, chosen or uploaded |
| UploadReportPage.UploadWizard.Type | client/src/pages/provider/UploadReport.jsx:13 | typing sets the search input and nothing else |
| UploadReportPage.UploadWizard.Search | client/src/pages/provider/UploadReport.jsx:28-52 | a blank input changes nothing; a found patient moves to step two with the patient and journeys, or no journeys; a failed lookup shows the error and stays |
| UploadReportPage.UploadWizard.SelectStep | client/src/pages/provider/UploadReport.jsx:54-61 | choosing a step records it with its journey and moves to step three |
| UploadReportPage.UploadWizard.ChooseFile | client/src/pages/provider/UploadReport.jsx:63-69 | a picked file replaces the old one and clears the error; cancelling the picker changes nothing; the wizard stays in a valid step |
| UploadReportPage.UploadWizard.Upload | client/src/pages/provider/UploadReport.jsx:71-90 | without a step and a file nothing is sent and the selection error is shown; otherwise the file is sent for the chosen step and the result or the error is recorded; the wizard stays in a valid step |
| UploadReportPage.UploadWizard.Reset | client/src/pages/provider/UploadReport.jsx:92-101 | every piece of wizard state goes back to its start |
| UploadReportPage.UploadWizard.SearchAnother | client/src/pages/provider/UploadReport.jsx:213 | back to step one with the patient and the input cleared |
| UploadReportPage.ResetThenFind | client/src/pages/provider/UploadReport.jsx:28-101 | after a reset, a search that finds the patient lands on step two with nothing chosen yet |

## Left out

- Concurrency: `transaction.atomic` and `select_for_update` are modelled as plain sequential steps; interleaved requests are not modelled.
- Database ids: rows are identified by position, and auto-increment ids, timestamps of creation and field length limits are not modelled.
- Clocks and time zones: "now" is a parameter; `timezone.now()`, `Date` parsing and the browser's local-day calculation (`toDateString`) are a parameter `dayOf` or integer inputs.
- Locale and number formatting: rendered dates, `toFixed`, `round(..., 1)` of minutes and the `Math.ceil(fee * 1.05)` fee preview are presentation only.
- AppointmentQueue.AverageDuration: the source averages in floating point; the model takes the floor of the integer mean, then applies the same 15-minute minimum.
- Randomness: Faker names, `random.randint` suffixes and `uuid4` values are inputs, constrained only by the ranges the code guarantees.
- JSON: `JSON.parse` of stored user data and `json.loads` of the report data field are parameters that may fail; their parsing rules are not modelled.
- Sorting.SortBy: JavaScript's `Array.prototype.sort` is modelled by an insertion sort; the result is sorted and a permutation, but the order of entries with equal times (stability) is not stated.
- Text.Lower, Text.Upper, Text.Trim: ASCII letters and ASCII white space only; Unicode case mapping and white space are not modelled.
- AuthContext: `registerPatient`, `registerDoctor` and `registerProvider` only forward to the API and touch neither storage nor the user; they are not modelled separately.
- Rendering, `setTimeout` delays, `setInterval` polling and navigation animations of the pages are not modelled; a redirect is a recorded target.
- Profile: the doctor list of a provider (`fetchDoctors`, `handleRemoveDoctor`) and the result of the add-doctor and password-change requests are not modelled; only their guards are.
- UploadReportPage.Offered: every fetched journey is assumed to carry a `steps` list, which the server always sends.
- Registry: a generated ABHA address, HPR id or HFR id that collides with an existing record makes the insert fail on the unique column, an error the views do not catch; the model returns `KeyTaken` for it instead of modelling the server error.
- Network and I/O: core/users/services.py, the registration views and the `requests` calls to the mock registry are not part of this model.
- Journey and step creation endpoints: `JourneyListCreateView`'s POST (core/journeys/views.py:17-28) and `JourneyStepCreateView` (core/journeys/views.py:95-105, with `order` a client-chosen field at core/journeys/serializers.py:90-94) are not modelled. With the step endpoint a client can store any `order`, so the 1..n numbering in `TablesValid` and the creation-order reading of `order` in `Journeys.StepOrdersIncreasing` hold only for the steps the modelled views create.
- PaymentViews.Pay, PaymentViews.Refund: the transaction table is the two wallets' rows followed by `others`, the rows of every other wallet, rather than one table in `-created_at` order; `filter(...).first()` therefore takes the first match in that arrangement, which differs from the newest match only when an appointment has more than one PAYMENT_DONE row, a case `Pay` refuses to create.
- AppointmentViews.CheckBooking: when both the doctor id and the scheduled time fail the serializer, DRF answers one 400 listing both field errors; the model answers `UnknownDoctor`, the error of the field declared first (core/appointments/serializers.py:54).
- Display-only pages (landing pages, dashboards, wait-time, health journeys, wallet, QR scanning) are not part of this model.

## Findings

| source | as written | input that shows it | evidently intended | confidence | as-written member | corrected member |
|---|---|---|---|---|---|---|
| uhi_mock_server/registry/views.py:78 | the HPR view reads `validated_data['aadhaar']`, but the serializer's field is `aadhar` (uhi_mock_server/registry/serializers.py:15), so the key is never present | any valid body, such as `{"aadhar": "123412341234", "mobile": "9999999999", "specialization": "ENT"}`, raises `KeyError` and answers 500 instead of inserting | the view reads the aadhaar number under the key the serializer produces, and inserts or refuses a duplicate like the ABHA view | not executed | Registry.MockRegistry.CreateHprAsWritten | Registry.MockRegistry.CreateHpr |

=== FILE: api_client.dfy ===
/** The axios instance of the client: a request interceptor that attaches the
    stored access token, a response interceptor that refreshes the token once
    on a 401 and replays the request, and the report-upload form. The browser's
    `localStorage` is a map and an assignment to `window.location.href` is
    recorded as the page the browser was sent to. */
module ApiClient {
  import opened Wrappers
  import opened Text
  import opened ClientValues

  const ACCESS_TOKEN := "access_token"
  const REFRESH_TOKEN := "refresh_token"
  const USER_DATA := "user_data"
  const AUTHORIZATION := "Authorization"
  const LOGIN_PATH := "/login"

  /** The header value `Bearer <token>`. */
  function Bearer(token: string): (h: string)
    ensures IsPrefix("Bearer ", h) && h[7..] == token
  {
    "Bearer " + token
  }

  class Browser {
    var storage: Storage
    /** The last page assigned to `window.location.href`, if any. */
    var location: Option<string>

    constructor (storage: Storage)
      ensures this.storage == storage && location == None
    {
      this.storage := storage;
      location := None;
    }
  }

  /** An outgoing request's config, which the interceptors change in place. */
  class RequestConfig {
    var headers: map<string, string>
    /** `_retry`: set once the request has been through a refresh. */
    var retried: bool

    constructor (headers: map<string, string>)
      ensures this.headers == headers && !retried
    {
      this.headers := headers;
      retried := false;
    }
  }

  /** The request interceptor: the bearer header is set exactly when an
      access token is stored, and nothing else in the config changes. */
  method AttachToken(browser: Browser, config: RequestConfig)
    modifies config`headers
    ensures Stored(browser.storage, ACCESS_TOKEN) ==>
      config.headers == old(config.headers)[AUTHORIZATION := Bearer(browser.storage[ACCESS_TOKEN])]
    ensures !Stored(browser.storage, ACCESS_TOKEN) ==> config.headers == old(config.headers)
  {
    if ACCESS_TOKEN in browser.storage && browser.storage[ACCESS_TOKEN] != "" {
      config.headers := config.headers[AUTHORIZATION := Bearer(browser.storage[ACCESS_TOKEN])];
    }
  }

  /** The interceptor's answer: replay the request, or reject with the
      original error. */
  datatype ErrorOutcome = Replay | Reject

  /** What the response interceptor does with a failed request: the outcome,
      the new storage, the new `_retry` flag, whether the browser is sent to
      the login page, and the bearer header set on the request. `refreshed` is
      the result of the refresh call (`None` when it throws); it is consulted
      only when that call is made. */
  datatype Interception = Interception(outcome: ErrorOutcome, storage: Storage, retried: bool,
                                       toLogin: bool, authorization: Option<string>)

  /** A refresh is attempted for a 401 on a request not yet retried when a
      refresh token is stored. */
  predicate RefreshAttempted(storage: Storage, retried: bool, status: Option<int>) {
    status == Some(401) && !retried && Stored(storage, REFRESH_TOKEN)
  }

  function Intercept(storage: Storage, retried: bool, status: Option<int>, refreshed: Option<string>): (r: Interception)
    ensures r.retried == (retried || status == Some(401))
    ensures r.outcome == Replay <==> RefreshAttempted(storage, retried, status) && refreshed.Some?
    ensures r.outcome == Replay ==>
      r.storage == storage[ACCESS_TOKEN := refreshed.value] && r.authorization == Some(Bearer(refreshed.value)) && !r.toLogin
    ensures r.toLogin <==> RefreshAttempted(storage, retried, status) && refreshed.None?
    ensures r.toLogin ==> r.storage == storage - {ACCESS_TOKEN, REFRESH_TOKEN} && r.authorization == None
    ensures !RefreshAttempted(storage, retried, status) ==> r.outcome == Reject && r.storage == storage && r.authorization == None
  {
    if status == Some(401) && !retried then
      if Stored(storage, REFRESH_TOKEN) then
        match refreshed
        case Some(access) => Interception(Replay, storage[ACCESS_TOKEN := access], true, false, Some(Bearer(access)))
        case None => Interception(Reject, storage - {ACCESS_TOKEN, REFRESH_TOKEN}, true, true, None)
      else Interception(Reject, storage, true, false, None)
    else Interception(Reject, storage, retried, false, None)
  }

  /** The response interceptor's error handler, changing the stored tokens,
      the browser location and the request config as `Intercept` says. */
  method OnResponseError(browser: Browser, config: RequestConfig, status: Option<int>, refreshed: Option<string>)
    returns (o: ErrorOutcome)
    modifies browser, config
    ensures var i := Intercept(old(browser.storage), old(config.retried), status, refreshed);
      o == i.outcome && browser.storage == i.storage && config.retried == i.retried &&
      browser.location == (if i.toLogin then Some(LOGIN_PATH) else old(browser.location)) &&
      config.headers == (if i.authorization.Some? then old(config.headers)[AUTHORIZATION := i.authorization.value]
                         else old(config.headers))
  {
    o := Reject;
    if status == Some(401) && !config.retried {
      config.retried := true;
      if REFRESH_TOKEN in browser.storage && browser.storage[REFRESH_TOKEN] != "" {
        match refreshed {
          case Some(access) =>
            browser.storage := browser.storage[ACCESS_TOKEN := access];
            config.headers := config.headers[AUTHORIZATION := Bearer(access)];
            o := Replay;
          case None =>
            browser.storage := browser.storage - {ACCESS_TOKEN};
            browser.storage := browser.storage - {REFRESH_TOKEN};
            browser.location := Some(LOGIN_PATH);
        }
      }
    }
  }

  /** A replayed request that fails again is rejected without a second
      refresh, and the storage the first refresh wrote is kept. */
  lemma ReplayAtMostOnce(storage: Storage, status: Option<int>, refreshed: Option<string>,
                         status2: Option<int>, refreshed2: Option<string>)
    requires Intercept(storage, false, status, refreshed).outcome == Replay
    ensures var first := Intercept(storage, false, status, refreshed);
            var second := Intercept(first.storage, first.retried, status2, refreshed2);
            first.retried && second.outcome == Reject && !second.toLogin && second.storage == first.storage
  {
  }

  /** A successful refresh changes only the access token: the refresh token
      and the stored user are kept. */
  lemma RefreshKeepsOtherKeys(storage: Storage, status: Option<int>, refreshed: Option<string>, key: string)
    requires Intercept(storage, false, status, refreshed).outcome == Replay && key != ACCESS_TOKEN
    ensures var r := Intercept(storage, false, status, refreshed);
            (key in r.storage <==> key in storage) && (key in storage ==> r.storage[key] == storage[key])
  {
  }

  /** A failed refresh logs the tokens out but keeps `user_data`. */
  lemma FailedRefreshKeepsUserData(storage: Storage, retried: bool, status: Option<int>)
    requires RefreshAttempted(storage, retried, status)
    ensures var r := Intercept(storage, retried, status, None);
            !Stored(r.storage, ACCESS_TOKEN) && !Stored(r.storage, REFRESH_TOKEN) &&
            (USER_DATA in r.storage <==> USER_DATA in storage) &&
            (USER_DATA in storage ==> r.storage[USER_DATA] == storage[USER_DATA])
  {
  }

  /** `reportAPI.upload`: the multipart form always carries the file, and
      carries the JSON of `data` only when `data` is truthy. */
  function ReportUploadForm(file: string, data: JsValue, stringify: JsValue -> string): (form: seq<(string, string)>)
    ensures 1 <= |form| <= 2 && form[0] == ("file", file)
    ensures |form| == 2 <==> Truthy(data)
    ensures |form| == 2 ==> form[1] == ("data", stringify(data))
  {
    if Truthy(data) then [("file", file), ("data", stringify(data))] else [("file", file)]
  }

  /** The URL the report is posted to. */
  function ReportUploadPath(stepId: nat): (p: string)
    ensures IsPrefix("/journeys/steps/", p) && IsSuffix("/report/", p) && |p| > 24
    ensures ParseNat(p[16..|p| - 8]) == Some(stepId)
  {
    NatToStringRoundTrip(stepId);
    var p := "/journeys/steps/" + NatToString(stepId) + "/report/";
    assert p[16..|p| - 8] == NatToString(stepId);
    p
  }
}

=== FILE: appointment_views.dfy ===
/** The appointment endpoints: booking (with the slot conflict window, the
    journey, the optional auto-consent and the consultation step), the
    doctor's start / complete actions, cancellation with its partial refund,
    the doctor's queue for a day and the wait-time estimate. Times are integer
    seconds; a day is a 86400-second block. */
module AppointmentViews {
  import opened Wrappers
  import opened Text
  import opened Money
  import opened Users
  import opened Appointments
  import opened Journeys
  import opened Payments
  import opened Database
  import opened Sorting
  import opened Seqs

  const SLOT_WINDOW: int := 30 * 60
  const SECONDS_PER_DAY: int := 24 * 60 * 60

  /** The calendar day a time falls on. */
  function Day(t: int): int { t / SECONDS_PER_DAY }

  function TimeKey(a: Appointment): int { a.scheduledTime }

  // ---------------------------------------------------------------------------
  // Lifecycle

  /** The moves the views make: start, complete, and cancel from either open state. */
  predicate Transition(s: Status, t: Status) {
    (s == SCHEDULED && t == IN_PROGRESS) || (s == IN_PROGRESS && t == Status.COMPLETED) ||
    ((s == SCHEDULED || s == IN_PROGRESS) && t == CANCELLED)
  }

  // ---------------------------------------------------------------------------
  // Booking

  /** The statuses that keep a slot taken; a cancelled appointment frees it. */
  predicate HoldsSlot(s: Status) { s == SCHEDULED || s == IN_PROGRESS || s == Status.COMPLETED }

  /** `a` blocks booking `doctor` at `t`: same doctor, a held slot, and a time in
      the half-open window [t - 30 min, t + 30 min). */
  predicate Blocks(a: Appointment, doctor: nat, t: int) {
    a.doctor == doctor && HoldsSlot(a.status) && t - SLOT_WINDOW <= a.scheduledTime < t + SLOT_WINDOW
  }

  /** The conflict query of `perform_create`. */
  function HasConflict(appts: seq<Appointment>, doctor: nat, t: int): (b: bool)
    ensures b <==> exists i :: 0 <= i < |appts| && Blocks(appts[i], doctor, t)
  {
    if |appts| == 0 then false
    else
      assert forall i :: 0 <= i < |appts| - 1 ==> appts[..|appts| - 1][i] == appts[i];
      Blocks(appts[|appts| - 1], doctor, t) || HasConflict(appts[..|appts| - 1], doctor, t)
  }

  /** The window is lopsided: an appointment exactly 30 minutes earlier blocks,
      one exactly 30 minutes later does not, and a cancelled one never does. */
  lemma WindowEdges(appts: seq<Appointment>, a: Appointment, t: int)
    ensures HoldsSlot(a.status) ==> HasConflict(appts + [a.(scheduledTime := t - SLOT_WINDOW)], a.doctor, t)
    ensures !HasConflict(appts, a.doctor, t) ==>
              !HasConflict(appts + [a.(scheduledTime := t + SLOT_WINDOW)], a.doctor, t)
    ensures !HasConflict(appts, a.doctor, t) ==>
              !HasConflict(appts + [a.(status := CANCELLED)], a.doctor, t)
  {
    var b := a.(scheduledTime := t - SLOT_WINDOW);
    assert (appts + [b])[|appts|] == b;
    var c := a.(scheduledTime := t + SLOT_WINDOW);
    assert forall i :: 0 <= i < |appts| ==> (appts + [c])[i] == appts[i];
    var d := a.(status := CANCELLED);
    assert forall i :: 0 <= i < |appts| ==> (appts + [d])[i] == appts[i];
  }

  /** Two slot-holding appointments of a doctor are at least 30 minutes apart. */
  ghost predicate Spaced(appts: seq<Appointment>) {
    forall i, j :: 0 <= i < |appts| && 0 <= j < |appts| && i != j &&
      appts[i].doctor == appts[j].doctor && HoldsSlot(appts[i].status) && HoldsSlot(appts[j].status)
      ==> appts[i].scheduledTime + SLOT_WINDOW <= appts[j].scheduledTime ||
          appts[j].scheduledTime + SLOT_WINDOW <= appts[i].scheduledTime
  }

  /** A booking the conflict query lets through keeps the doctor's slots spaced. */
  lemma BookingKeepsSpaced(appts: seq<Appointment>, a: Appointment)
    requires !HasConflict(appts, a.doctor, a.scheduledTime)
    ensures Spaced(appts) ==> Spaced(appts + [a])
  {
    if !Spaced(appts) {
      return;
    }
    var s := appts + [a];
    forall i, j | 0 <= i < |s| && 0 <= j < |s| && i != j && s[i].doctor == s[j].doctor
                  && HoldsSlot(s[i].status) && HoldsSlot(s[j].status)
      ensures s[i].scheduledTime + SLOT_WINDOW <= s[j].scheduledTime ||
              s[j].scheduledTime + SLOT_WINDOW <= s[i].scheduledTime
    {
      if i == |appts| {
        assert !Blocks(appts[j], a.doctor, a.scheduledTime);
      } else if j == |appts| {
        assert !Blocks(appts[i], a.doctor, a.scheduledTime);
      }
    }
  }

  /** An update that keeps doctor and time and does not take a freed slot back
      keeps the slots spaced. */
  lemma UpdateKeepsSpaced(appts: seq<Appointment>, k: nat, b: Appointment)
    requires k < |appts|
    requires b.doctor == appts[k].doctor && b.scheduledTime == appts[k].scheduledTime
    requires HoldsSlot(b.status) ==> HoldsSlot(appts[k].status)
    ensures Spaced(appts) ==> Spaced(appts[k := b])
  {
  }

  /** Extra inputs `perform_create` pops from the validated data. */
  datatype BookingExtras = BookingExtras(journeyId: Option<nat>, reason: Option<string>, grantConsent: bool)

  /** `AppointmentCreateSerializer` declares none of the three, so the pops
      always return their defaults. */
  const NO_EXTRAS: BookingExtras := BookingExtras(None, None, false)

  /** The title of a journey opened by a booking: the reason when one is given
      and non-empty, otherwise "Consultation - <date>". */
  function JourneyTitle(reason: Option<string>, dateLabel: string): (title: string)
    ensures reason.Some? && reason.value != "" ==> title == reason.value
    ensures reason.None? || reason.value == "" ==> IsPrefix("Consultation - ", title)
  {
    if reason.Some? && reason.value != "" then reason.value else "Consultation - " + dateLabel
  }

  /** The auto-consent of a booking: create a GRANTED record when none exists,
      upgrade a DENIED or REVOKED one to GRANTED, leave PENDING and GRANTED alone. */
  function AutoConsent(cs: seq<Consent>, patient: nat, org: nat, doctor: nat,
                       purpose: string, now: int): (r: seq<Consent>)
    ensures |r| == if FindConsent(cs, patient, org).None? then |cs| + 1 else |cs|
    ensures forall i :: 0 <= i < |cs| && (cs[i].patient != patient || cs[i].requestingOrg != org)
              ==> r[i] == cs[i]
    ensures forall i :: 0 <= i < |r| ==> r[i] in cs || (r[i].patient == patient && r[i].requestingOrg == org)
    ensures ConsentsUnique(cs) ==> ConsentsUnique(r)
  {
    match FindConsent(cs, patient, org)
    case None => cs + [Consent(patient, org, Some(doctor), GRANTED, purpose, now, Some(now))]
    case Some(k) =>
      if cs[k].status == DENIED || cs[k].status == REVOKED then
        cs[k := cs[k].(status := GRANTED, purpose := purpose, respondedAt := Some(now))]
      else cs
  }

  /** After the auto-consent the organisation holds a GRANTED consent, unless a
      PENDING request was already on record: that one is left pending. */
  lemma AutoConsentGrants(cs: seq<Consent>, patient: nat, org: nat, doctor: nat, purpose: string, now: int)
    requires ConsentsUnique(cs)
    ensures var f := FindConsent(cs, patient, org);
      (HasGrantedConsent(AutoConsent(cs, patient, org, doctor, purpose, now), patient, Some(org))
       <==> f.None? || cs[f.value].status != PENDING)
  {
    var r := AutoConsent(cs, patient, org, doctor, purpose, now);
    var f := FindConsent(cs, patient, org);
    if f.None? {
      assert r[|cs|].status == GRANTED && r[|cs|].patient == patient && r[|cs|].requestingOrg == org;
    } else if cs[f.value].status != PENDING {
      assert r[f.value].status == GRANTED;
    }
  }

  datatype BookError = UnknownDoctor | PastTime | OnlyPatientsCanBook | NoPatientProfile | SlotTaken | JourneyNotFound

  /** The journey a successful booking attaches its step to. */
  function BookingJourney(journeys: seq<Journey>, extras: BookingExtras): nat {
    if extras.journeyId.Some? then extras.journeyId.value else |journeys|
  }

  /** The consents after an auto-consent still point at existing rows. */
  lemma AutoConsentRefs(t: Tables, p: nat, org: nat, doctor: nat, purpose: string, now: int)
    requires TablesValid(t) && p < |t.patients| && org < |t.providers|
    ensures var cs := AutoConsent(t.consents, p, org, doctor, purpose, now);
      ConsentsUnique(cs) &&
      forall i :: 0 <= i < |cs| ==> cs[i].patient < |t.patients| && cs[i].requestingOrg < |t.providers|
  {
    var cs := AutoConsent(t.consents, p, org, doctor, purpose, now);
    forall i | 0 <= i < |cs| ensures cs[i].patient < |t.patients| && cs[i].requestingOrg < |t.providers| {
      if cs[i] in t.consents {
        var k :| 0 <= k < |t.consents| && t.consents[k] == cs[i];
      }
    }
  }

  /** The tables after a booking: the optional new journey, the consents, the
      new step and the new appointment. */
  function Booked(t: Tables, newJourney: seq<Journey>, consents: seq<Consent>, step: Step, a: Appointment): Tables {
    t.(journeys := t.journeys + newJourney, consents := consents,
       steps := t.steps + [step], appointments := t.appointments + [a])
  }

  /** The rows a booking inserts or updates keep every table constraint. */
  lemma BookingKeepsValid(t: Tables, p: nat, doctor: nat, newJourney: seq<Journey>,
                          grant: bool, purpose: string, now: int, step: Step, a: Appointment)
    requires TablesValid(t) && p < |t.patients| && doctor < |t.doctors|
    requires |newJourney| <= 1
    requires forall k :: 0 <= k < |newJourney| ==>
               newJourney[k].patient == p && newJourney[k].createdByOrg == t.doctors[doctor].organization
    requires grant ==> t.doctors[doctor].organization.Some?
    requires step.journey < |t.journeys| + |newJourney|
    requires step.order == |StepsOf(t.steps, step.journey)| + 1
    requires a.patient == p && a.doctor == doctor && a.journeyStep == Some(|t.steps|)
    ensures var consents := if grant then AutoConsent(t.consents, p, t.doctors[doctor].organization.value,
                                                      doctor, purpose, now)
                            else t.consents;
      TablesValid(Booked(t, newJourney, consents, step, a))
  {
    var t1 := t;
    if |newJourney| == 1 {
      AddJourneyKeepsValid(t, newJourney[0]);
      t1 := t.(journeys := t.journeys + [newJourney[0]]);
    }
    assert t1 == t.(journeys := t.journeys + newJourney);
    var t2 := t1;
    if grant {
      var org := t.doctors[doctor].organization.value;
      AutoConsentRefs(t1, p, org, doctor, purpose, now);
      t2 := t1.(consents := AutoConsent(t.consents, p, org, doctor, purpose, now));
      SetConsentsKeepsValid(t1, t2.consents);
    }
    AddStepKeepsValid(t2, step);
    var t3 := t2.(steps := t2.steps + [step]);
    AddAppointmentKeepsValid(t3, a);
  }

  /** The checks of a booking, in the order they run: the serializer's fields
      (the doctor's primary key must name a profile, the scheduled time must
      not be past), then the role, the patient profile, the slot and the named
      journey. The result is the booking patient's profile. */
  function CheckBooking(t: Tables, user: User, doctor: nat, scheduledTime: int,
                        extras: BookingExtras, now: int): (r: Result<nat, BookError>)
    ensures r == Err(UnknownDoctor) <==> doctor >= |t.doctors|
    ensures r == Err(PastTime) <==> doctor < |t.doctors| && scheduledTime < now
    ensures r == Err(OnlyPatientsCanBook) <==> doctor < |t.doctors| && scheduledTime >= now && !IsPatient(user)
    ensures r == Err(SlotTaken) ==> HasConflict(t.appointments, doctor, scheduledTime)
    ensures r.Ok? <==>
      doctor < |t.doctors| && scheduledTime >= now && IsPatient(user) && PatientOf(t.patients, user.id).Some? &&
      !HasConflict(t.appointments, doctor, scheduledTime) &&
      (extras.journeyId.Some? ==>
         extras.journeyId.value < |t.journeys| &&
         t.journeys[extras.journeyId.value].patient == PatientOf(t.patients, user.id).value)
    ensures r.Ok? ==> r.value == PatientOf(t.patients, user.id).value
  {
    if doctor >= |t.doctors| then Err(UnknownDoctor)
    else if ValidateScheduledTime(scheduledTime, now).Err? then Err(PastTime)
    else if !IsPatient(user) then Err(OnlyPatientsCanBook)
    else match PatientOf(t.patients, user.id)
      case None => Err(NoPatientProfile)
      case Some(p) =>
        if HasConflict(t.appointments, doctor, scheduledTime) then Err(SlotTaken)
        else if extras.journeyId.Some? &&
                (extras.journeyId.value >= |t.journeys| || t.journeys[extras.journeyId.value].patient != p)
        then Err(JourneyNotFound)
        else Ok(p)
  }

  /** The tables after `perform_create` books for the patient profile `p`: a
      new journey unless one was named, the auto-consent when asked for and
      the doctor has an organisation, the CONSULTATION step and the
      appointment. `dateLabel` is the formatted date of the scheduled time. */
  function BookedTables(t: Tables, p: nat, doctor: nat, doctorUser: User, scheduledTime: int,
                        estimatedDuration: Option<int>, extras: BookingExtras, dateLabel: string, now: int): Tables
    requires doctor < |t.doctors|
    requires extras.journeyId.Some? ==> extras.journeyId.value < |t.journeys|
  {
    var org := t.doctors[doctor].organization;
    var newJourney := if extras.journeyId.Some? then []
                      else [NewJourney(p, JourneyTitle(extras.reason, dateLabel), now, org)];
    var j := BookingJourney(t.journeys, extras);
    var purpose := "Auto-granted for journey: " + (t.journeys + newJourney)[j].title;
    var consents := if extras.grantConsent && org.Some? then AutoConsent(t.consents, p, org.value, doctor, purpose, now)
                    else t.consents;
    var step := Step(j, None, |StepsOf(t.steps, j)| + 1, CONSULTATION,
                     "Appointment with Dr. " + doctorUser.firstName + " " + doctorUser.lastName,
                     now, org, Some(doctor), None);
    Booked(t, newJourney, consents, step, NewAppointment(p, doctor, scheduledTime, now, estimatedDuration, Some(|t.steps|)))
  }

  /** What a booking writes: the appointment appended, the journey appended
      unless one was named, one step appended to the named or new journey and
      numbered one past its last, the consent rows replaced only when an
      auto-consent is granted; every other table is left alone. */
  lemma BookedTablesContents(t: Tables, p: nat, doctor: nat, doctorUser: User, scheduledTime: int,
                             estimatedDuration: Option<int>, extras: BookingExtras, dateLabel: string, now: int)
    requires doctor < |t.doctors|
    requires extras.journeyId.Some? ==> extras.journeyId.value < |t.journeys|
    ensures var u := BookedTables(t, p, doctor, doctorUser, scheduledTime, estimatedDuration, extras, dateLabel, now);
      var org := t.doctors[doctor].organization;
      var j := BookingJourney(t.journeys, extras);
      var n := |t.steps|;
      u == t.(journeys := u.journeys, consents := u.consents, steps := u.steps, appointments := u.appointments) &&
      u.appointments == t.appointments + [NewAppointment(p, doctor, scheduledTime, now, estimatedDuration, Some(n))] &&
      (extras.journeyId.None? ==>
         u.journeys == t.journeys + [NewJourney(p, JourneyTitle(extras.reason, dateLabel), now, org)]) &&
      (extras.journeyId.Some? ==> u.journeys == t.journeys) &&
      |u.steps| == n + 1 && u.steps[..n] == t.steps && j < |u.journeys| &&
      u.steps[n].journey == j && u.steps[n].kind == CONSULTATION &&
      u.steps[n].order == |StepsOf(t.steps, j)| + 1 &&
      u.steps[n].createdByDoctor == Some(doctor) && u.steps[n].createdByOrg == org &&
      (extras.grantConsent && org.Some? ==>
         u.consents == AutoConsent(t.consents, p, org.value, doctor,
                                   "Auto-granted for journey: " + u.journeys[j].title, now)) &&
      (!(extras.grantConsent && org.Some?) ==> u.consents == t.consents)
  {
    var u := BookedTables(t, p, doctor, doctorUser, scheduledTime, estimatedDuration, extras, dateLabel, now);
    assert u.steps[..|t.steps|] == t.steps;
  }

  /** A booking for an existing patient with an existing doctor keeps every
      table constraint. */
  lemma BookedTablesValid(t: Tables, p: nat, doctor: nat, doctorUser: User, scheduledTime: int,
                          estimatedDuration: Option<int>, extras: BookingExtras, dateLabel: string, now: int)
    requires TablesValid(t) && p < |t.patients| && doctor < |t.doctors|
    requires extras.journeyId.Some? ==> extras.journeyId.value < |t.journeys|
    ensures TablesValid(BookedTables(t, p, doctor, doctorUser, scheduledTime, estimatedDuration, extras, dateLabel, now))
  {
    var org := t.doctors[doctor].organization;
    var newJourney := if extras.journeyId.Some? then []
                      else [NewJourney(p, JourneyTitle(extras.reason, dateLabel), now, org)];
    var j := BookingJourney(t.journeys, extras);
    var purpose := "Auto-granted for journey: " + (t.journeys + newJourney)[j].title;
    var step := Step(j, None, |StepsOf(t.steps, j)| + 1, CONSULTATION,
                     "Appointment with Dr. " + doctorUser.firstName + " " + doctorUser.lastName,
                     now, org, Some(doctor), None);
    BookingKeepsValid(t, p, doctor, newJourney, extras.grantConsent && org.Some?, purpose, now, step,
                      NewAppointment(p, doctor, scheduledTime, now, estimatedDuration, Some(|t.steps|)));
  }

  /** Creating an appointment: the serializer's field checks, then
      `perform_create`. A refused booking changes nothing; an accepted one
      leaves the tables as `BookedTables` of the old ones. */
  method Book(db: Db, user: User, doctor: nat, doctorUser: User, scheduledTime: int,
              estimatedDuration: Option<int>, extras: BookingExtras, dateLabel: string, now: int)
    returns (r: Result<nat, BookError>)
    requires db.Valid() && (doctor < |db.doctors| ==> doctorUser.id == db.doctors[doctor].userId)
    modifies db`appointments, db`journeys, db`steps, db`consents
    ensures db.Valid()
    ensures var c := CheckBooking(old(db.Snapshot()), user, doctor, scheduledTime, extras, now);
      (r.Err? <==> c.Err?) && (r.Err? ==> r == c)
    ensures r.Err? ==> db.Snapshot() == old(db.Snapshot())
    ensures r.Ok? ==>
      var p := CheckBooking(old(db.Snapshot()), user, doctor, scheduledTime, extras, now).value;
      r.value == |old(db.appointments)| &&
      db.Snapshot() == BookedTables(old(db.Snapshot()), p, doctor, doctorUser, scheduledTime,
                                    estimatedDuration, extras, dateLabel, now)
  {
    var t := db.Snapshot();
    var c := CheckBooking(t, user, doctor, scheduledTime, extras, now);
    if c.Err? {
      return Err(c.error);
    }
    var u := BookedTables(t, c.value, doctor, doctorUser, scheduledTime, estimatedDuration, extras, dateLabel, now);
    BookedTablesValid(t, c.value, doctor, doctorUser, scheduledTime, estimatedDuration, extras, dateLabel, now);
    db.journeys, db.consents, db.steps, db.appointments := u.journeys, u.consents, u.steps, u.appointments;
    assert db.Snapshot() == u;
    r := Ok(|t.appointments|);
  }

  // ---------------------------------------------------------------------------
  // Start, complete, cancel

  datatype ActionError =
    | Forbidden             // 403: the role may not act
    | NoProfile             // the user has no profile of their role
    | NotFound              // 404: not one of the user's appointments
    | WrongStatus(status: Status)  // 400

  /** The appointment `id` belongs to the doctor profile of `user`. */
  predicate DoctorOwns(db: Db, user: User, id: nat)
    reads db
  {
    var d := DoctorOf(db.doctors, user.id);
    d.Some? && id < |db.appointments| && db.appointments[id].doctor == d.value
  }

  /** `StartAppointmentView.post`: a doctor moves their SCHEDULED appointment to
      IN_PROGRESS and records the start time. */
  method Start(db: Db, user: User, id: nat, now: int) returns (r: Result<Appointment, ActionError>)
    requires db.Valid()
    modifies db`appointments
    ensures db.Valid()
    ensures Spaced(old(db.appointments)) ==> Spaced(db.appointments)
    ensures r.Err? ==> db.appointments == old(db.appointments)
    ensures r == Err(Forbidden) <==> !IsDoctor(user)
    ensures r.Ok? <==> IsDoctor(user) && old(DoctorOwns(db, user, id)) && old(db.appointments[id].status) == SCHEDULED
    ensures r.Ok? ==>
      Transition(old(db.appointments[id].status), IN_PROGRESS) &&
      db.appointments ==
        old(db.appointments)[id := old(db.appointments[id]).(status := IN_PROGRESS, actualStartTime := Some(now))] &&
      r.value == db.appointments[id]
    ensures r.Err? && r.error.WrongStatus? ==>
      old(DoctorOwns(db, user, id)) && r.error.status == old(db.appointments[id].status) != SCHEDULED
  {
    if !IsDoctor(user) {
      return Err(Forbidden);
    }
    var d := DoctorOf(db.doctors, user.id);
    if d.None? {
      return Err(NoProfile);
    }
    if id >= |db.appointments| || db.appointments[id].doctor != d.value {
      return Err(NotFound);
    }
    var a := db.appointments[id];
    if a.status != SCHEDULED {
      return Err(WrongStatus(a.status));
    }
    var b := a.(status := IN_PROGRESS, actualStartTime := Some(now));
    AppointmentUpdateKeepsValid(db.Snapshot(), id, b);
    UpdateKeepsSpaced(db.appointments, id, b);
    db.appointments := db.appointments[id := b];
    r := Ok(b);
  }

  /** `CompleteAppointmentView.post`: a doctor moves their IN_PROGRESS
      appointment to COMPLETED and records the end time. */
  method Complete(db: Db, user: User, id: nat, now: int) returns (r: Result<Appointment, ActionError>)
    requires db.Valid()
    modifies db`appointments
    ensures db.Valid()
    ensures Spaced(old(db.appointments)) ==> Spaced(db.appointments)
    ensures r.Err? ==> db.appointments == old(db.appointments)
    ensures r == Err(Forbidden) <==> !IsDoctor(user)
    ensures r.Ok? <==> IsDoctor(user) && old(DoctorOwns(db, user, id)) && old(db.appointments[id].status) == IN_PROGRESS
    ensures r.Ok? ==>
      Transition(old(db.appointments[id].status), Status.COMPLETED) &&
      db.appointments ==
        old(db.appointments)[id := old(db.appointments[id]).(status := Status.COMPLETED, actualEndTime := Some(now))] &&
      r.value == db.appointments[id]
    ensures r.Ok? && old(db.appointments[id].actualStartTime).Some? ==>
      ActualDuration(r.value) == Some(now - old(db.appointments[id].actualStartTime).value)
    ensures r.Err? && r.error.WrongStatus? ==>
      old(DoctorOwns(db, user, id)) && r.error.status == old(db.appointments[id].status) != IN_PROGRESS
  {
    if !IsDoctor(user) {
      return Err(Forbidden);
    }
    var d := DoctorOf(db.doctors, user.id);
    if d.None? {
      return Err(NoProfile);
    }
    if id >= |db.appointments| || db.appointments[id].doctor != d.value {
      return Err(NotFound);
    }
    var a := db.appointments[id];
    if a.status != IN_PROGRESS {
      return Err(WrongStatus(a.status));
    }
    var b := a.(status := Status.COMPLETED, actualEndTime := Some(now));
    AppointmentUpdateKeepsValid(db.Snapshot(), id, b);
    UpdateKeepsSpaced(db.appointments, id, b);
    db.appointments := db.appointments[id := b];
    r := Ok(b);
  }

  /** The 5% cancellation fee, rounded half up to the paisa. */
  function CancellationFee(fee: int): (c: int)
    ensures -100 <= 2 * (c * 100 - fee * 5) <= 100
    ensures 2 * (c * 100 - fee * 5) == 100 ==> fee >= 0
    ensures fee >= 0 ==> 0 <= c <= fee
  {
    RoundHalfUp(fee * 5, 100)
  }

  /** What a cancellation answers: the refund and the fee kept, when it was paid. */
  datatype CancelOutcome = CancelOutcome(refund: Option<int>, cancellationFee: Option<int>)

  const CANCEL_REFUND_NOTE: string := "Refund for cancelled appointment (5% cancellation fee deducted)"

  /** The description of the doctor's debit when a paid appointment is cancelled. */
  function CancelDebitNote(patientName: string, cf: int): string {
    "Refund to " + patientName + " (kept ₹" + PaiseToString(cf) + " cancellation fee)"
  }

  /** The wallet part of a paid cancellation: the patient is credited the fee
      minus the cancellation fee; the doctor is debited the same only when
      their balance covers it, and otherwise keeps everything. */
  method SettleCancellation(patientWallet: Wallet, doctorWallet: Wallet, fee: int, id: nat, patientName: string)
    returns (refund: int, cf: int)
    requires patientWallet.Valid() && doctorWallet.Valid() && patientWallet != doctorWallet
    modifies patientWallet, doctorWallet
    ensures patientWallet.Valid() && doctorWallet.Valid()
    ensures cf == CancellationFee(fee) && refund == fee - cf
    ensures patientWallet.State() == CreditLedger(old(patientWallet.State()), refund, REFUND, Some(id), CANCEL_REFUND_NOTE)
    ensures HasTx(patientWallet.transactions, REFUND, id)
    ensures old(doctorWallet.balance) >= refund ==>
              Ok(doctorWallet.State()) == DebitLedger(old(doctorWallet.State()), refund, REFUND, Some(id),
                                                      CancelDebitNote(patientName, cf))
    ensures old(doctorWallet.balance) < refund ==> doctorWallet.State() == old(doctorWallet.State())
  {
    cf := CancellationFee(fee);
    refund := fee - cf;
    var _ := patientWallet.Credit(refund, REFUND, Some(id), CANCEL_REFUND_NOTE);
    assert patientWallet.transactions[0].reason == REFUND;
    if doctorWallet.balance >= refund {
      var _ := doctorWallet.Debit(refund, REFUND, Some(id), CancelDebitNote(patientName, cf));
    }
  }

  /** The appointment `id` belongs to `user`'s profile of their role. */
  predicate MayCancel(t: Tables, user: User, id: nat) {
    if IsPatient(user) then
      var p := PatientOf(t.patients, user.id);
      p.Some? && id < |t.appointments| && t.appointments[id].patient == p.value
    else
      var d := DoctorOf(t.doctors, user.id);
      IsDoctor(user) && d.Some? && id < |t.appointments| && t.appointments[id].doctor == d.value
  }

  /** The checks of `CancelAppointmentView.post`, in their order: the role, the
      profile, the ownership, then the status. */
  function CheckCancel(t: Tables, user: User, id: nat): (r: Result<Appointment, ActionError>)
    ensures r == Err(Forbidden) <==> !IsPatient(user) && !IsDoctor(user)
    ensures r.Ok? <==> MayCancel(t, user, id) &&
                       (t.appointments[id].status == SCHEDULED || t.appointments[id].status == IN_PROGRESS)
    ensures r.Ok? ==> r.value == t.appointments[id] && Transition(r.value.status, CANCELLED)
    ensures r.Err? && r.error.WrongStatus? ==>
              MayCancel(t, user, id) && r.error.status == t.appointments[id].status
  {
    var owner :=
      if IsPatient(user) then
        match PatientOf(t.patients, user.id)
        case None => Err(NoProfile)
        case Some(p) =>
          if id >= |t.appointments| || t.appointments[id].patient != p then Err(NotFound) else Ok(id)
      else if IsDoctor(user) then
        match DoctorOf(t.doctors, user.id)
        case None => Err(NoProfile)
        case Some(d) =>
          if id >= |t.appointments| || t.appointments[id].doctor != d then Err(NotFound) else Ok(id)
      else Err(Forbidden);
    if owner.Err? then Err(owner.error)
    else if t.appointments[id].status != SCHEDULED && t.appointments[id].status != IN_PROGRESS then
      Err(WrongStatus(t.appointments[id].status))
    else Ok(t.appointments[id])
  }

  /** `CancelAppointmentView.post`: an open appointment of the patient or the
      doctor asking becomes CANCELLED; a paid one is settled and marked unpaid. */
  method Cancel(db: Db, user: User, id: nat, patientWallet: Wallet, doctorWallet: Wallet, patientUser: User)
    returns (r: Result<CancelOutcome, ActionError>)
    requires db.Valid() && patientWallet.Valid() && doctorWallet.Valid() && patientWallet != doctorWallet
    requires id < |db.appointments| ==>
               patientWallet.userId == patientUser.id == db.patients[db.appointments[id].patient].userId &&
               doctorWallet.userId == db.doctors[db.appointments[id].doctor].userId
    modifies db`appointments, patientWallet, doctorWallet
    ensures db.Valid() && patientWallet.Valid() && doctorWallet.Valid()
    ensures var c := CheckCancel(old(db.Snapshot()), user, id);
      (r.Err? <==> c.Err?) &&
      (r.Err? ==> r.error == c.error
                  && db.appointments == old(db.appointments)
                  && patientWallet.State() == old(patientWallet.State())
                  && doctorWallet.State() == old(doctorWallet.State()))
    ensures r.Ok? ==>
      var a := old(db.appointments[id]);
      db.appointments == old(db.appointments)[id := a.(status := CANCELLED, isPaid := false)] &&
      (!a.isPaid ==> r.value == CancelOutcome(None, None)
                     && patientWallet.State() == old(patientWallet.State())
                     && doctorWallet.State() == old(doctorWallet.State())) &&
      (a.isPaid ==>
         var fee := db.doctors[a.doctor].consultationFee;
         var cf := CancellationFee(fee);
         var refund := fee - cf;
         r.value == CancelOutcome(Some(refund), Some(cf)) &&
         patientWallet.State() == CreditLedger(old(patientWallet.State()), refund, REFUND, Some(id), CANCEL_REFUND_NOTE) &&
         HasTx(patientWallet.transactions, REFUND, id) &&
         (old(doctorWallet.balance) >= refund ==>
            Ok(doctorWallet.State()) == DebitLedger(old(doctorWallet.State()), refund, REFUND, Some(id),
                                                    CancelDebitNote(patientUser.firstName, cf))) &&
         (old(doctorWallet.balance) < refund ==> doctorWallet.State() == old(doctorWallet.State())))
  {
    var t := db.Snapshot();
    var c := CheckCancel(t, user, id);
    if c.Err? {
      return Err(c.error);
    }
    var a := c.value;
    var outcome := CancelOutcome(None, None);
    if a.isPaid {
      var refund, cf := SettleCancellation(patientWallet, doctorWallet, t.doctors[a.doctor].consultationFee,
                                           id, patientUser.firstName);
      outcome := CancelOutcome(Some(refund), Some(cf));
    }
    var b := a.(status := CANCELLED, isPaid := false);
    AppointmentUpdateKeepsValid(t, id, b);
    var t2 := t.(appointments := t.appointments[id := b]);
    db.appointments := t2.appointments;
    assert db.Snapshot() == t2;
    r := Ok(outcome);
  }
}

=== FILE: appointments.dfy ===
/** The appointment row, its defaults and derived duration, and the getters and
    validation of the appointment serializers. Times are integer seconds since
    an epoch; durations are integer seconds. */
module Appointments {
  import opened Wrappers
  import opened Text
  import opened Money
  import opened Users

  datatype Status = SCHEDULED | IN_PROGRESS | COMPLETED | CANCELLED

  function StatusName(s: Status): string {
    match s
    case SCHEDULED => "SCHEDULED"
    case IN_PROGRESS => "IN_PROGRESS"
    case COMPLETED => "COMPLETED"
    case CANCELLED => "CANCELLED"
  }

  /** Reads a stored `status` column: exactly the four choices are statuses. */
  function ParseStatus(s: string): (r: Option<Status>)
    ensures r.Some? ==> StatusName(r.value) == s
    ensures r.None? ==> forall x: Status :: StatusName(x) != s
  {
    if s == "SCHEDULED" then Some(SCHEDULED)
    else if s == "IN_PROGRESS" then Some(IN_PROGRESS)
    else if s == "COMPLETED" then Some(COMPLETED)
    else if s == "CANCELLED" then Some(CANCELLED)
    else None
  }

  lemma StatusNameRoundTrip(s: Status)
    ensures ParseStatus(StatusName(s)) == Some(s)
  {
    assert "SCHEDULED" != "CANCELLED" && "COMPLETED" != "CANCELLED" by {
      assert "SCHEDULED"[0] != "CANCELLED"[0] && "COMPLETED"[2] != "CANCELLED"[2];
    }
  }

  const FIFTEEN_MINUTES: int := 15 * 60

  /** An appointment row. `patient` and `doctor` are profile ids, `journeyStep`
      the optional id of the linked step. */
  datatype Appointment = Appointment(
    patient: nat, doctor: nat, scheduledTime: int, status: Status,
    journeyStep: Option<nat>, estimatedDuration: int, createdAt: int, isPaid: bool,
    actualStartTime: Option<int>, actualEndTime: Option<int>)

  /** A row created with only the required fields set takes the model defaults. */
  function NewAppointment(patient: nat, doctor: nat, scheduledTime: int, createdAt: int,
                          estimatedDuration: Option<int>, journeyStep: Option<nat>): (a: Appointment)
    ensures a.status == SCHEDULED && !a.isPaid
    ensures a.estimatedDuration == estimatedDuration.GetOr(FIFTEEN_MINUTES)
    ensures a.actualStartTime.None? && a.actualEndTime.None?
    ensures a.patient == patient && a.doctor == doctor && a.scheduledTime == scheduledTime
    ensures a.journeyStep == journeyStep && a.createdAt == createdAt
  {
    Appointment(patient, doctor, scheduledTime, SCHEDULED, journeyStep,
                estimatedDuration.GetOr(FIFTEEN_MINUTES), createdAt, false, None, None)
  }

  /** `actual_duration`: end minus start when both are recorded. */
  function ActualDuration(a: Appointment): (d: Option<int>)
    ensures d.Some? <==> a.actualStartTime.Some? && a.actualEndTime.Some?
    ensures d.Some? ==> a.actualStartTime.value + d.value == a.actualEndTime.value
  {
    if a.actualStartTime.Some? && a.actualEndTime.Some? then
      Some(a.actualEndTime.value - a.actualStartTime.value)
    else None
  }

  /** Python `int(x / 60)`: the quotient truncated toward zero. */
  function TruncMinutes(seconds: int): (m: int)
    ensures seconds >= 0 ==> 0 <= m * 60 <= seconds < m * 60 + 60
    ensures seconds < 0 ==> m * 60 - 60 < seconds <= m * 60 <= 0
  {
    if seconds >= 0 then seconds / 60 else -((-seconds) / 60)
  }

  /** `get_actual_duration_minutes`: whole minutes of the duration, or None when
      there is no duration or it is zero (a zero timedelta is falsy). */
  function ActualDurationMinutes(a: Appointment): (r: Option<int>)
    ensures r.None? <==> ActualDuration(a).None? || ActualDuration(a) == Some(0)
    ensures r.Some? ==> var d := ActualDuration(a).value;
      (d > 0 ==> 0 <= r.value * 60 <= d < r.value * 60 + 60) &&
      (d < 0 ==> r.value * 60 - 60 < d <= r.value * 60 <= 0)
  {
    match ActualDuration(a)
    case None => None
    case Some(d) => if d == 0 then None else Some(TruncMinutes(d))
  }

  /** `get_patient_name`: the trimmed "first last", or the e-mail when that is blank. */
  function PatientName(u: User): (r: string)
    ensures Trim(u.firstName + " " + u.lastName) == "" ==> r == u.email
    ensures Trim(u.firstName + " " + u.lastName) != "" ==> r == Trim(u.firstName + " " + u.lastName)
    ensures r != u.email ==> r == Trim(u.firstName + " " + u.lastName) && r != ""
    ensures r != u.email ==> !IsSpace(r[0]) && !IsSpace(r[|r| - 1])
  {
    var full := Trim(u.firstName + " " + u.lastName);
    TrimIsInfix(u.firstName + " " + u.lastName);
    if full != "" then full else u.email
  }

  /** `get_doctor_name`: "Dr. first last" with trailing blanks removed (it
      starts with "D", so `strip()` removes nothing at the front). */
  function DoctorName(u: User): (r: string)
    ensures IsPrefix("Dr.", r)
    ensures !IsSpace(r[|r| - 1])
    ensures IsPrefix(r, "Dr. " + u.firstName + " " + u.lastName)
    ensures var full := "Dr. " + u.firstName + " " + u.lastName;
            forall i :: |r| <= i < |full| ==> IsSpace(full[i])
  {
    var full := "Dr. " + u.firstName + " " + u.lastName;
    var r := TrimEnd(full);
    TrimEndPrefix(full);
    assert full[..3] == "Dr.";
    assert !IsSpace(full[2]);
    assert |r| >= 3;
    assert r[..3] == full[..3];
    r
  }

  /** `get_consultation_fee`: the fee rendered as a decimal string; it reads back
      as the fee. */
  function ConsultationFeeText(fee: int): (s: string)
    ensures ParsePaise(s) == Some(fee)
  {
    PaiseToString(fee)
  }

  /** `validate_scheduled_time`: a time before now is refused. */
  function ValidateScheduledTime(value: int, now: int): (r: Result<int, string>)
    ensures r.Ok? <==> value >= now
    ensures r.Ok? ==> r.value == value
  {
    if value < now then Err("Cannot schedule appointment in the past") else Ok(value)
  }

  /** The fields a client may send to `AppointmentSerializer` on update, including
      the read-only ones, which the serializer ignores. */
  datatype AppointmentPatch = AppointmentPatch(
    patient: Option<nat>, doctor: Option<nat>, scheduledTime: Option<int>, status: Option<Status>, estimatedDuration: Option<int>,
    journeyStep: Option<Option<nat>>,
    actualStartTime: Option<Option<int>>, actualEndTime: Option<Option<int>>,
    createdAt: Option<int>, isPaid: Option<bool>)

  /** A serializer update: writable fields take the sent value, read-only fields
      (`actual_start_time`, `actual_end_time`, `created_at`, `is_paid`) never change. */
  function ApplyPatch(a: Appointment, p: AppointmentPatch): (r: Appointment)
    ensures r.isPaid == a.isPaid && r.createdAt == a.createdAt
    ensures r.actualStartTime == a.actualStartTime && r.actualEndTime == a.actualEndTime
    ensures r.scheduledTime == p.scheduledTime.GetOr(a.scheduledTime)
    ensures r.status == p.status.GetOr(a.status)
    ensures r.patient == p.patient.GetOr(a.patient) && r.doctor == p.doctor.GetOr(a.doctor)
    ensures r.estimatedDuration == p.estimatedDuration.GetOr(a.estimatedDuration)
    ensures r.journeyStep == p.journeyStep.GetOr(a.journeyStep)
  {
    a.(patient := p.patient.GetOr(a.patient), doctor := p.doctor.GetOr(a.doctor),
       scheduledTime := p.scheduledTime.GetOr(a.scheduledTime),
       status := p.status.GetOr(a.status),
       estimatedDuration := p.estimatedDuration.GetOr(a.estimatedDuration),
       journeyStep := p.journeyStep.GetOr(a.journeyStep))
  }
}

=== FILE: auth_context.dfy ===
/** The client's session store: the signed-in user, restored from
    `localStorage` at start-up, written by `login` and cleared by `logout`,
    and the role flags derived from it. */
module AuthContext {
  import opened Wrappers
  import opened ClientValues
  import opened ApiClient

  /** The user object the server returns; only the role flags are read. */
  datatype ClientUser = ClientUser(email: JsValue, isPatient: JsValue, isDoctor: JsValue, isProvider: JsValue)

  /** `JSON.parse` of the stored `user_data`: it throws, or gives `null`, or
      gives a user object. */
  datatype Parsed = ParseError | ParsedNull | ParsedUser(user: ClientUser)

  /** The body of a successful login response; `user` is `None` when it is
      missing or falsy. */
  datatype LoginResponse = LoginResponse(access: string, refresh: string, user: Option<ClientUser>)

  /** `isPatient`, `isDoctor`, `isProvider`: the flag is strictly `true`. */
  predicate IsPatient(user: Option<ClientUser>) { user.Some? && user.value.isPatient == Bool(true) }
  predicate IsDoctor(user: Option<ClientUser>) { user.Some? && user.value.isDoctor == Bool(true) }
  predicate IsProvider(user: Option<ClientUser>) { user.Some? && user.value.isProvider == Bool(true) }
  /** `isAuthenticated`: `!!user`, and a user object is always truthy. */
  predicate IsAuthenticated(user: Option<ClientUser>) { user.Some? }

  /** A flag that JavaScript would accept in an `if` but that is not the
      boolean `true` grants no role. */
  lemma TruthyFlagIsNotRole(user: ClientUser)
    requires Truthy(user.isPatient) && user.isPatient != Bool(true)
    ensures !IsPatient(Some(user)) && IsAuthenticated(Some(user))
    ensures user.isPatient.Num? || user.isPatient.Str? || user.isPatient.Obj?
  {
  }

  class AuthProvider {
    const browser: Browser
    var user: Option<ClientUser>
    var loading: bool

    constructor (browser: Browser)
      ensures this.browser == browser && user == None && loading
    {
      this.browser := browser;
      user := None;
      loading := true;
    }

    /** The start-up effect: the user is restored only when both an access
        token and `user_data` are stored; unparseable `user_data` is removed. */
    method Rehydrate(parse: string -> Parsed)
      modifies this`user, this`loading, browser`storage
      ensures !loading
      ensures var s := old(browser.storage);
        if Stored(s, ACCESS_TOKEN) && Stored(s, USER_DATA) then
          match parse(s[USER_DATA])
          case ParseError => user == old(user) && browser.storage == s - {USER_DATA}
          case ParsedNull => user == None && browser.storage == s
          case ParsedUser(u) => user == Some(u) && browser.storage == s
        else user == old(user) && browser.storage == s
    {
      if Stored(browser.storage, ACCESS_TOKEN) && Stored(browser.storage, USER_DATA) {
        match parse(browser.storage[USER_DATA]) {
          case ParseError =>
            browser.storage := browser.storage - {USER_DATA};
          case ParsedNull =>
            user := None;
          case ParsedUser(u) =>
            user := Some(u);
        }
      }
      loading := false;
    }

    /** `login`: a failed call changes nothing; a successful one stores both
        tokens, and stores and sets the user only when the response has one. */
    method Login(response: Result<LoginResponse, ApiError>, stringify: ClientUser -> string)
      returns (r: Result<LoginResponse, ApiError>)
      modifies this`user, browser`storage
      ensures r == response
      ensures response.Err? ==> user == old(user) && browser.storage == old(browser.storage)
      ensures response.Ok? ==>
        var d := response.value;
        var tokens := old(browser.storage)[ACCESS_TOKEN := d.access][REFRESH_TOKEN := d.refresh];
        if d.user.Some? then
          user == d.user && browser.storage == tokens[USER_DATA := stringify(d.user.value)]
        else
          user == old(user) && browser.storage == tokens
    {
      r := response;
      if response.Ok? {
        var d := response.value;
        browser.storage := browser.storage[ACCESS_TOKEN := d.access];
        browser.storage := browser.storage[REFRESH_TOKEN := d.refresh];
        if d.user.Some? {
          browser.storage := browser.storage[USER_DATA := stringify(d.user.value)];
          user := d.user;
        }
      }
    }

    /** `logout`: all three keys are removed and the user is cleared. */
    method Logout()
      modifies this`user, browser`storage
      ensures user == None && !IsAuthenticated(user)
      ensures browser.storage == old(browser.storage) - {ACCESS_TOKEN, REFRESH_TOKEN, USER_DATA}
    {
      browser.storage := browser.storage - {ACCESS_TOKEN};
      browser.storage := browser.storage - {REFRESH_TOKEN};
      browser.storage := browser.storage - {USER_DATA};
      user := None;
    }
  }

  /** After a logout, a reload restores nobody, whatever `user_data` held. */
  lemma LogoutThenRehydrateRestoresNobody(storage: Storage)
    ensures !Stored(storage - {ACCESS_TOKEN, REFRESH_TOKEN, USER_DATA}, ACCESS_TOKEN)
    ensures !Stored(storage - {ACCESS_TOKEN, REFRESH_TOKEN, USER_DATA}, USER_DATA)
  {
  }

  /** After a failed refresh, a reload restores nobody either, although
      `user_data` is still stored. */
  lemma FailedRefreshThenRehydrateRestoresNobody(storage: Storage, retried: bool, status: Option<int>)
    requires RefreshAttempted(storage, retried, status)
    ensures !Stored(Intercept(storage, retried, status, None).storage, ACCESS_TOKEN)
  {
  }
}

=== FILE: book_appointment_page.dfy ===
/** The booking page: the half-hourly time slots, the doctor search and the
    check before a booking is sent. */
module BookAppointmentPage {
  import opened Wrappers
  import opened Text
  import opened Seqs
  import opened ClientValues

  const FIRST_HOUR := 9
  const LAST_HOUR := 17

  /** `${hour.toString().padStart(2, '0')}:00` or `:30`. */
  function SlotLabel(hour: nat, half: bool): string {
    PadStart2(NatToString(hour)) + (if half then ":30" else ":00")
  }

  /** The minute of the day an "HH:MM" label names, if it has that form. */
  function LabelMinutes(s: string): (m: Option<nat>)
    ensures m.Some? ==> |s| == 5 && s[2] == ':'
  {
    if |s| == 5 && s[2] == ':' && ParseNat(s[..2]).Some? && ParseNat(s[3..]).Some? then
      Some(60 * ParseNat(s[..2]).value + ParseNat(s[3..]).value)
    else None
  }

  /** A label for an hour of the day is "HH:MM" and names that time. */
  lemma SlotLabelMinutes(hour: nat, half: bool)
    requires hour < 24
    ensures LabelMinutes(SlotLabel(hour, half)) == Some(60 * hour + if half then 30 else 0)
  {
    TwoDigitsValue(hour);
    var s := SlotLabel(hour, half);
    assert s[..2] == PadStart2(NatToString(hour));
    var m := if half then "30" else "00";
    assert s[3..] == m;
    assert DigitsValue(m) == DigitsValue(m[..1]) * 10 + DigitValue(m[1]);
    assert DigitsValue(m[..1]) == DigitsValue(m[..1][..0]) * 10 + DigitValue(m[0]);
  }

  /** The slot loop: every hour from 09 to 17 gives its ":00" slot and,
      before 17, its ":30" slot, in order; so slot `i` is hour `9 + i / 2`,
      on the half hour when `i` is odd. */
  method TimeSlots() returns (slots: seq<string>)
    ensures |slots| == 17
    ensures forall i :: 0 <= i < |slots| ==> slots[i] == SlotLabel(FIRST_HOUR + i / 2, i % 2 == 1)
  {
    slots := [];
    var hour := FIRST_HOUR;
    while hour <= LAST_HOUR
      invariant FIRST_HOUR <= hour <= LAST_HOUR + 1
      invariant |slots| == if hour <= LAST_HOUR then 2 * (hour - FIRST_HOUR) else 17
      invariant forall i :: 0 <= i < |slots| ==> slots[i] == SlotLabel(FIRST_HOUR + i / 2, i % 2 == 1)
    {
      slots := slots + [SlotLabel(hour, false)];
      if hour < LAST_HOUR {
        slots := slots + [SlotLabel(hour, true)];
      }
      hour := hour + 1;
    }
  }

  /** The slots read back as 09:00, 09:30, ..., 17:00: strictly increasing
      half-hour steps, the last one 17:00 and none of them 17:30. */
  lemma SlotsAscend(slots: seq<string>)
    requires |slots| == 17
    requires forall i :: 0 <= i < |slots| ==> slots[i] == SlotLabel(FIRST_HOUR + i / 2, i % 2 == 1)
    ensures forall i :: 0 <= i < |slots| ==> LabelMinutes(slots[i]) == Some(9 * 60 + 30 * i)
    ensures forall i, j :: 0 <= i < j < |slots| ==> LabelMinutes(slots[i]).value < LabelMinutes(slots[j]).value
    ensures LabelMinutes(slots[16]) == Some(17 * 60)
    ensures forall i :: 0 <= i < |slots| ==> LabelMinutes(slots[i]) != Some(17 * 60 + 30)
  {
    forall i | 0 <= i < |slots| ensures LabelMinutes(slots[i]) == Some(9 * 60 + 30 * i) {
      SlotLabelMinutes(FIRST_HOUR + i / 2, i % 2 == 1);
    }
  }

  /** A doctor card as the doctor list returns it. */
  datatype DoctorCard = DoctorCard(id: nat, name: string, specialization: Option<string>)

  /** Case-insensitive substring match on the name, or on a non-empty
      specialization. */
  predicate Matches(d: DoctorCard, term: string) {
    Contains(Lower(d.name), Lower(term)) ||
    (d.specialization.Some? && d.specialization.value != "" &&
     Contains(Lower(d.specialization.value), Lower(term)))
  }

  /** `filteredDoctors`, in list order. */
  function FilteredDoctors(ds: seq<DoctorCard>, term: string): (r: seq<DoctorCard>)
    ensures forall i :: 0 <= i < |r| ==> Matches(r[i], term) && r[i] in ds
    ensures forall d :: d in ds && Matches(d, term) ==> d in r
  {
    Filter(ds, (d: DoctorCard) => Matches(d, term))
  }

  /** An empty search keeps every doctor, in order. */
  lemma EmptySearchKeepsAll(ds: seq<DoctorCard>)
    ensures FilteredDoctors(ds, "") == ds
  {
    assert Lower("") == "";
    forall d: DoctorCard ensures Matches(d, "") {
      ContainsEmpty(Lower(d.name));
    }
    FilterAll(ds, (d: DoctorCard) => Matches(d, ""));
  }

  lemma LowerUpperChar(c: char)
    ensures LowerChar(UpperChar(c)) == LowerChar(c) && LowerChar(LowerChar(c)) == LowerChar(c)
  {
  }

  /** The search ignores case: the term typed in upper or lower case finds
      the same doctors. */
  lemma SearchIgnoresCase(ds: seq<DoctorCard>, term: string)
    ensures FilteredDoctors(ds, Upper(term)) == FilteredDoctors(ds, term)
    ensures FilteredDoctors(ds, Lower(term)) == FilteredDoctors(ds, term)
  {
    forall i | 0 <= i < |term| ensures Lower(Upper(term))[i] == Lower(term)[i] && Lower(Lower(term))[i] == Lower(term)[i] {
      LowerUpperChar(term[i]);
    }
    assert Lower(Upper(term)) == Lower(term);
    assert Lower(Lower(term)) == Lower(term);
    FilterSame(ds, (d: DoctorCard) => Matches(d, Upper(term)), (d: DoctorCard) => Matches(d, term));
    FilterSame(ds, (d: DoctorCard) => Matches(d, Lower(term)), (d: DoctorCard) => Matches(d, term));
  }

  const SELECTION_MISSING := "Please select a doctor, date, and time"
  const BOOKING_FAILED := "Booking failed"

  /** `handleBook`'s guard: a doctor, a date and a time must all be chosen
      before the request is sent. */
  function BookingError(doctor: Option<DoctorCard>, date: string, time: string): (e: Option<string>)
    ensures e.None? <==> doctor.Some? && date != "" && time != ""
    ensures e.Some? ==> e.value == SELECTION_MISSING
  {
    if doctor.None? || date == "" || time == "" then Some(SELECTION_MISSING) else None
  }

  /** The message of a failed booking: `error`, then `detail`, then the
      generic text. */
  function BookingErrorText(err: ApiError): (t: string)
    ensures err.error.Some? && err.error.value != "" ==> t == err.error.value
    ensures (err.error.None? || err.error.value == "") ==> t == TextOr(err.detail, BOOKING_FAILED)
  {
    TextOr(err.error, TextOr(err.detail, BOOKING_FAILED))
  }
}

=== FILE: client_values.dfy ===
/** JavaScript values as the client sees them, their truthiness, and the
    error responses the pages read their messages from. */
module ClientValues {
  import opened Wrappers

  /** A JSON or JavaScript value; objects and arrays are opaque references. */
  datatype JsValue = Undefined | Null | Bool(b: bool) | Num(n: int) | Str(s: string) | Obj(ref: nat)

  /** JavaScript truthiness (`if (v)`, `!!v`, `v || d`). */
  predicate Truthy(v: JsValue) {
    match v
    case Undefined => false
    case Null => false
    case Bool(b) => b
    case Num(n) => n != 0
    case Str(s) => s != ""
    case Obj(_) => true
  }

  /** `v || d`: the first operand when it is truthy, otherwise the second. */
  function Or(v: JsValue, d: JsValue): (r: JsValue)
    ensures Truthy(v) ==> r == v
    ensures !Truthy(v) ==> r == d
  {
    if Truthy(v) then v else d
  }

  /** An optional string field read with `?.`, followed by `|| fallback`:
      a missing or empty field gives the fallback. */
  function TextOr(field: Option<string>, fallback: string): (r: string)
    ensures field.Some? && field.value != "" ==> r == field.value
    ensures field.None? || field.value == "" ==> r == fallback
  {
    if field.Some? && field.value != "" then field.value else fallback
  }

  /** An axios error, as far as the pages read it: `err.response?.data` with
      its `error` and `detail` strings and its `email` list. A missing field
      and an error without a response are both `None` (or `[]` for `email`). */
  datatype ApiError = ApiError(status: Option<int>, error: Option<string>, detail: Option<string>, email: seq<string>)

  /** A string-keyed store in which a key is either absent or holds a string,
      as `localStorage` does. */
  type Storage = map<string, string>

  /** `if (localStorage.getItem(key))`: present and non-empty. */
  predicate Stored(s: Storage, key: string) {
    key in s && s[key] != ""
  }

  /** An appointment as the list endpoint returns it to the client; the time
      is in seconds and the status is the server's string. */
  datatype ClientAppointment = ClientAppointment(id: nat, patient: nat, scheduledTime: int, status: string,
                                                 isPaid: bool, fee: int)

  /** The comparator keys: earliest first, and latest first. */
  function EarliestFirst(a: ClientAppointment): int { a.scheduledTime }
  function LatestFirst(a: ClientAppointment): int { -a.scheduledTime }

  /** `STYLES[status] || STYLES.<fallback>`: a status the table knows picks its
      own entry, any other status the fallback's. */
  function StyleKey(status: string, known: set<string>, fallback: string): (k: string)
    requires fallback in known
    ensures k in known
    ensures status in known ==> k == status
    ensures status !in known ==> k == fallback
  {
    if status in known then status else fallback
  }

  /** A success or error banner and its text. */
  datatype Message = Message(success: bool, text: string)

  /** The banner after an action: the success text, or the server's `error`,
      or the fallback when the server gave none. */
  function Banner(succeeded: string, failed: string, r: Result<(), ApiError>): (m: Message)
    ensures m.success <==> r.Ok?
    ensures r.Ok? ==> m.text == succeeded
    ensures r.Err? ==> m.text == TextOr(r.error.error, failed)
  {
    if r.Ok? then Message(true, succeeded) else Message(false, TextOr(r.error.error, failed))
  }
}

=== FILE: consents_page.dfy ===
/** The patient's consent page: pending requests apart from the history, the
    Grant and Deny buttons, the message after answering and the history's
    status badge. */
module ConsentsPage {
  import opened Wrappers
  import opened ClientValues
  import opened Seqs

  /** A consent request as the client receives it; the status is the
      server's string. */
  datatype ClientConsent = ClientConsent(id: nat, status: string, purpose: Option<string>)

  predicate IsPending(c: ClientConsent) { c.status == "PENDING" }
  predicate IsPast(c: ClientConsent) { c.status != "PENDING" }

  /** `pendingConsents`, in list order. */
  function PendingOf(cs: seq<ClientConsent>): (r: seq<ClientConsent>)
    ensures forall c :: c in r <==> c in cs && IsPending(c)
  {
    Filter(cs, IsPending)
  }

  /** `pastConsents`, in list order: together with the pending ones it holds
      every fetched consent exactly once. */
  function PastOf(cs: seq<ClientConsent>): (r: seq<ClientConsent>)
    ensures forall c :: c in r <==> c in cs && !IsPending(c)
    ensures multiset(PendingOf(cs)) + multiset(r) == multiset(cs)
    ensures |PendingOf(cs)| + |r| == |cs|
  {
    FilterSplit(cs, IsPending, IsPast);
    Filter(cs, IsPast)
  }

  /** Grant and Deny are rendered on the pending cards only: a consent has
      them exactly when it is listed among the pending ones. */
  lemma ButtonsOnlyOnPending(cs: seq<ClientConsent>, c: ClientConsent)
    requires c in cs
    ensures c in PendingOf(cs) <==> c !in PastOf(cs)
  {
  }

  const GRANTED := "GRANTED"
  const RESPOND_FAILED := "Failed to respond to consent"

  /** The banner after `handleRespond(id, status)`. */
  function RespondMessage(status: string, r: Result<(), ApiError>): (m: Message)
    ensures m.success <==> r.Ok?
    ensures r.Ok? && status == GRANTED ==> m.text == "Consent granted successfully"
    ensures r.Ok? && status != GRANTED ==> m.text == "Consent denied successfully"
    ensures r.Err? ==> m.text == TextOr(r.error.error, RESPOND_FAILED)
  {
    Banner(if status == GRANTED then "Consent granted successfully" else "Consent denied successfully",
           RESPOND_FAILED, r)
  }

  const STATUS_STYLES: set<string> := {"PENDING", "APPROVED", "GRANTED", "REJECTED", "DENIED", "REVOKED", "EXPIRED"}

  /** The history badge: the status's own style, or PENDING's for a status
      the table does not list. */
  function BadgeStyle(c: ClientConsent): (k: string)
    ensures k in STATUS_STYLES
    ensures c.status in STATUS_STYLES ==> k == c.status
    ensures c.status !in STATUS_STYLES ==> k == "PENDING"
  {
    StyleKey(c.status, STATUS_STYLES, "PENDING")
  }

  /** A history entry is never pending, yet one whose status the table does
      not list is drawn with the Pending badge. */
  lemma UnknownPastStatusLooksPending(cs: seq<ClientConsent>, c: ClientConsent)
    requires c in PastOf(cs) && c.status !in STATUS_STYLES
    ensures !IsPending(c) && BadgeStyle(c) == "PENDING"
  {
  }
}

=== FILE: database.dfy ===
/** The backend's tables. Each table is a sequence of rows and a row's id is
    its position: the modelled operations only insert and update, never delete. */
module Database {
  import opened Wrappers
  import opened Users
  import opened Appointments
  import opened Journeys

  /** The contents of all tables at one moment. */
  datatype Tables = Tables(
    patients: seq<PatientProfile>, doctors: seq<DoctorProfile>, providers: seq<ProviderProfile>,
    appointments: seq<Appointment>, journeys: seq<Journey>, steps: seq<Step>,
    reports: seq<Report>, prescriptions: seq<Prescription>, consents: seq<Consent>)

  /** Foreign keys point at existing rows. */
  ghost predicate RefsValid(t: Tables) {
    (forall i :: 0 <= i < |t.doctors| ==>
       t.doctors[i].organization.Some? ==> t.doctors[i].organization.value < |t.providers|) &&
    (forall i :: 0 <= i < |t.appointments| ==>
       t.appointments[i].patient < |t.patients| && t.appointments[i].doctor < |t.doctors|) &&
    (forall i :: 0 <= i < |t.appointments| ==>
       t.appointments[i].journeyStep.Some? ==> t.appointments[i].journeyStep.value < |t.steps|) &&
    (forall i :: 0 <= i < |t.journeys| ==>
       t.journeys[i].patient < |t.patients| &&
       (t.journeys[i].createdByOrg.Some? ==> t.journeys[i].createdByOrg.value < |t.providers|)) &&
    (forall i :: 0 <= i < |t.steps| ==> t.steps[i].journey < |t.journeys|) &&
    (forall i :: 0 <= i < |t.consents| ==>
       t.consents[i].patient < |t.patients| && t.consents[i].requestingOrg < |t.providers|) &&
    (forall i :: 0 <= i < |t.reports| ==> t.reports[i].step < |t.steps|) &&
    (forall i :: 0 <= i < |t.prescriptions| ==> t.prescriptions[i].step < |t.steps|)
  }

  /** Each profile table links a user to at most one profile (`OneToOneField`),
      and no two patients share an ABHA id. */
  ghost predicate ProfilesUnique(t: Tables) {
    (forall i, j :: 0 <= i < j < |t.patients| ==> t.patients[i].userId != t.patients[j].userId) &&
    (forall i, j :: 0 <= i < j < |t.patients| ==>
       t.patients[i].abhaId.Some? ==> t.patients[i].abhaId != t.patients[j].abhaId) &&
    (forall i, j :: 0 <= i < j < |t.doctors| ==> t.doctors[i].userId != t.doctors[j].userId) &&
    (forall i, j :: 0 <= i < j < |t.providers| ==> t.providers[i].userId != t.providers[j].userId)
  }

  /** The declared constraints: foreign keys, one profile per user, one
      consent per (patient, organisation), one report and one prescription
      per step, and steps numbered 1..n within each journey. */
  ghost predicate TablesValid(t: Tables) {
    RefsValid(t) &&
    ProfilesUnique(t) &&
    ConsentsUnique(t.consents) &&
    OneReportPerStep(t.reports) &&
    OnePrescriptionPerStep(t.prescriptions) &&
    StepsNumbered(t.steps)
  }

  class Db {
    var patients: seq<PatientProfile>
    var doctors: seq<DoctorProfile>
    var providers: seq<ProviderProfile>
    var appointments: seq<Appointment>
    var journeys: seq<Journey>
    var steps: seq<Step>
    var reports: seq<Report>
    var prescriptions: seq<Prescription>
    var consents: seq<Consent>

    function Snapshot(): Tables reads this {
      Tables(patients, doctors, providers, appointments, journeys, steps, reports, prescriptions, consents)
    }

    ghost predicate Valid() reads this { TablesValid(Snapshot()) }

    constructor ()
      ensures Valid()
      ensures patients == [] && doctors == [] && providers == [] && appointments == []
      ensures journeys == [] && steps == [] && reports == [] && prescriptions == [] && consents == []
    {
      patients, doctors, providers, appointments := [], [], [], [];
      journeys, steps, reports, prescriptions, consents := [], [], [], [], [];
    }
  }

  /** `user.patient_profile`: the profile row of the user, if any. */
  function PatientOf(patients: seq<PatientProfile>, userId: nat): (r: Option<nat>)
    ensures r.Some? ==> r.value < |patients| && patients[r.value].userId == userId
    ensures r.None? ==> forall i :: 0 <= i < |patients| ==> patients[i].userId != userId
  {
    if |patients| == 0 then None
    else if patients[|patients| - 1].userId == userId then Some(|patients| - 1)
    else PatientOf(patients[..|patients| - 1], userId)
  }

  /** `user.doctor_profile`: the profile row of the user, if any. */
  function DoctorOf(doctors: seq<DoctorProfile>, userId: nat): (r: Option<nat>)
    ensures r.Some? ==> r.value < |doctors| && doctors[r.value].userId == userId
    ensures r.None? ==> forall i :: 0 <= i < |doctors| ==> doctors[i].userId != userId
  {
    if |doctors| == 0 then None
    else if doctors[|doctors| - 1].userId == userId then Some(|doctors| - 1)
    else DoctorOf(doctors[..|doctors| - 1], userId)
  }

  /** `user.provider_profile`: the profile row of the user, if any. */
  function ProviderOf(providers: seq<ProviderProfile>, userId: nat): (r: Option<nat>)
    ensures r.Some? ==> r.value < |providers| && providers[r.value].userId == userId
    ensures r.None? ==> forall i :: 0 <= i < |providers| ==> providers[i].userId != userId
  {
    if |providers| == 0 then None
    else if providers[|providers| - 1].userId == userId then Some(|providers| - 1)
    else ProviderOf(providers[..|providers| - 1], userId)
  }

  /** `PatientProfile.objects.get(abha_id=...)`. */
  function PatientByAbha(patients: seq<PatientProfile>, abha: string): (r: Option<nat>)
    ensures r.Some? ==> r.value < |patients| && patients[r.value].abhaId == Some(abha)
    ensures r.None? ==> forall i :: 0 <= i < |patients| ==> patients[i].abhaId != Some(abha)
  {
    if |patients| == 0 then None
    else if patients[|patients| - 1].abhaId == Some(abha) then Some(|patients| - 1)
    else PatientByAbha(patients[..|patients| - 1], abha)
  }

  /** Changing one appointment without touching its references keeps the tables valid. */
  lemma AppointmentUpdateKeepsValid(t: Tables, k: nat, a: Appointment)
    requires TablesValid(t) && k < |t.appointments|
    requires a.patient == t.appointments[k].patient && a.doctor == t.appointments[k].doctor
    requires a.journeyStep == t.appointments[k].journeyStep
    ensures TablesValid(t.(appointments := t.appointments[k := a]))
  {
  }

  /** Adding a journey of an existing patient (and organisation) keeps the tables valid. */
  lemma AddJourneyKeepsValid(t: Tables, j: Journey)
    requires TablesValid(t) && j.patient < |t.patients|
    requires j.createdByOrg.Some? ==> j.createdByOrg.value < |t.providers|
    ensures TablesValid(t.(journeys := t.journeys + [j]))
  {
  }

  /** Replacing the consent table by one that is still unique per (patient,
      organisation) and points at existing rows keeps the tables valid. */
  lemma SetConsentsKeepsValid(t: Tables, cs: seq<Consent>)
    requires TablesValid(t) && ConsentsUnique(cs)
    requires forall i :: 0 <= i < |cs| ==> cs[i].patient < |t.patients| && cs[i].requestingOrg < |t.providers|
    ensures TablesValid(t.(consents := cs))
  {
  }

  /** Appending a step numbered one past its journey's last step keeps the tables valid. */
  lemma AddStepKeepsValid(t: Tables, s: Step)
    requires TablesValid(t) && s.journey < |t.journeys|
    requires s.order == |StepsOf(t.steps, s.journey)| + 1
    ensures TablesValid(t.(steps := t.steps + [s]))
  {
    AppendKeepsNumbered(t.steps, s);
  }

  /** Adding an appointment whose references exist keeps the tables valid. */
  lemma AddAppointmentKeepsValid(t: Tables, a: Appointment)
    requires TablesValid(t) && a.patient < |t.patients| && a.doctor < |t.doctors|
    requires a.journeyStep.Some? ==> a.journeyStep.value < |t.steps|
    ensures TablesValid(t.(appointments := t.appointments + [a]))
  {
  }

  /** Adding the report of a step that has none keeps the tables valid. */
  lemma AddReportKeepsValid(t: Tables, r: Report)
    requires TablesValid(t) && r.step < |t.steps|
    requires forall i :: 0 <= i < |t.reports| ==> t.reports[i].step != r.step
    ensures TablesValid(t.(reports := t.reports + [r]))
  {
  }

  /** Appending a step and the prescription of that new step keeps the tables valid. */
  lemma AddPrescribedStepKeepsValid(t: Tables, s: Step, p: Prescription)
    requires TablesValid(t) && s.journey < |t.journeys|
    requires s.order == |StepsOf(t.steps, s.journey)| + 1
    requires p.step == |t.steps|
    ensures TablesValid(t.(steps := t.steps + [s], prescriptions := t.prescriptions + [p]))
  {
    AddStepKeepsValid(t, s);
  }
}

=== FILE: doctor_appointments_page.dfy ===
/** The doctor's list of all appointments: newest first, a status filter, the
    action offered on each card and the status badge. */
module DoctorAppointmentsPage {
  import opened ClientValues
  import opened Seqs
  import opened Sorting

  /** `res.data.sort((a, b) => b.scheduled_time - a.scheduled_time)`. */
  function NewestFirst(appts: seq<ClientAppointment>): (r: seq<ClientAppointment>)
    ensures multiset(r) == multiset(appts)
    ensures forall i, j :: 0 <= i < j < |r| ==> r[i].scheduledTime >= r[j].scheduledTime
  {
    var r := SortBy(appts, LatestFirst);
    assert forall i, j :: 0 <= i < j < |r| ==> LatestFirst(r[i]) <= LatestFirst(r[j]);
    r
  }

  const ALL := "ALL"

  /** The filter buttons, in the order they are shown. */
  const FILTERS: seq<string> := [ALL, "SCHEDULED", "IN_PROGRESS", "COMPLETED", "CANCELLED"]

  predicate HasStatus(a: ClientAppointment, status: string) { a.status == status }

  /** `filteredAppointments`: everything under ALL, otherwise exactly the
      appointments with the chosen status, in list order. */
  function ByStatus(list: seq<ClientAppointment>, filter: string): (r: seq<ClientAppointment>)
    ensures filter == ALL ==> r == list
    ensures filter != ALL ==> forall a :: a in r <==> a in list && a.status == filter
    ensures multiset(r) <= multiset(list)
  {
    if filter == ALL then list else Filter(list, (a: ClientAppointment) => HasStatus(a, filter))
  }

  /** Whatever the filter, the list shown is still newest first. */
  lemma FilteredStaysNewestFirst(appts: seq<ClientAppointment>, filter: string)
    ensures var r := ByStatus(NewestFirst(appts), filter);
            forall i, j :: 0 <= i < j < |r| ==> r[i].scheduledTime >= r[j].scheduledTime
  {
    var sorted := NewestFirst(appts);
    if filter != ALL {
      FilterKeepsSorted(sorted, LatestFirst, (a: ClientAppointment) => HasStatus(a, filter));
    }
    var r := ByStatus(sorted, filter);
    assert SortedBy(r, LatestFirst);
    assert forall i, j :: 0 <= i < j < |r| ==> LatestFirst(r[i]) <= LatestFirst(r[j]);
  }

  /** An appointment shows up under its own status's filter and under no
      other status filter. */
  lemma ListedUnderOwnStatus(appts: seq<ClientAppointment>, a: ClientAppointment, filter: string)
    requires a in appts && filter != ALL
    ensures a in ByStatus(NewestFirst(appts), filter) <==> a.status == filter
  {
    assert a in multiset(NewestFirst(appts));
  }

  /** The controls on one card. */
  datatype CardControls = CardControls(start: bool, complete: bool, paidBadge: bool)

  function Controls(a: ClientAppointment): (c: CardControls)
    ensures c.start <==> a.status == "SCHEDULED"
    ensures c.complete <==> a.status == "IN_PROGRESS"
    ensures c.paidBadge <==> a.isPaid
  {
    CardControls(a.status == "SCHEDULED", a.status == "IN_PROGRESS", a.isPaid)
  }

  /** A card offers at most one action, and none once the appointment is
      completed or cancelled. */
  lemma AtMostOneAction(a: ClientAppointment)
    ensures !(Controls(a).start && Controls(a).complete)
    ensures a.status == "COMPLETED" || a.status == "CANCELLED" ==> !Controls(a).start && !Controls(a).complete
  {
  }

  const STATUS_STYLES: set<string> := {"SCHEDULED", "IN_PROGRESS", "COMPLETED", "CANCELLED"}

  /** The badge style: the status's own, or SCHEDULED's for a status the
      table does not list. */
  function BadgeStyle(a: ClientAppointment): (k: string)
    ensures k in STATUS_STYLES
    ensures a.status in STATUS_STYLES ==> k == a.status
    ensures a.status !in STATUS_STYLES ==> k == "SCHEDULED"
  {
    StyleKey(a.status, STATUS_STYLES, "SCHEDULED")
  }
}

=== FILE: doctor_queue_page.dfy ===
/** The doctor's queue page: today's scheduled and in-progress appointments in
    time order, the patient being seen, the numbered waiting list and the one
    Start button. */
module DoctorQueuePage {
  import opened Wrappers
  import opened ClientValues
  import opened Seqs
  import opened Sorting

  /** On the day `today`, as the browser's `toDateString()` names days
      (`dayOf`), and still waiting or being seen. */
  predicate InTodaysQueue(a: ClientAppointment, dayOf: int -> int, today: int) {
    dayOf(a.scheduledTime) == today && (a.status == "SCHEDULED" || a.status == "IN_PROGRESS")
  }

  /** The `filter` of `fetchQueue`, before sorting. */
  function TodaysEntries(appts: seq<ClientAppointment>, dayOf: int -> int, today: int): (r: seq<ClientAppointment>)
    ensures forall a :: a in r <==> a in appts && InTodaysQueue(a, dayOf, today)
    ensures multiset(r) <= multiset(appts)
  {
    Filter(appts, (a: ClientAppointment) => InTodaysQueue(a, dayOf, today))
  }

  /** `queue`: today's entries, earliest first, each fetched entry kept as
      many times as it was fetched. */
  function TodaysQueue(appts: seq<ClientAppointment>, dayOf: int -> int, today: int): (q: seq<ClientAppointment>)
    ensures multiset(q) == multiset(TodaysEntries(appts, dayOf, today))
    ensures forall a :: a in q <==> a in appts && InTodaysQueue(a, dayOf, today)
    ensures SortedBy(q, EarliestFirst)
  {
    var q := SortBy(TodaysEntries(appts, dayOf, today), EarliestFirst);
    SortByMembers(TodaysEntries(appts, dayOf, today), EarliestFirst);
    q
  }

  /** The position `queue.find` stops at: the first in-progress entry. */
  function FirstInProgress(q: seq<ClientAppointment>): (r: Option<nat>)
    ensures r.Some? ==> r.value < |q| && q[r.value].status == "IN_PROGRESS" &&
                        forall j :: 0 <= j < r.value ==> q[j].status != "IN_PROGRESS"
    ensures r.None? ==> forall j :: 0 <= j < |q| ==> q[j].status != "IN_PROGRESS"
  {
    if |q| == 0 then None
    else if q[0].status == "IN_PROGRESS" then Some(0)
    else match FirstInProgress(q[1..])
         case None => None
         case Some(i) => Some(i + 1)
  }

  /** `inProgress`: the patient being seen, if any. */
  function InProgress(q: seq<ClientAppointment>): (r: Option<ClientAppointment>)
    ensures r.Some? <==> exists i :: 0 <= i < |q| && q[i].status == "IN_PROGRESS"
    ensures r.Some? ==> r.value in q && r.value.status == "IN_PROGRESS"
  {
    match FirstInProgress(q)
    case None => None
    case Some(i) => Some(q[i])
  }

  predicate IsWaiting(a: ClientAppointment) { a.status == "SCHEDULED" }

  /** `waiting`: the scheduled entries, in queue order. */
  function Waiting(q: seq<ClientAppointment>): (w: seq<ClientAppointment>)
    ensures forall a :: a in w <==> a in q && IsWaiting(a)
    ensures |w| <= |q|
  {
    Filter(q, IsWaiting)
  }

  /** The waiting list is in time order, and every entry of the queue is
      either waiting or being seen. */
  lemma WaitingInTimeOrder(appts: seq<ClientAppointment>, dayOf: int -> int, today: int)
    ensures SortedBy(Waiting(TodaysQueue(appts, dayOf, today)), EarliestFirst)
    ensures var q := TodaysQueue(appts, dayOf, today);
            forall a :: a in q ==> a in Waiting(q) || a.status == "IN_PROGRESS"
  {
    FilterKeepsSorted(TodaysQueue(appts, dayOf, today), EarliestFirst, IsWaiting);
  }

  /** A row of the waiting list: its number and whether it offers Start. */
  datatype Row = Row(number: nat, appt: ClientAppointment, offersStart: bool)

  /** `waiting.map((appt, index) => ...)`: rows numbered from one, Start only
      on the first row and only while nobody is being seen. */
  function Rows(q: seq<ClientAppointment>): (rows: seq<Row>)
    ensures |rows| == |Waiting(q)|
    ensures forall i :: 0 <= i < |rows| ==> rows[i].appt == Waiting(q)[i] && rows[i].number == i + 1
    ensures forall i :: 0 <= i < |rows| ==> (rows[i].offersStart <==> i == 0 && InProgress(q).None?)
  {
    var w := Waiting(q);
    seq(|w|, i requires 0 <= i < |w| => Row(i + 1, w[i], i == 0 && InProgress(q).None?))
  }

  /** At most one row offers Start; when one does, nobody is being seen and
      it is the earliest waiting appointment. */
  lemma StartGoesToEarliest(appts: seq<ClientAppointment>, dayOf: int -> int, today: int, i: nat)
    requires var rows := Rows(TodaysQueue(appts, dayOf, today)); i < |rows| && rows[i].offersStart
    ensures var q := TodaysQueue(appts, dayOf, today);
            i == 0 && forall a :: a in q ==> a.status != "IN_PROGRESS"
    ensures var q := TodaysQueue(appts, dayOf, today);
            forall a :: a in q && IsWaiting(a) ==> Rows(q)[i].appt.scheduledTime <= a.scheduledTime
  {
    var q := TodaysQueue(appts, dayOf, today);
    var w := Waiting(q);
    WaitingInTimeOrder(appts, dayOf, today);
    forall a | a in q && IsWaiting(a) ensures w[0].scheduledTime <= a.scheduledTime {
      var j :| 0 <= j < |w| && w[j] == a;
      assert j == 0 || EarliestFirst(w[0]) <= EarliestFirst(w[j]);
    }
  }

  /** The banners after Start and Complete. */
  function StartMessage(r: Result<(), ApiError>): (m: Message)
    ensures m.success <==> r.Ok?
    ensures r.Ok? ==> m.text == "Consultation started"
    ensures r.Err? ==> m.text == TextOr(r.error.error, "Failed to start")
  {
    Banner("Consultation started", "Failed to start", r)
  }

  function CompleteMessage(r: Result<(), ApiError>): (m: Message)
    ensures m.success <==> r.Ok?
    ensures r.Ok? ==> m.text == "Consultation completed"
    ensures r.Err? ==> m.text == TextOr(r.error.error, "Failed to complete")
  {
    Banner("Consultation completed", "Failed to complete", r)
  }
}

=== FILE: journey_views.dfy ===
/** The journey and consent endpoints: who may see a journey, the
    request-access / respond cycle of a consent, fetching a patient's journeys
    by ABHA id, a lab's report upload, and the doctor's order-test and
    prescription actions. */
module JourneyViews {
  import opened Wrappers
  import opened Text
  import opened Users
  import opened Journeys
  import opened Database

  datatype AccessError =
    | Forbidden          // 403: the role may not act, or the row is someone else's
    | NoProfile          // the user has no profile of their role
    | NotFound           // 404
    | Invalid            // 400: the request body fails its serializer
    | NoOrganization     // 400: the doctor belongs to no organisation
    | ConsentRequired    // 403
    | NotATestStep       // 400
    | ReportExists       // 400
    | NoFile             // 400

  // ---------------------------------------------------------------------------
  // Seeing journeys

  /** The ids of the journeys that satisfy `keep`, ascending. */
  function JourneyIds(js: seq<Journey>, keep: Journey -> bool): (r: seq<nat>)
    ensures forall j: nat :: j in r <==> j < |js| && keep(js[j])
    ensures forall a, b :: 0 <= a < b < |r| ==> r[a] < r[b]
  {
    if |js| == 0 then []
    else
      var front := js[..|js| - 1];
      var rest := JourneyIds(front, keep);
      assert forall j :: 0 <= j < |front| ==> front[j] == js[j];
      assert forall a :: 0 <= a < |rest| ==> rest[a] < |front| by {
        forall a | 0 <= a < |rest| ensures rest[a] < |front| {
          assert rest[a] in rest;
        }
      }
      if keep(js[|js| - 1]) then rest + [|js| - 1] else rest
  }

  /** `JourneyListCreateView.get_queryset`: a patient lists their own
      journeys; a doctor lists the journeys their organisation created and
      those of patients who granted it consent; anyone else lists none. */
  function JourneyList(t: Tables, user: User): (r: Result<seq<nat>, AccessError>)
    ensures r.Err? ==> r.error == NoProfile
    ensures IsPatient(user) ==> (r.Ok? <==> PatientOf(t.patients, user.id).Some?)
    ensures IsDoctor(user) ==> (r.Ok? <==> DoctorOf(t.doctors, user.id).Some?)
    ensures !IsPatient(user) && !IsDoctor(user) ==> r == Ok([])
    ensures IsPatient(user) && r.Ok? ==>
              forall j: nat :: j in r.value <==>
                j < |t.journeys| && t.journeys[j].patient == PatientOf(t.patients, user.id).value
    ensures IsDoctor(user) && r.Ok? ==>
              var org := t.doctors[DoctorOf(t.doctors, user.id).value].organization;
              forall j: nat :: j in r.value <==> j < |t.journeys| && DoctorMayAccess(t.journeys[j], t.consents, org)
  {
    if IsPatient(user) then
      match PatientOf(t.patients, user.id)
      case None => Err(NoProfile)
      case Some(p) => Ok(JourneyIds(t.journeys, (x: Journey) => x.patient == p))
    else if IsDoctor(user) then
      match DoctorOf(t.doctors, user.id)
      case None => Err(NoProfile)
      case Some(d) =>
        var org := t.doctors[d].organization;
        Ok(JourneyIds(t.journeys, (x: Journey) => DoctorMayAccess(x, t.consents, org)))
    else Ok([])
  }

  /** `JourneyDetailView.retrieve`: a patient opens only their own journey, a
      doctor one their organisation created or holds consent for, and any
      other user every journey. */
  function JourneyDetail(t: Tables, user: User, j: nat): (r: Result<Journey, AccessError>)
    requires RefsValid(t)
    ensures r == Err(NotFound) <==> j >= |t.journeys|
    ensures r.Ok? ==> r.value == t.journeys[j]
    ensures j < |t.journeys| && IsPatient(user) ==>
              (r.Ok? <==> t.patients[t.journeys[j].patient].userId == user.id)
    ensures j < |t.journeys| && IsDoctor(user) ==>
              (r.Ok? <==> DoctorOf(t.doctors, user.id).Some? &&
                          DoctorMayAccess(t.journeys[j], t.consents,
                                          t.doctors[DoctorOf(t.doctors, user.id).value].organization))
    ensures j < |t.journeys| && !IsPatient(user) && !IsDoctor(user) ==> r.Ok?
  {
    if j >= |t.journeys| then Err(NotFound)
    else
      var journey := t.journeys[j];
      if IsPatient(user) then
        if t.patients[journey.patient].userId != user.id then Err(Forbidden) else Ok(journey)
      else if IsDoctor(user) then
        match DoctorOf(t.doctors, user.id)
        case None => Err(NoProfile)
        case Some(d) =>
          if DoctorMayAccess(journey, t.consents, t.doctors[d].organization) then Ok(journey)
          else Err(Forbidden)
      else Ok(journey)
  }

  /** For patients and doctors the list and the detail view agree: a journey
      is listed exactly when it can be opened. */
  lemma ListAgreesWithDetail(t: Tables, user: User, j: nat)
    requires TablesValid(t)
    requires IsPatient(user) || IsDoctor(user)
    requires JourneyList(t, user).Ok?
    ensures j in JourneyList(t, user).value <==> JourneyDetail(t, user, j).Ok?
  {
    if IsPatient(user) && j < |t.journeys| {
      var p := PatientOf(t.patients, user.id).value;
      var q := t.journeys[j].patient;
      if t.patients[q].userId == user.id {
        assert q == p;
      }
    }
  }

  /** A provider lists no journey, yet the detail view opens any of them. */
  lemma ProviderSeesNoListButEveryDetail(t: Tables, user: User, j: nat)
    requires RefsValid(t) && IsProvider(user) && j < |t.journeys|
    ensures JourneyList(t, user) == Ok([])
    ensures JourneyDetail(t, user, j) == Ok(t.journeys[j])
  {
  }

  // ---------------------------------------------------------------------------
  // Requesting and answering consent

  /** `ConsentRequestSerializer`'s ABHA id: required, not blank once trimmed,
      at most 50 characters. */
  predicate ValidAbhaField(s: string) { 0 < |Trim(s)| <= 50 }

  /** An optional text field that may be blank, trimmed, `''` when absent. */
  function OptionalText(s: Option<string>): string {
    if s.Some? then Trim(s.value) else ""
  }

  /** How a request for access ends. */
  datatype RequestOutcome =
    | AlreadyGranted(consent: nat)
    | AlreadyPending(consent: nat)
    | Renewed(consent: nat)
    | Created(consent: nat)

  /** The checks of `RequestAccessByAbhaView.post`, in their order: the body,
      the patient, the role, the profile, the organisation. The result is the
      patient, the doctor and the organisation. */
  function CheckRequest(t: Tables, user: User, abha: Option<string>): (r: Result<(nat, nat, nat), AccessError>)
    ensures r == Err(Invalid) <==> abha.None? || !ValidAbhaField(abha.value)
    ensures abha.Some? && ValidAbhaField(abha.value) ==>
              (r == Err(NotFound) <==> PatientByAbha(t.patients, Trim(abha.value)).None?)
    ensures r == Err(Forbidden) ==> !IsDoctor(user)
    ensures r == Err(NoOrganization) ==>
              IsDoctor(user) && DoctorOf(t.doctors, user.id).Some? &&
              t.doctors[DoctorOf(t.doctors, user.id).value].organization.None?
    ensures r.Ok? <==>
              abha.Some? && ValidAbhaField(abha.value) &&
              PatientByAbha(t.patients, Trim(abha.value)).Some? && IsDoctor(user) &&
              DoctorOf(t.doctors, user.id).Some? &&
              t.doctors[DoctorOf(t.doctors, user.id).value].organization.Some?
    ensures r.Ok? ==>
              r.value.0 == PatientByAbha(t.patients, Trim(abha.value)).value &&
              r.value.1 == DoctorOf(t.doctors, user.id).value &&
              Some(r.value.2) == t.doctors[r.value.1].organization
  {
    if abha.None? || !ValidAbhaField(abha.value) then Err(Invalid)
    else
      match PatientByAbha(t.patients, Trim(abha.value))
      case None => Err(NotFound)
      case Some(p) =>
        if !IsDoctor(user) then Err(Forbidden)
        else
          match DoctorOf(t.doctors, user.id)
          case None => Err(NoProfile)
          case Some(d) =>
            match t.doctors[d].organization
            case None => Err(NoOrganization)
            case Some(org) => Ok((p, d, org))
  }

  /** The consent state machine of a request for access by organisation
      `org` to `patient`. A GRANTED or PENDING record is returned as it is; a
      DENIED or REVOKED one becomes PENDING again with the new purpose and
      doctor, its request and response times untouched; with no record a
      PENDING one is created. */
  function Requested(cs: seq<Consent>, patient: nat, org: nat, doctor: nat, purpose: string, now: int)
    : (r: (RequestOutcome, seq<Consent>))
    ensures var f := FindConsent(cs, patient, org);
      (f.Some? && cs[f.value].status == GRANTED ==> r == (AlreadyGranted(f.value), cs)) &&
      (f.Some? && cs[f.value].status == PENDING ==> r == (AlreadyPending(f.value), cs)) &&
      (f.Some? && (cs[f.value].status == DENIED || cs[f.value].status == REVOKED) ==>
         r == (Renewed(f.value),
               cs[f.value := cs[f.value].(status := PENDING, purpose := purpose, requestingDoctor := Some(doctor))])) &&
      (f.None? ==> r == (Created(|cs|), cs + [NewConsent(patient, org, Some(doctor), purpose, now)]))
  {
    match FindConsent(cs, patient, org)
    case Some(k) =>
      if cs[k].status == GRANTED then (AlreadyGranted(k), cs)
      else if cs[k].status == PENDING then (AlreadyPending(k), cs)
      else (Renewed(k), cs[k := cs[k].(status := PENDING, purpose := purpose, requestingDoctor := Some(doctor))])
    case None => (Created(|cs|), cs + [NewConsent(patient, org, Some(doctor), purpose, now)])
  }

  /** A request keeps one record per pair and leaves the pair's record open:
      PENDING, or GRANTED when it already was. */
  lemma RequestedLeavesOpenRecord(cs: seq<Consent>, patient: nat, org: nat, doctor: nat, purpose: string, now: int)
    requires ConsentsUnique(cs)
    ensures var after := Requested(cs, patient, org, doctor, purpose, now).1;
      ConsentsUnique(after) &&
      FindConsent(after, patient, org).Some? &&
      (after[FindConsent(after, patient, org).value].status == PENDING ||
       after[FindConsent(after, patient, org).value].status == GRANTED) &&
      (after[FindConsent(after, patient, org).value].status == GRANTED <==> HasGrantedConsent(cs, patient, Some(org)))
  {
    var after := Requested(cs, patient, org, doctor, purpose, now).1;
    var f := FindConsent(cs, patient, org);
    GrantedIffRecordGranted(cs, patient, org);
    if f.Some? {
      ConsentFoundAgain(after, f.value);
    } else {
      ConsentFoundAgain(after, |cs|);
    }
  }

  /** The rows of a request point at existing rows. */
  lemma RequestedRefs(t: Tables, patient: nat, org: nat, doctor: nat, purpose: string, now: int)
    requires TablesValid(t) && patient < |t.patients| && org < |t.providers|
    ensures var cs := Requested(t.consents, patient, org, doctor, purpose, now).1;
      forall i :: 0 <= i < |cs| ==> cs[i].patient < |t.patients| && cs[i].requestingOrg < |t.providers|
  {
  }

  /** `RequestAccessByAbhaView.post`: the checks, then the consent state
      machine on the record of the patient and the doctor's organisation. */
  method RequestAccess(db: Db, user: User, abha: Option<string>, purpose: Option<string>, now: int)
    returns (r: Result<RequestOutcome, AccessError>)
    requires db.Valid()
    modifies db`consents
    ensures db.Valid()
    ensures var c := CheckRequest(old(db.Snapshot()), user, abha);
      (r.Err? <==> c.Err?) && (r.Err? ==> r.error == c.error && db.consents == old(db.consents)) &&
      (r.Ok? ==>
         (r.value, db.consents) == Requested(old(db.consents), c.value.0, c.value.2, c.value.1,
                                             OptionalText(purpose), now))
  {
    var c := CheckRequest(db.Snapshot(), user, abha);
    if c.Err? {
      return Err(c.error);
    }
    var (p, d, org) := c.value;
    var t := db.Snapshot();
    var (outcome, cs) := Requested(db.consents, p, org, d, OptionalText(purpose), now);
    RequestedLeavesOpenRecord(db.consents, p, org, d, OptionalText(purpose), now);
    RequestedRefs(t, p, org, d, OptionalText(purpose), now);
    SetConsentsKeepsValid(t, cs);
    db.consents := cs;
    assert db.Snapshot() == t.(consents := cs);
    r := Ok(outcome);
  }

  /** Under uniqueness, the record of a pair is found again by its pair. */
  lemma ConsentFoundAgain(cs: seq<Consent>, k: nat)
    requires ConsentsUnique(cs) && k < |cs|
    ensures FindConsent(cs, cs[k].patient, cs[k].requestingOrg) == Some(k)
  {
    var f := FindConsent(cs, cs[k].patient, cs[k].requestingOrg);
    assert f.Some?;
    assert f.value == k;
  }

  /** `ConsentResponseSerializer`: only GRANTED and DENIED are accepted. */
  function ParseResponse(s: Option<string>): (r: Option<ConsentStatus>)
    ensures r.Some? ==> r.value == GRANTED || r.value == DENIED
    ensures r == Some(GRANTED) <==> s == Some("GRANTED")
    ensures r == Some(DENIED) <==> s == Some("DENIED")
  {
    if s == Some("GRANTED") then Some(GRANTED)
    else if s == Some("DENIED") then Some(DENIED)
    else None
  }

  /** `ConsentRespondView.post`: the patient owning a consent sets it to
      GRANTED or DENIED and stamps the response time, whatever it was before. */
  method Respond(db: Db, user: User, consentId: nat, status: Option<string>, now: int)
    returns (r: Result<Consent, AccessError>)
    requires db.Valid()
    modifies db`consents
    ensures db.Valid()
    ensures r.Err? ==> db.consents == old(db.consents)
    ensures r == Err(Forbidden) <==> !IsPatient(user)
    ensures r.Ok? <==>
      IsPatient(user) && PatientOf(db.patients, user.id).Some? && consentId < |old(db.consents)| &&
      old(db.consents[consentId].patient) == PatientOf(db.patients, user.id).value &&
      ParseResponse(status).Some?
    ensures r == Err(Invalid) ==> ParseResponse(status).None?
    ensures r.Ok? ==>
      r.value == old(db.consents[consentId]).(status := ParseResponse(status).value, respondedAt := Some(now)) &&
      db.consents == old(db.consents)[consentId := r.value]
  {
    if !IsPatient(user) {
      return Err(Forbidden);
    }
    var p := PatientOf(db.patients, user.id);
    if p.None? {
      return Err(NoProfile);
    }
    if consentId >= |db.consents| || db.consents[consentId].patient != p.value {
      return Err(NotFound);
    }
    var s := ParseResponse(status);
    if s.None? {
      return Err(Invalid);
    }
    var c := db.consents[consentId].(status := s.value, respondedAt := Some(now));
    var t := db.Snapshot();
    var cs := db.consents[consentId := c];
    SetConsentsKeepsValid(t, cs);
    db.consents := cs;
    assert db.Snapshot() == t.(consents := cs);
    r := Ok(c);
  }

  /** After a GRANTED answer the organisation may open every journey of the
      patient; after a DENIED answer it may open only those it created. */
  lemma RespondDecidesAccess(cs: seq<Consent>, k: nat, s: ConsentStatus, now: int, journey: Journey)
    requires ConsentsUnique(cs) && k < |cs| && (s == GRANTED || s == DENIED)
    requires journey.patient == cs[k].patient
    ensures var after := cs[k := cs[k].(status := s, respondedAt := Some(now))];
      DoctorMayAccess(journey, after, Some(cs[k].requestingOrg)) <==>
        s == GRANTED || journey.createdByOrg == Some(cs[k].requestingOrg)
  {
    var after := cs[k := cs[k].(status := s, respondedAt := Some(now))];
    assert ConsentsUnique(after);
    GrantedIffRecordGranted(after, cs[k].patient, cs[k].requestingOrg);
    ConsentFoundAgain(after, k);
  }

  // ---------------------------------------------------------------------------
  // Fetching by ABHA id

  /** `FetchJourneysByAbhaView.get`: the patient and the ids of their
      journeys. A patient may fetch only their own; a doctor needs a GRANTED
      consent, and their organisation having created the journeys does not
      suffice; a provider may fetch anyone's. */
  function FetchByAbha(t: Tables, user: User, abha: string): (r: Result<(nat, seq<nat>), AccessError>)
    ensures r == Err(NotFound) <==> PatientByAbha(t.patients, abha).None?
    ensures r.Ok? ==>
      var p := PatientByAbha(t.patients, abha).value;
      r.value.0 == p && forall j: nat :: j in r.value.1 <==> j < |t.journeys| && t.journeys[j].patient == p
    ensures PatientByAbha(t.patients, abha).Some? ==>
      var p := PatientByAbha(t.patients, abha).value;
      (IsPatient(user) ==> (r.Ok? <==> t.patients[p].userId == user.id)) &&
      (IsDoctor(user) ==> (r.Ok? <==> DoctorOf(t.doctors, user.id).Some? &&
                                      HasGrantedConsent(t.consents, p,
                                        t.doctors[DoctorOf(t.doctors, user.id).value].organization))) &&
      (IsProvider(user) ==> r.Ok?) &&
      (!IsPatient(user) && !IsDoctor(user) && !IsProvider(user) ==> r == Err(Forbidden))
  {
    match PatientByAbha(t.patients, abha)
    case None => Err(NotFound)
    case Some(p) =>
      var mine := JourneyIds(t.journeys, (x: Journey) => x.patient == p);
      if IsPatient(user) then
        if t.patients[p].userId != user.id then Err(Forbidden) else Ok((p, mine))
      else if IsDoctor(user) then
        match DoctorOf(t.doctors, user.id)
        case None => Err(NoProfile)
        case Some(d) =>
          if !HasGrantedConsent(t.consents, p, t.doctors[d].organization) then Err(ConsentRequired)
          else Ok((p, mine))
      else if IsProvider(user) then Ok((p, mine))
      else Err(Forbidden)
  }

  /** A doctor whose organisation created a journey opens it in the detail
      view, but without a GRANTED consent fetching the patient by ABHA id is
      refused. */
  lemma OwnOrgNotEnoughToFetch(t: Tables, user: User, abha: string, j: nat)
    requires RefsValid(t) && IsDoctor(user) && DoctorOf(t.doctors, user.id).Some?
    requires PatientByAbha(t.patients, abha).Some? && j < |t.journeys|
    requires t.journeys[j].patient == PatientByAbha(t.patients, abha).value
    requires var org := t.doctors[DoctorOf(t.doctors, user.id).value].organization;
             t.journeys[j].createdByOrg == org && !HasGrantedConsent(t.consents, t.journeys[j].patient, org)
    ensures JourneyDetail(t, user, j).Ok?
    ensures FetchByAbha(t, user, abha) == Err(ConsentRequired)
  {
  }

  // ---------------------------------------------------------------------------
  // Reports

  /** Step `s` already has its report. */
  predicate HasReport(rs: seq<Report>, s: nat) {
    exists i :: 0 <= i < |rs| && rs[i].step == s
  }

  /** The stored `data` of a report: nothing when the field is absent or
      empty, the parsed value otherwise, and nothing when parsing fails or
      yields `null`. `parse` stands for `json.loads`. */
  function ReportData(data: Option<string>, parse: string -> Option<Json>): (r: Option<Json>)
    ensures data.None? || data.value == "" ==> r.None?
    ensures data.Some? && data.value != "" && parse(data.value).None? ==> r.None?
    ensures r.Some? ==> r == parse(data.value) && r.value != JNull
  {
    if data.None? || data.value == "" then None
    else
      match parse(data.value)
      case None => None
      case Some(JNull) => None
      case Some(v) => Some(v)
  }

  /** The checks of `ReportUploadView.post`, in their order: the role, the
      step, its type, an earlier report, the file, and last the provider
      profile the new row refers to. The result is that profile. */
  function CheckUpload(t: Tables, user: User, stepId: nat, file: Option<string>): (r: Result<nat, AccessError>)
    ensures r == Err(Forbidden) <==> !IsProvider(user)
    ensures r.Ok? <==>
      IsProvider(user) && stepId < |t.steps| && t.steps[stepId].kind == TEST &&
      !HasReport(t.reports, stepId) && file.Some? && file.value != "" &&
      ProviderOf(t.providers, user.id).Some?
    ensures r == Err(NotATestStep) ==> stepId < |t.steps| && t.steps[stepId].kind != TEST
    ensures r == Err(ReportExists) ==> HasReport(t.reports, stepId)
    ensures r == Err(NoFile) ==> file.None? || file.value == ""
    ensures r.Ok? ==> r.value == ProviderOf(t.providers, user.id).value
  {
    if !IsProvider(user) then Err(Forbidden)
    else if stepId >= |t.steps| then Err(NotFound)
    else if t.steps[stepId].kind != TEST then Err(NotATestStep)
    else if HasReport(t.reports, stepId) then Err(ReportExists)
    else if file.None? || file.value == "" then Err(NoFile)
    else
      match ProviderOf(t.providers, user.id)
      case None => Err(NoProfile)
      case Some(prov) => Ok(prov)
  }

  /** `ReportUploadView.post`: a provider attaches the one report of a TEST
      step. `file` is the uploaded file's name, which a file needs to count as
      present. */
  method UploadReport(db: Db, user: User, stepId: nat, file: Option<string>, data: Option<string>,
                      parse: string -> Option<Json>)
    returns (r: Result<nat, AccessError>)
    requires db.Valid()
    modifies db`reports
    ensures db.Valid()
    ensures var c := CheckUpload(old(db.Snapshot()), user, stepId, file);
      (r.Err? <==> c.Err?) && (r.Err? ==> r.error == c.error && db.reports == old(db.reports)) &&
      (r.Ok? ==> r.value == |old(db.reports)| &&
                 db.reports == old(db.reports) + [Report(stepId, c.value, file, ReportData(data, parse))])
    ensures r.Ok? ==> HasReport(db.reports, stepId) && !old(HasReport(db.reports, stepId))
  {
    var c := CheckUpload(db.Snapshot(), user, stepId, file);
    if c.Err? {
      return Err(c.error);
    }
    var rep := Report(stepId, c.value, file, ReportData(data, parse));
    var t := db.Snapshot();
    AddReportKeepsValid(t, rep);
    db.reports := db.reports + [rep];
    assert db.Snapshot() == t.(reports := t.reports + [rep]);
    assert db.reports[|db.reports| - 1].step == stepId;
    r := Ok(|db.reports| - 1);
  }

  // ---------------------------------------------------------------------------
  // Doctor actions

  /** `test_name`: required, not blank once trimmed, at most 255 characters. */
  predicate ValidTestName(s: string) { 0 < |Trim(s)| <= 255 }

  /** The notes of an ordered test: "name: notes", or the name alone. */
  function TestNotes(name: string, notes: string): (r: string)
    ensures notes == "" ==> r == name
    ensures notes != "" ==> IsPrefix(name + ": ", r) && r[|name| + 2..] == notes
  {
    if notes != "" then name + ": " + notes else name
  }

  /** The notes of a prescription step: the notes, or "Prescription". */
  function PrescriptionNotes(notes: string): (r: string)
    ensures r != ""
    ensures notes != "" ==> r == notes
  {
    if notes != "" then notes else "Prescription"
  }

  /** The doctor and the journey a doctor action works on, after the checks of
      the order-test and prescription views: the role, the body, the doctor's
      profile, the journey, the access. */
  function CheckDoctorAction(t: Tables, user: User, bodyValid: bool, journeyId: int)
    : (r: Result<(nat, nat), AccessError>)
    ensures r == Err(Forbidden) <==> !IsDoctor(user)
    ensures r == Err(Invalid) <==> IsDoctor(user) && !bodyValid
    ensures r.Ok? <==>
      IsDoctor(user) && bodyValid && DoctorOf(t.doctors, user.id).Some? &&
      0 <= journeyId < |t.journeys| &&
      DoctorMayAccess(t.journeys[journeyId], t.consents, t.doctors[DoctorOf(t.doctors, user.id).value].organization)
    ensures r == Err(ConsentRequired) ==>
      0 <= journeyId < |t.journeys| && DoctorOf(t.doctors, user.id).Some? &&
      !DoctorMayAccess(t.journeys[journeyId], t.consents,
                       t.doctors[DoctorOf(t.doctors, user.id).value].organization)
    ensures r.Ok? ==> r.value == (DoctorOf(t.doctors, user.id).value, journeyId as nat)
  {
    if !IsDoctor(user) then Err(Forbidden)
    else if !bodyValid then Err(Invalid)
    else
      match DoctorOf(t.doctors, user.id)
      case None => Err(NoProfile)
      case Some(d) =>
        if journeyId < 0 || journeyId >= |t.journeys| then Err(NotFound)
        else if !DoctorMayAccess(t.journeys[journeyId], t.consents, t.doctors[d].organization) then
          Err(ConsentRequired)
        else Ok((d, journeyId as nat))
  }

  /** `OrderTestView.post`: a doctor with access appends a TEST step, numbered
      one past the journey's last step. */
  method OrderTest(db: Db, user: User, journeyId: int, testName: Option<string>, notes: Option<string>, now: int)
    returns (r: Result<nat, AccessError>)
    requires db.Valid()
    modifies db`steps
    ensures db.Valid()
    ensures var valid := testName.Some? && ValidTestName(testName.value);
      var c := CheckDoctorAction(old(db.Snapshot()), user, valid, journeyId);
      (r.Err? <==> c.Err?) && (r.Err? ==> r.error == c.error && db.steps == old(db.steps)) &&
      (r.Ok? ==>
         var (d, j) := c.value;
         var org := db.doctors[d].organization;
         r.value == |old(db.steps)| &&
         db.steps == old(db.steps) + [Step(j, None, |StepsOf(old(db.steps), j)| + 1, TEST,
                                           TestNotes(Trim(testName.value), OptionalText(notes)),
                                           now, org, Some(d), None)])
    ensures r.Ok? ==>
      |StepsOf(db.steps, journeyId as nat)| == |StepsOf(old(db.steps), journeyId as nat)| + 1
  {
    var valid := testName.Some? && ValidTestName(testName.value);
    var c := CheckDoctorAction(db.Snapshot(), user, valid, journeyId);
    if c.Err? {
      return Err(c.error);
    }
    var (d, j) := c.value;
    var t := db.Snapshot();
    var step := Step(j, None, |StepsOf(t.steps, j)| + 1, TEST,
                     TestNotes(Trim(testName.value), OptionalText(notes)),
                     now, t.doctors[d].organization, Some(d), None);
    AddStepKeepsValid(t, step);
    AppendKeepsNumbered(t.steps, step);
    var t2 := t.(steps := t.steps + [step]);
    db.steps := t2.steps;
    assert db.Snapshot() == t2;
    r := Ok(|t.steps|);
  }

  /** `WritePrescriptionSerializer.medications`: required and not `null`. */
  predicate ValidMedications(m: Option<Json>) { m.Some? && m.value != JNull }

  /** `WritePrescriptionView.post`: a doctor with access appends a PHARMACY
      step and its prescription, signed by nobody yet. The result is the ids
      of the step and of the prescription. */
  method WritePrescription(db: Db, user: User, journeyId: int, medications: Option<Json>,
                           notes: Option<string>, now: int)
    returns (r: Result<(nat, nat), AccessError>)
    requires db.Valid()
    modifies db`steps, db`prescriptions
    ensures db.Valid()
    ensures var c := CheckDoctorAction(old(db.Snapshot()), user, ValidMedications(medications), journeyId);
      (r.Err? <==> c.Err?) &&
      (r.Err? ==> r.error == c.error && db.steps == old(db.steps) && db.prescriptions == old(db.prescriptions)) &&
      (r.Ok? ==>
         var (d, j) := c.value;
         var org := db.doctors[d].organization;
         r.value == (|old(db.steps)|, |old(db.prescriptions)|) &&
         db.steps == old(db.steps) + [Step(j, None, |StepsOf(old(db.steps), j)| + 1, PHARMACY,
                                           PrescriptionNotes(OptionalText(notes)), now, org, Some(d), None)] &&
         db.prescriptions == old(db.prescriptions) + [Prescription(|old(db.steps)|, d, medications.value, "")])
  {
    var c := CheckDoctorAction(db.Snapshot(), user, ValidMedications(medications), journeyId);
    if c.Err? {
      return Err(c.error);
    }
    var (d, j) := c.value;
    var t := db.Snapshot();
    var step := Step(j, None, |StepsOf(t.steps, j)| + 1, PHARMACY,
                     PrescriptionNotes(OptionalText(notes)), now, t.doctors[d].organization, Some(d), None);
    var rx := Prescription(|t.steps|, d, medications.value, "");
    AddPrescribedStepKeepsValid(t, step, rx);
    var t2 := t.(steps := t.steps + [step], prescriptions := t.prescriptions + [rx]);
    db.steps, db.prescriptions := t2.steps, t2.prescriptions;
    assert db.Snapshot() == t2;
    r := Ok((|t.steps|, |t.prescriptions|));
  }
}

=== FILE: journeys.dfy ===
/** Health journeys: a journey per episode of care, its numbered steps, the
    one-to-one report and prescription of a step, and the patient's consent
    records, one per (patient, requesting organisation). Rows are identified by
    their position in their table. */
module Journeys {
  import opened Wrappers

  datatype JourneyStatus = ACTIVE | COMPLETED | TRANSFERRED

  datatype StepType = CONSULTATION | TEST | PHARMACY

  datatype ConsentStatus = PENDING | GRANTED | DENIED | REVOKED

  /** A small JSON value: what a report's `data` and a prescription's
      `medications` hold after parsing. */
  datatype Json = JNull | JBool(b: bool) | JNum(n: int) | JStr(s: string)
                | JArr(items: seq<Json>) | JObj(fields: seq<(string, Json)>)

  /** `created_by_org` is the optional id of the organisation (a provider profile). */
  datatype Journey = Journey(patient: nat, title: string, status: JourneyStatus,
                             createdAt: int, createdByOrg: Option<nat>)

  datatype Step = Step(journey: nat, parentStep: Option<nat>, order: int, kind: StepType,
                       notes: string, createdAt: int, createdByOrg: Option<nat>,
                       createdByDoctor: Option<nat>, assignedLab: Option<nat>)

  datatype Prescription = Prescription(step: nat, doctor: nat, medications: Json,
                                       digitalSignature: string)

  datatype Report = Report(step: nat, provider: nat, file: Option<string>, data: Option<Json>)

  datatype Consent = Consent(patient: nat, requestingOrg: nat, requestingDoctor: Option<nat>,
                             status: ConsentStatus, purpose: string, requestedAt: int,
                             respondedAt: Option<int>)

  /** A journey created with the defaults of the model. */
  function NewJourney(patient: nat, title: string, createdAt: int, org: Option<nat>): (j: Journey)
    ensures j.status == ACTIVE && j.patient == patient && j.title == title && j.createdByOrg == org
  {
    Journey(patient, title, ACTIVE, createdAt, org)
  }

  /** A consent created with the defaults of the model. */
  function NewConsent(patient: nat, org: nat, doctor: Option<nat>, purpose: string, now: int): (c: Consent)
    ensures c.status == PENDING && c.respondedAt.None?
    ensures c.patient == patient && c.requestingOrg == org
  {
    Consent(patient, org, doctor, PENDING, purpose, now, None)
  }

  // ---------------------------------------------------------------------------
  // Table constraints

  /** `unique_together = ['patient', 'requesting_org']`. */
  ghost predicate ConsentsUnique(cs: seq<Consent>) {
    forall i, j :: 0 <= i < j < |cs| ==>
      cs[i].patient != cs[j].patient || cs[i].requestingOrg != cs[j].requestingOrg
  }

  /** `MedicalReport.step` is one-to-one. */
  ghost predicate OneReportPerStep(rs: seq<Report>) {
    forall i, j :: 0 <= i < j < |rs| ==> rs[i].step != rs[j].step
  }

  /** `Prescription.step` is one-to-one. */
  ghost predicate OnePrescriptionPerStep(ps: seq<Prescription>) {
    forall i, j :: 0 <= i < j < |ps| ==> ps[i].step != ps[j].step
  }

  /** The steps of journey `j`, in creation order. */
  function StepsOf(steps: seq<Step>, j: nat): (r: seq<Step>)
    ensures |r| <= |steps|
    ensures forall k :: 0 <= k < |r| ==> r[k].journey == j
  {
    if |steps| == 0 then []
    else
      var rest := StepsOf(steps[..|steps| - 1], j);
      if steps[|steps| - 1].journey == j then rest + [steps[|steps| - 1]] else rest
  }

  /** Every journey's steps are numbered 1, 2, 3, ... in creation order. */
  ghost predicate StepsNumbered(steps: seq<Step>) {
    forall j: nat, k :: 0 <= k < |StepsOf(steps, j)| ==> StepsOf(steps, j)[k].order == k + 1
  }

  /** Appending a step adds it to its own journey's steps and to no other. */
  lemma StepsOfAppend(steps: seq<Step>, s: Step, j: nat)
    ensures StepsOf(steps + [s], j) == if s.journey == j then StepsOf(steps, j) + [s] else StepsOf(steps, j)
  {
    assert (steps + [s])[..|steps|] == steps;
  }

  /** Appending a step numbered `count + 1` keeps the numbering: the new step is
      last, and the next order of its journey is one higher. */
  lemma {:induction false} AppendKeepsNumbered(steps: seq<Step>, s: Step)
    requires StepsNumbered(steps)
    requires s.order == |StepsOf(steps, s.journey)| + 1
    ensures StepsNumbered(steps + [s])
    ensures |StepsOf(steps + [s], s.journey)| == |StepsOf(steps, s.journey)| + 1
  {
    forall j: nat, k | 0 <= k < |StepsOf(steps + [s], j)|
      ensures StepsOf(steps + [s], j)[k].order == k + 1
    {
      StepsOfAppend(steps, s, j);
    }
    StepsOfAppend(steps, s, s.journey);
  }

  /** Under the numbering, a journey's steps are sorted by `order` with no two
      steps sharing an order, which is what `ordering = ['order']` relies on. */
  lemma StepOrdersIncreasing(steps: seq<Step>, j: nat, a: nat, b: nat)
    requires StepsNumbered(steps)
    requires a < b < |StepsOf(steps, j)|
    ensures StepsOf(steps, j)[a].order < StepsOf(steps, j)[b].order
  {
  }

  // ---------------------------------------------------------------------------
  // Consent queries

  /** `HealthDataConsent.objects.filter(patient=..., requesting_org=...).first()`. */
  function FindConsent(cs: seq<Consent>, patient: nat, org: nat): (r: Option<nat>)
    ensures r.Some? ==> r.value < |cs| && cs[r.value].patient == patient && cs[r.value].requestingOrg == org
    ensures r.None? ==> forall i :: 0 <= i < |cs| ==> cs[i].patient != patient || cs[i].requestingOrg != org
  {
    if |cs| == 0 then None
    else if cs[0].patient == patient && cs[0].requestingOrg == org then Some(0)
    else
      match FindConsent(cs[1..], patient, org)
      case None =>
        assert forall i :: 1 <= i < |cs| ==> cs[i] == cs[1..][i - 1];
        None
      case Some(k) => Some(k + 1)
  }

  /** `filter(patient=..., requesting_org=org, status='GRANTED').exists()`; a
      doctor with no organisation matches no consent, since every consent names one. */
  predicate HasGrantedConsent(cs: seq<Consent>, patient: nat, org: Option<nat>) {
    org.Some? && exists i :: 0 <= i < |cs| && cs[i].patient == patient
                             && cs[i].requestingOrg == org.value && cs[i].status == GRANTED
  }

  /** With one record per (patient, organisation), consent is granted exactly
      when that one record says GRANTED. */
  lemma GrantedIffRecordGranted(cs: seq<Consent>, patient: nat, org: nat)
    requires ConsentsUnique(cs)
    ensures HasGrantedConsent(cs, patient, Some(org)) <==>
              (FindConsent(cs, patient, org).Some? && cs[FindConsent(cs, patient, org).value].status == GRANTED)
  {
    var f := FindConsent(cs, patient, org);
    if HasGrantedConsent(cs, patient, Some(org)) {
      var i :| 0 <= i < |cs| && cs[i].patient == patient && cs[i].requestingOrg == org && cs[i].status == GRANTED;
      assert f.Some?;
      if f.value != i {
        assert false;
      }
    }
  }

  /** A doctor's access to a journey (detail, order-test and prescription views):
      the journey was created by the doctor's organisation, or the patient has
      granted that organisation consent. Both sides may be "no organisation",
      in which case they compare equal. */
  predicate DoctorMayAccess(journey: Journey, cs: seq<Consent>, org: Option<nat>) {
    journey.createdByOrg == org || HasGrantedConsent(cs, journey.patient, org)
  }
}

=== FILE: login_page.dfy ===
/** The login page: where a signed-in user goes next, and the error and
    loading state of the form. */
module LoginPage {
  import opened Wrappers
  import opened ClientValues
  import opened ApiClient
  import opened AuthContext
  import PrivateRoute

  const INVALID_CREDENTIALS := "Invalid email or password"

  /** `location.state?.from?.pathname || '/'`. */
  function From(pathname: Option<string>): (from: string)
    ensures pathname.Some? && pathname.value != "" ==> from == pathname.value
    ensures pathname.None? || pathname.value == "" ==> from == "/"
  {
    TextOr(pathname, "/")
  }

  /** The page after a successful login, chosen from the response's user by
      truthiness of its flags, in the order patient, doctor, provider. */
  function AfterLogin(user: Option<ClientUser>, from: string): (to: string)
    ensures user.Some? && Truthy(user.value.isPatient) ==> to == "/patient"
    ensures user.Some? && !Truthy(user.value.isPatient) && Truthy(user.value.isDoctor) ==> to == "/doctor"
    ensures (user.Some? && !Truthy(user.value.isPatient) && !Truthy(user.value.isDoctor) &&
             Truthy(user.value.isProvider)) ==> to == "/provider"
    ensures (user.None? || (!Truthy(user.value.isPatient) && !Truthy(user.value.isDoctor) &&
                            !Truthy(user.value.isProvider))) ==> to == from
  {
    match user
    case None => from
    case Some(u) =>
      if Truthy(u.isPatient) then "/patient"
      else if Truthy(u.isDoctor) then "/doctor"
      else if Truthy(u.isProvider) then "/provider"
      else from
  }

  /** A user whose flags are booleans, as the server sends them. */
  predicate BooleanFlags(u: ClientUser) {
    u.isPatient.Bool? && u.isDoctor.Bool? && u.isProvider.Bool?
  }

  /** For a user with boolean flags, the dashboard chosen after login by a
      flag is admitted by the route guard of that flag's role. */
  lemma LoginLandsOnAdmittedPage(u: ClientUser, from: string, location: string)
    requires BooleanFlags(u)
    ensures Truthy(u.isPatient) ==>
            AfterLogin(Some(u), from) == "/patient" &&
            PrivateRoute.Decide(false, Some(u), ["patient"], location) == PrivateRoute.Children
    ensures !Truthy(u.isPatient) && Truthy(u.isDoctor) ==>
            AfterLogin(Some(u), from) == "/doctor" &&
            PrivateRoute.Decide(false, Some(u), ["doctor"], location) == PrivateRoute.Children
    ensures !Truthy(u.isPatient) && !Truthy(u.isDoctor) && Truthy(u.isProvider) ==>
            AfterLogin(Some(u), from) == "/provider" &&
            PrivateRoute.Decide(false, Some(u), ["provider"], location) == PrivateRoute.Children
  {
    if Truthy(u.isPatient) {
      assert PrivateRoute.RoleGrants(["patient"][0], Some(u));
    } else if Truthy(u.isDoctor) {
      assert PrivateRoute.RoleGrants(["doctor"][0], Some(u));
    } else if Truthy(u.isProvider) {
      assert PrivateRoute.RoleGrants(["provider"][0], Some(u));
    }
  }

  class LoginForm {
    var error: string
    var loading: bool
    /** The page `navigate` was called with, if any. */
    var navigatedTo: Option<string>

    constructor ()
      ensures error == "" && !loading && navigatedTo == None
    {
      error, loading, navigatedTo := "", false, None;
    }

    /** `handleSubmit`: on success the session is written and the browser
        navigates; on failure the error shows the server's `detail` or the
        generic text. Either way `loading` ends false. */
    method Submit(auth: AuthProvider, response: Result<LoginResponse, ApiError>, from: string,
                  stringify: ClientUser -> string)
      modifies this, auth`user, auth.browser`storage
      ensures !loading
      ensures response.Ok? ==> error == "" && navigatedTo == Some(AfterLogin(response.value.user, from))
      ensures response.Err? ==> error == TextOr(response.error.detail, INVALID_CREDENTIALS) &&
                                navigatedTo == old(navigatedTo)
      ensures response.Err? ==> auth.user == old(auth.user) && auth.browser.storage == old(auth.browser.storage)
      ensures response.Ok? ==>
        var d := response.value;
        var tokens := old(auth.browser.storage)[ACCESS_TOKEN := d.access][REFRESH_TOKEN := d.refresh];
        if d.user.Some? then
          auth.user == d.user && auth.browser.storage == tokens[USER_DATA := stringify(d.user.value)]
        else
          auth.user == old(auth.user) && auth.browser.storage == tokens
    {
      error := "";
      loading := true;
      var r := auth.Login(response, stringify);
      if r.Ok? {
        navigatedTo := Some(AfterLogin(r.value.user, from));
      } else {
        error := TextOr(r.error.detail, INVALID_CREDENTIALS);
      }
      loading := false;
    }
  }
}

=== FILE: money.dfy ===
/** Amounts of money as integer paise (hundredths of a rupee), the two rounding
    modes the backend uses when it quantizes a Decimal to 0.01, and the rendering
    of a two-place Decimal as Python's `str` produces it. */
module Money {
  import opened Wrappers
  import opened Text

  function Abs(x: int): nat { if x < 0 then -x else x }

  /** `n / d` rounded to the nearest integer, ties to the even neighbour: Decimal's
      default rounding (ROUND_HALF_EVEN). */
  function RoundHalfEven(n: int, d: int): (r: int)
    requires d > 0
    ensures -d <= 2 * (r * d - n) <= d
    ensures Abs(2 * (r * d - n)) == d ==> r % 2 == 0
  {
    var q, m := n / d, n % d;
    assert n == q * d + m;
    assert (q + 1) * d == q * d + d;
    if 2 * m < d then q
    else if 2 * m > d then q + 1
    else if q % 2 == 0 then q
    else q + 1
  }

  lemma MulAtLeast(k: int, d: int)
    requires k >= 1 && d > 0
    ensures k * d >= d
  {
  }

  lemma MulDiff(a: int, b: int, d: int)
    ensures a * d - b * d == (a - b) * d
  {
  }

  /** Two roundings of the same quotient are at most one apart, and only at a tie. */
  lemma {:induction false} CloseRoundings(d: int, x: int, y: int, k: int)
    requires d > 0 && -d <= 2 * x <= d && -d <= 2 * y <= d
    requires x - y == k * d
    ensures k == 0 || (k == 1 && 2 * x == d) || (k == -1 && 2 * y == d)
  {
    if k >= 1 {
      MulAtLeast(k, d);
      if k >= 2 {
        MulAtLeast(k - 1, d);
      }
    } else if k <= -1 {
      MulAtLeast(-k, d);
      if k <= -2 {
        MulAtLeast(-k - 1, d);
      }
    }
  }

  /** The contract of RoundHalfEven determines its result: it is THE half-even rounding. */
  lemma RoundHalfEvenUnique(n: int, d: int, r: int)
    requires d > 0
    requires -d <= 2 * (r * d - n) <= d
    requires Abs(2 * (r * d - n)) == d ==> r % 2 == 0
    ensures r == RoundHalfEven(n, d)
  {
    var e := RoundHalfEven(n, d);
    var x, y := r * d - n, e * d - n;
    MulDiff(r, e, d);
    CloseRoundings(d, x, y, r - e);
  }

  /** Half-up rounding of a non-negative quotient. */
  function RoundHalfUpNat(n: nat, d: int): (r: nat)
    requires d > 0
    ensures -d <= 2 * (r * d - n) <= d
    ensures 2 * (r * d - n) == -d ==> false
  {
    var q, m := n / d, n % d;
    assert n == q * d + m;
    if 2 * m >= d then
      assert (q + 1) * d - n == d - m;
      q + 1
    else
      assert q * d - n == -m;
      q
  }

  /** `n / d` rounded to the nearest integer, ties away from zero (ROUND_HALF_UP). */
  function RoundHalfUp(n: int, d: int): (r: int)
    requires d > 0
    ensures -d <= 2 * (r * d - n) <= d
    ensures 2 * (r * d - n) == d ==> n >= 0
    ensures 2 * (r * d - n) == -d ==> n < 0
    ensures n >= 0 ==> r >= 0
    ensures n <= 0 ==> r <= 0
  {
    if n >= 0 then RoundHalfUpNat(n, d)
    else
      var k: int := RoundHalfUpNat(-n, d);
      assert (-k) * d - n == -(k * d - (-n));
      -k
  }

  function Pow10(k: nat): (p: nat)
    ensures p >= 1
  {
    if k == 0 then 1 else 10 * Pow10(k - 1)
  }

  lemma {:induction false} Pow10Add(a: nat, b: nat)
    ensures Pow10(a + b) == Pow10(a) * Pow10(b)
    decreases a
  {
    if a > 0 {
      Pow10Add(a - 1, b);
      assert Pow10(a + b) == 10 * Pow10(a - 1 + b);
    }
  }

  lemma {:induction false} Pow10Monotone(a: nat, b: nat)
    requires a <= b
    ensures Pow10(a) <= Pow10(b)
    decreases b
  {
    if a < b {
      Pow10Monotone(a, b - 1);
    }
  }

  /** A number written with `k` digits is below 10^k. */
  lemma {:induction false} NatBelowPow10(n: nat)
    ensures n < Pow10(|NatToString(n)|)
    decreases n
  {
    if n >= 10 {
      NatBelowPow10(n / 10);
      assert |NatToString(n)| == |NatToString(n / 10)| + 1;
    }
  }

  /** The text of a two-place decimal: optional sign, whole part, point, two digits. */
  function DecimalText(neg: bool, whole: nat, cents: nat): string
    requires cents < 100
  {
    (if neg then "-" else "") + NatToString(whole) + "." + PadStart2(NatToString(cents))
  }

  /** Python `str()` of a Decimal with two decimal places, given in paise:
      "200.00", "0.05", "-12.50". Reading the text back gives the amount. */
  function PaiseToString(p: int): (s: string)
    ensures ParsePaise(s) == Some(p)
  {
    var a := Abs(p);
    var whole, cents := a / 100, a % 100;
    assert whole * 100 + cents == a;
    assert p < 0 ==> p == -(a as int);
    ParsePaiseParts(p < 0, whole, cents);
    var s := DecimalText(p < 0, whole, cents);
    assert ParsePaise(s) == Some(p);
    s
  }

  /** Reads back a string of the form produced by PaiseToString. */
  function ParsePaise(s: string): (r: Option<int>)
  {
    if |s| < 4 || s[|s| - 3] != '.' then None
    else
      var whole, frac := s[..|s| - 3], s[|s| - 2..];
      var neg := |whole| > 0 && whole[0] == '-';
      var digits := if neg then whole[1..] else whole;
      var pw, pf := ParseNat(digits), ParseNat(frac);
      if pw.None? || pf.None? then None
      else
        var v: int := pw.value * 100 + pf.value;
        Some(if neg then -v else v)
  }

  /** ParsePaise reads any sign, digit run, point and two digits back as their value. */
  lemma {:induction false} ParseDecimalText(sign: string, ws: string, fs: string)
    requires sign == "" || sign == "-"
    requires |ws| >= 1 && AllDigits(ws) && |fs| == 2 && AllDigits(fs)
    ensures var v: int := DigitsValue(ws) * 100 + DigitsValue(fs);
      ParsePaise(sign + ws + "." + fs) == Some(if sign == "-" then -v else v)
  {
    var whole := sign + ws;
    var s := whole + ("." + fs);
    assert sign + ws + "." + fs == s;
    assert s[..|s| - 3] == whole && s[|s| - 2..] == fs && s[|s| - 3] == '.';
    var neg := |whole| > 0 && whole[0] == '-';
    if sign == "-" {
      assert neg && whole[1..] == ws;
    } else {
      assert whole == ws;
      assert IsDigit(ws[0]) && !neg;
    }
    assert ParseNat(ws) == Some(DigitsValue(ws)) && ParseNat(fs) == Some(DigitsValue(fs));
  }

  lemma {:induction false} ParsePaiseParts(neg: bool, w: nat, f: nat)
    requires f < 100
    ensures var v: int := w * 100 + f; ParsePaise(DecimalText(neg, w, f)) == Some(if neg then -v else v)
  {
    var sign := if neg then "-" else "";
    var ws, fs := NatToString(w), PadStart2(NatToString(f));
    TwoDigitsValue(f);
    DigitsValueOfNatToString(w);
    assert AllDigits(ws) && DigitsValue(fs) == f;
    ParseDecimalText(sign, ws, fs);
    assert DecimalText(neg, w, f) == sign + ws + "." + fs;
  }
}

=== FILE: patient_appointments_page.dfy ===
/** The patient's appointment list: upcoming appointments first, earliest
    first, then everything else, latest first; a display cap of three; and the
    pay and cancel buttons. */
module PatientAppointmentsPage {
  import opened Wrappers
  import opened ClientValues
  import opened Seqs
  import opened Sorting

  const INITIAL_DISPLAY_COUNT := 3

  /** Scheduled and not yet due. */
  predicate Upcoming(a: ClientAppointment, now: int) {
    a.scheduledTime >= now && a.status == "SCHEDULED"
  }

  /** The second filter, as written: due, or no longer scheduled. */
  predicate Other(a: ClientAppointment, now: int) {
    a.scheduledTime < now || a.status != "SCHEDULED"
  }

  /** `upcoming`, before sorting. */
  function UpcomingOf(appts: seq<ClientAppointment>, now: int): (r: seq<ClientAppointment>)
    ensures forall i :: 0 <= i < |r| ==> Upcoming(r[i], now)
    ensures forall a :: a in appts && Upcoming(a, now) ==> a in r
  {
    Filter(appts, (a: ClientAppointment) => Upcoming(a, now))
  }

  /** `others`, before sorting: together with `upcoming` it holds every
      fetched appointment exactly once. */
  function OthersOf(appts: seq<ClientAppointment>, now: int): (r: seq<ClientAppointment>)
    ensures forall i :: 0 <= i < |r| ==> !Upcoming(r[i], now)
    ensures multiset(UpcomingOf(appts, now)) + multiset(r) == multiset(appts)
    ensures |UpcomingOf(appts, now)| + |r| == |appts|
  {
    FilterSplit(appts, (a: ClientAppointment) => Upcoming(a, now), (a: ClientAppointment) => Other(a, now));
    Filter(appts, (a: ClientAppointment) => Other(a, now))
  }

  /** A rearrangement of a list whose elements all pass `Upcoming` (or all
      fail it) is still such a list. */
  lemma SameElements(s: seq<ClientAppointment>, t: seq<ClientAppointment>, now: int, upcoming: bool)
    requires multiset(s) == multiset(t)
    requires forall i :: 0 <= i < |t| ==> Upcoming(t[i], now) == upcoming
    ensures forall i :: 0 <= i < |s| ==> Upcoming(s[i], now) == upcoming
  {
    forall i | 0 <= i < |s| ensures Upcoming(s[i], now) == upcoming {
      assert s[i] in multiset(t);
    }
  }

  /** The upcoming part followed by the rest: the split point separates
      the two and each part keeps its order. */
  lemma ConcatParts(u: seq<ClientAppointment>, o: seq<ClientAppointment>, now: int)
    requires forall i :: 0 <= i < |u| ==> Upcoming(u[i], now)
    requires forall i :: 0 <= i < |o| ==> !Upcoming(o[i], now)
    ensures (u + o)[..|u|] == u && (u + o)[|u|..] == o
    ensures forall i :: 0 <= i < |u| ==> Upcoming((u + o)[i], now)
    ensures forall i :: |u| <= i < |u + o| ==> !Upcoming((u + o)[i], now)
  {
    assert forall i :: |u| <= i < |u + o| ==> (u + o)[i] == o[i - |u|];
  }

  /** `[...upcoming, ...others]` as `fetchAppointments` builds it. */
  function Arrange(appts: seq<ClientAppointment>, now: int): (r: seq<ClientAppointment>)
    ensures multiset(r) == multiset(appts) && |r| == |appts|
    ensures var k := |UpcomingOf(appts, now)|;
      k <= |r| &&
      (forall i :: 0 <= i < k ==> Upcoming(r[i], now)) &&
      (forall i :: k <= i < |r| ==> !Upcoming(r[i], now)) &&
      SortedBy(r[..k], EarliestFirst) && SortedBy(r[k..], LatestFirst)
  {
    var up := UpcomingOf(appts, now);
    var rest := OthersOf(appts, now);
    var u := SortBy(up, EarliestFirst);
    var o := SortBy(rest, LatestFirst);
    SameElements(u, up, now, true);
    SameElements(o, rest, now, false);
    ConcatParts(u, o, now);
    u + o
  }

  /** Every fetched appointment is shown exactly once, and the upcoming part
      is exactly the scheduled appointments that are not yet due. */
  lemma ArrangeShowsEachOnce(appts: seq<ClientAppointment>, now: int, a: ClientAppointment)
    ensures multiset(Arrange(appts, now))[a] == multiset(appts)[a]
    ensures a in Arrange(appts, now)[..|UpcomingOf(appts, now)|] <==> a in appts && Upcoming(a, now)
  {
    var r := Arrange(appts, now);
    var k := |UpcomingOf(appts, now)|;
    assert forall i :: 0 <= i < k ==> r[..k][i] == r[i];
    if a in appts && Upcoming(a, now) {
      assert a in multiset(r);
      var i :| 0 <= i < |r| && r[i] == a;
      assert r[..k][i] == a;
    }
    if a in r[..k] {
      assert a in multiset(appts);
    }
  }

  /** The list shown: everything when `showAll`, otherwise the first three. */
  function Displayed(list: seq<ClientAppointment>, showAll: bool): (r: seq<ClientAppointment>)
    ensures showAll ==> r == list
    ensures |r| <= |list|
    ensures !showAll ==> |r| <= INITIAL_DISPLAY_COUNT && r == list[..|r|]
    ensures !showAll && |list| >= INITIAL_DISPLAY_COUNT ==> |r| == INITIAL_DISPLAY_COUNT
  {
    if showAll || |list| <= INITIAL_DISPLAY_COUNT then list else list[..INITIAL_DISPLAY_COUNT]
  }

  /** The "View All" toggle is rendered when there are more than three appointments. */
  predicate ShowToggle(list: seq<ClientAppointment>) {
    |list| > INITIAL_DISPLAY_COUNT
  }

  /** The toggle appears exactly when the capped list hides something. */
  lemma ToggleIffSomethingHidden(list: seq<ClientAppointment>)
    ensures ShowToggle(list) <==> Displayed(list, false) != list
  {
    if ShowToggle(list) {
      assert |Displayed(list, false)| < |list|;
    }
  }

  predicate CanPay(a: ClientAppointment) { a.status == "SCHEDULED" && !a.isPaid }
  predicate CanCancel(a: ClientAppointment) { a.status == "SCHEDULED" }

  /** Pay and Cancel are offered only for scheduled appointments, Pay only
      while unpaid; an in-progress appointment, which the server would still
      let the patient cancel, gets neither button. */
  lemma ButtonsOnlyWhileScheduled(a: ClientAppointment)
    ensures CanPay(a) <==> CanCancel(a) && !a.isPaid
    ensures a.status == "IN_PROGRESS" ==> !CanCancel(a) && !CanPay(a)
  {
  }

  /** The banner after `handlePay(id, amount)`; `amount` is the fee as the
      list shows it. */
  function PayMessage(amount: string, r: Result<(), ApiError>): (m: Message)
    ensures m.success <==> r.Ok?
    ensures r.Ok? ==> m.text == "Payment of ₹" + amount + " successful!"
    ensures r.Err? ==> m.text == TextOr(r.error.error, "Payment failed")
  {
    Banner("Payment of ₹" + amount + " successful!", "Payment failed", r)
  }

  /** The banner after `confirmCancel`. */
  function CancelMessage(r: Result<(), ApiError>): (m: Message)
    ensures m.success <==> r.Ok?
    ensures r.Ok? ==> m.text == "Appointment cancelled"
    ensures r.Err? ==> m.text == TextOr(r.error.error, "Cancellation failed")
  {
    Banner("Appointment cancelled", "Cancellation failed", r)
  }
}

=== FILE: payment_views.dfy ===
/** The wallet endpoints: top-up, paying for an appointment (consultation fee
    plus a platform commission) and refunding a cancelled appointment. */
module PaymentViews {
  import opened Wrappers
  import opened Money
  import opened Users
  import opened Appointments
  import opened Payments
  import opened Database

  /** The platform commission rate `num / den` (5% is 5 / 100). */
  datatype Rate = Rate(num: nat, den: nat)

  predicate ValidRate(rate: Rate) { rate.den > 0 }

  /** `(fee * COMMISSION_RATE).quantize(Decimal("0.01"))`: the commission in
      paise, rounded half to even (the default rounding of Decimal). */
  function Commission(fee: int, rate: Rate): (c: int)
    requires ValidRate(rate)
    ensures -(rate.den as int) <= 2 * (c * rate.den - fee * rate.num) <= rate.den
    ensures Abs(2 * (c * rate.den - fee * rate.num)) == rate.den ==> c % 2 == 0
    ensures fee >= 0 ==> c >= 0
  {
    RoundHalfEven(fee * rate.num, rate.den)
  }

  /** The commission is at most the fee when the rate is at most 100%. */
  lemma CommissionAtMostFee(fee: nat, rate: Rate)
    requires ValidRate(rate) && rate.num <= rate.den
    ensures 0 <= Commission(fee, rate) <= fee
  {
    var c := Commission(fee, rate);
    var d := rate.den;
    MulMonotone(fee, rate.num, d);
    assert c * d < (fee + 1) * d;
    MulCancelLt(c, fee + 1, d);
  }

  lemma MulCancelLt(a: int, b: int, d: int)
    requires d > 0 && a * d < b * d
    ensures a < b
  {
    if a >= b {
      assert a * d - b * d == (a - b) * d;
      MulAtLeastZero(a - b, d);
    }
  }

  lemma MulAtLeastZero(k: int, d: int)
    requires k >= 0 && d > 0
    ensures k * d >= 0
  {
  }

  lemma MulMonotone(a: nat, b: nat, c: nat)
    requires b <= c
    ensures a * b <= a * c
  {
  }

  /** What the payment endpoint answers on success. */
  datatype PaymentReceipt = PaymentReceipt(fee: int, commission: int, total: int, patientNewBalance: int)

  datatype PayError =
    | AppointmentNotFound            // 404
    | OnlyPatientsCanPay             // 403
    | NotYourAppointment             // 403
    | AlreadyPaid                    // 400
    | NoConsultationFee              // 400
    | InsufficientFunds(required: int, available: int)  // 400

  /** The description of the patient's DEBIT row. */
  function PaymentDescription(doctorFirstName: string, commission: int): string {
    "Payment for appointment with Dr. " + doctorFirstName + " (includes ₹" + PaiseToString(commission) + " platform fee)"
  }

  /** `AppointmentPaymentView.post`. `patientWallet` is the requesting user's
      wallet and `doctorWallet` that of the appointment's doctor; `others` holds
      the rows of every other wallet, so that the already-paid query sees the
      whole transaction table. */
  method Pay(db: Db, apptId: nat, user: User, doctorUser: User,
             patientWallet: Wallet, doctorWallet: Wallet, others: seq<Transaction>, rate: Rate)
    returns (r: Result<PaymentReceipt, PayError>)
    requires db.Valid() && patientWallet.Valid() && doctorWallet.Valid() && ValidRate(rate)
    requires patientWallet != doctorWallet && patientWallet.userId == user.id
    requires apptId < |db.appointments| ==>
               doctorUser.id == doctorWallet.userId == db.doctors[db.appointments[apptId].doctor].userId
    modifies db`appointments, patientWallet, doctorWallet
    ensures db.Valid() && patientWallet.Valid() && doctorWallet.Valid()
    ensures r.Err? ==> db.appointments == old(db.appointments)
                       && patientWallet.State() == old(patientWallet.State())
                       && doctorWallet.State() == old(doctorWallet.State())
    ensures r == Err(AppointmentNotFound) <==> apptId >= |old(db.appointments)|
    ensures apptId < |old(db.appointments)| ==> (
      var a := old(db.appointments[apptId]);
      var fee := old(db.doctors[a.doctor].consultationFee);
      var total := fee + Commission(fee, rate);
      (r == Err(OnlyPatientsCanPay) <==> !IsPatient(user)) &&
      (r.Ok? <==> IsPatient(user) && old(db.patients[a.patient].userId) == user.id
                  && !HasTx(old(patientWallet.transactions + doctorWallet.transactions) + others, PAYMENT_DONE, apptId)
                  && fee > 0 && old(patientWallet.balance) >= total) &&
      (r.Ok? ==>
         r.value == PaymentReceipt(fee, total - fee, total, patientWallet.balance) &&
         Ok(patientWallet.State()) == DebitLedger(old(patientWallet.State()), total, PAYMENT_DONE, Some(apptId),
                                                  PaymentDescription(doctorUser.firstName, Commission(fee, rate))) &&
         doctorWallet.State() == CreditLedger(old(doctorWallet.State()), fee, PAYMENT_RECEIVED, Some(apptId),
                                              "Payment received from " + user.firstName) &&
         db.appointments == old(db.appointments)[apptId := a.(isPaid := true)]))
  {
    var t := db.Snapshot();
    if apptId >= |t.appointments| {
      return Err(AppointmentNotFound);
    }
    var a := t.appointments[apptId];
    if !IsPatient(user) {
      return Err(OnlyPatientsCanPay);
    }
    if t.patients[a.patient].userId != user.id {
      return Err(NotYourAppointment);
    }
    if FirstTx(patientWallet.transactions + doctorWallet.transactions + others, PAYMENT_DONE, apptId).Some? {
      return Err(AlreadyPaid);
    }
    var fee := t.doctors[a.doctor].consultationFee;
    if fee <= 0 {
      return Err(NoConsultationFee);
    }
    var commission := Commission(fee, rate);
    var total := fee + commission;
    if patientWallet.balance < total {
      return Err(InsufficientFunds(total, patientWallet.balance));
    }
    var debited := patientWallet.Debit(total, PAYMENT_DONE, Some(apptId),
                                       PaymentDescription(doctorUser.firstName, commission));
    var _ := doctorWallet.Credit(fee, PAYMENT_RECEIVED, Some(apptId),
                                 "Payment received from " + user.firstName);
    var b := a.(isPaid := true);
    AppointmentUpdateKeepsValid(t, apptId, b);
    var t2 := t.(appointments := t.appointments[apptId := b]);
    db.appointments := t2.appointments;
    assert db.Snapshot() == t2;
    r := Ok(PaymentReceipt(fee, commission, total, patientWallet.balance));
  }

  datatype RefundError =
    | RefundAppointmentNotFound      // 404
    | NotCancelled                   // 400
    | NoPayment                      // 400
    | AlreadyRefunded                // 400
    | DoctorDebitFailed              // 500: the doctor's debit raised after the patient was credited

  /** `AppointmentRefundView.post`. The view checks no role and no ownership.
      The refunded amount is the amount of the PAYMENT_DONE row, which is the
      fee plus the commission. The patient is credited before the doctor is
      debited, with no transaction around the two, so a doctor whose balance is
      too low leaves the patient credited and the request failing. The lookups
      run over the rows of the two wallets and `others`, the rows of every
      other wallet. */
  method Refund(db: Db, apptId: nat, patientWallet: Wallet, doctorWallet: Wallet, others: seq<Transaction>)
    returns (r: Result<int, RefundError>)
    requires db.Valid() && patientWallet.Valid() && doctorWallet.Valid()
    requires patientWallet != doctorWallet
    requires apptId < |db.appointments| ==>
               patientWallet.userId == db.patients[db.appointments[apptId].patient].userId &&
               doctorWallet.userId == db.doctors[db.appointments[apptId].doctor].userId
    modifies patientWallet, doctorWallet
    ensures patientWallet.Valid() && doctorWallet.Valid()
    ensures var all := old(patientWallet.transactions + doctorWallet.transactions) + others;
      var pay := FirstTx(all, PAYMENT_DONE, apptId);
      var reached := apptId < |db.appointments| && db.appointments[apptId].status == CANCELLED
                     && pay.Some? && !HasTx(all, REFUND, apptId);
      (!reached ==> r.Err? && r != Err(DoctorDebitFailed)
                    && patientWallet.State() == old(patientWallet.State())
                    && doctorWallet.State() == old(doctorWallet.State())) &&
      (reached ==>
         var amount := all[pay.value].amount;
         patientWallet.State() == CreditLedger(old(patientWallet.State()), amount, REFUND,
                                               Some(apptId), "Refund for cancelled appointment") &&
         (r.Ok? <==> old(doctorWallet.balance) >= amount) &&
         (r.Ok? ==> r.value == amount &&
                    Ok(doctorWallet.State()) == DebitLedger(old(doctorWallet.State()), amount, REFUND,
                                                            Some(apptId), "Refund for cancelled appointment")) &&
         (r.Err? ==> r == Err(DoctorDebitFailed) && doctorWallet.State() == old(doctorWallet.State())))
  {
    if apptId >= |db.appointments| {
      return Err(RefundAppointmentNotFound);
    }
    if db.appointments[apptId].status != CANCELLED {
      return Err(NotCancelled);
    }
    var all := patientWallet.transactions + doctorWallet.transactions + others;
    var pay := FirstTx(all, PAYMENT_DONE, apptId);
    if pay.None? {
      return Err(NoPayment);
    }
    if FirstTx(all, REFUND, apptId).Some? {
      return Err(AlreadyRefunded);
    }
    var amount := all[pay.value].amount;
    var _ := patientWallet.Credit(amount, REFUND, Some(apptId), "Refund for cancelled appointment");
    var d := doctorWallet.Debit(amount, REFUND, Some(apptId), "Refund for cancelled appointment");
    if d.Err? {
      return Err(DoctorDebitFailed);
    }
    r := Ok(amount);
  }

  /** `TopUpView.post`: validate the amount, then credit the wallet. */
  method TopUp(wallet: Wallet, amount: Dec) returns (r: Result<int, AmountError>)
    requires wallet.Valid()
    modifies wallet
    ensures wallet.Valid()
    ensures r.Err? ==> ValidateAmount(amount).Err? && r.error == ValidateAmount(amount).error
                       && wallet.State() == old(wallet.State())
    ensures r.Ok? ==> ValidateAmount(amount) == Ok(r.value - old(wallet.balance))
                      && r.value == wallet.balance
                      && wallet.State() == CreditLedger(old(wallet.State()), ValidateAmount(amount).value,
                                                        TOP_UP, None, "Wallet top-up")
  {
    var v := ValidateAmount(amount);
    if v.Err? {
      return Err(v.error);
    }
    var _ := wallet.Credit(v.value, TOP_UP, None, "Wallet top-up");
    r := Ok(wallet.balance);
  }
}

=== FILE: payments.dfy ===
/** The wallet ledger (models) and the amount validation of the wallet
    serializers. Money is held in integer paise: 1 rupee = 100 paise, which is
    exact for the two-decimal-place fields the ledger uses. */
module Payments {
  import opened Wrappers
  import opened Text
  import opened Money

  datatype TxType = CREDIT | DEBIT

  datatype TxReason = TOP_UP | PAYMENT_DONE | PAYMENT_RECEIVED | REFUND | WITHDRAWAL

  function TxTypeName(t: TxType): string {
    match t
    case CREDIT => "CREDIT"
    case DEBIT => "DEBIT"
  }

  function TxReasonName(r: TxReason): string {
    match r
    case TOP_UP => "TOP_UP"
    case PAYMENT_DONE => "PAYMENT_DONE"
    case PAYMENT_RECEIVED => "PAYMENT_RECEIVED"
    case REFUND => "REFUND"
    case WITHDRAWAL => "WITHDRAWAL"
  }

  /** Reads a stored `type` column: only the two choices are transaction types. */
  function ParseTxType(s: string): (r: Option<TxType>)
    ensures r.Some? <==> s == "CREDIT" || s == "DEBIT"
    ensures r.Some? ==> TxTypeName(r.value) == s
  {
    if s == "CREDIT" then Some(CREDIT) else if s == "DEBIT" then Some(DEBIT) else None
  }

  /** Reads a stored `reason` column: only the five choices are reasons. */
  function ParseTxReason(s: string): (r: Option<TxReason>)
    ensures r.Some? ==> TxReasonName(r.value) == s
    ensures r.None? ==> forall x: TxReason :: TxReasonName(x) != s
  {
    if s == "TOP_UP" then Some(TOP_UP)
    else if s == "PAYMENT_DONE" then Some(PAYMENT_DONE)
    else if s == "PAYMENT_RECEIVED" then Some(PAYMENT_RECEIVED)
    else if s == "REFUND" then Some(REFUND)
    else if s == "WITHDRAWAL" then Some(WITHDRAWAL)
    else None
  }

  /** Every type and reason survives being stored as its name and read back. */
  lemma TxNamesRoundTrip(t: TxType, r: TxReason)
    ensures ParseTxType(TxTypeName(t)) == Some(t)
    ensures ParseTxReason(TxReasonName(r)) == Some(r)
  {
    assert TxReasonName(r) == "TOP_UP" ==> r == TOP_UP;
    assert "PAYMENT_DONE" != "PAYMENT_RECEIVED" by { assert "PAYMENT_DONE"[8] != "PAYMENT_RECEIVED"[8]; }
  }

  /** A transaction row; `appointment` is the optional appointment id. */
  datatype Transaction = Transaction(amount: int, kind: TxType, reason: TxReason,
                                     appointment: Option<nat>, description: string)

  /** The effect of one transaction on the balance. */
  function Signed(t: Transaction): int {
    if t.kind == CREDIT then t.amount else -t.amount
  }

  /** Sum of the CREDIT amounts minus the sum of the DEBIT amounts. */
  function Net(txs: seq<Transaction>): int {
    if |txs| == 0 then 0 else Signed(txs[0]) + Net(txs[1..])
  }

  /** Whether some transaction carries the given reason and appointment. */
  predicate HasTx(txs: seq<Transaction>, reason: TxReason, appointment: nat) {
    exists i :: 0 <= i < |txs| && txs[i].reason == reason && txs[i].appointment == Some(appointment)
  }

  /** The first transaction (the newest, transactions being listed newest first)
      with the given reason and appointment: `filter(...).first()`. */
  function FirstTx(txs: seq<Transaction>, reason: TxReason, appointment: nat): (r: Option<nat>)
    ensures r.Some? <==> HasTx(txs, reason, appointment)
    ensures r.Some? ==> r.value < |txs| && txs[r.value].reason == reason
                        && txs[r.value].appointment == Some(appointment)
  {
    if |txs| == 0 then None
    else if txs[0].reason == reason && txs[0].appointment == Some(appointment) then Some(0)
    else
      match FirstTx(txs[1..], reason, appointment)
      case None =>
        assert forall i :: 1 <= i < |txs| ==> txs[i] == txs[1..][i - 1];
        None
      case Some(k) => Some(k + 1)
  }

  /** The state of one wallet: its balance and its transactions, newest first
      (the model orders transactions by `-created_at`). */
  datatype Ledger = Ledger(balance: int, transactions: seq<Transaction>)

  /** The ledger invariant: the balance is what the transactions add up to. */
  predicate Balanced(l: Ledger) { l.balance == Net(l.transactions) }

  datatype WalletError = InsufficientBalance

  /** `Wallet.credit`: the balance rises by the amount and one CREDIT row is added. */
  function CreditLedger(l: Ledger, amount: int, reason: TxReason, appointment: Option<nat>,
                        description: string): (r: Ledger)
    ensures r.balance - l.balance == amount
    ensures |r.transactions| == |l.transactions| + 1 && r.transactions[1..] == l.transactions
    ensures r.transactions[0] == Transaction(amount, CREDIT, reason, appointment, description)
  {
    Ledger(l.balance + amount,
           [Transaction(amount, CREDIT, reason, appointment, description)] + l.transactions)
  }

  /** `Wallet.debit`: refused when the balance is below the amount; otherwise the
      balance falls by the amount and one DEBIT row is added. */
  function DebitLedger(l: Ledger, amount: int, reason: TxReason, appointment: Option<nat>,
                       description: string): (r: Result<Ledger, WalletError>)
    ensures r.Err? <==> l.balance < amount
    ensures r.Ok? ==> l.balance - r.value.balance == amount && r.value.balance >= 0
    ensures r.Ok? ==> |r.value.transactions| == |l.transactions| + 1
                      && r.value.transactions[1..] == l.transactions
                      && r.value.transactions[0] == Transaction(amount, DEBIT, reason, appointment, description)
  {
    if l.balance < amount then Err(InsufficientBalance)
    else Ok(Ledger(l.balance - amount,
                   [Transaction(amount, DEBIT, reason, appointment, description)] + l.transactions))
  }

  /** Credit and debit keep the ledger invariant. */
  lemma LedgerOpsKeepBalanced(l: Ledger, amount: int, reason: TxReason, appointment: Option<nat>,
                              description: string)
    requires Balanced(l)
    ensures Balanced(CreditLedger(l, amount, reason, appointment, description))
    ensures DebitLedger(l, amount, reason, appointment, description).Ok? ==>
              Balanced(DebitLedger(l, amount, reason, appointment, description).value)
  {
    var c := CreditLedger(l, amount, reason, appointment, description);
    assert Net(c.transactions) == amount + Net(l.transactions) by {
      assert c.transactions[1..] == l.transactions;
    }
    var d := DebitLedger(l, amount, reason, appointment, description);
    if d.Ok? {
      assert d.value.transactions[1..] == l.transactions;
    }
  }

  /** A credit followed by a debit of the same amount restores the balance. */
  lemma CreditThenDebitRestores(l: Ledger, amount: int, reason: TxReason, appointment: Option<nat>,
                                description: string)
    requires l.balance >= 0
    ensures var c := CreditLedger(l, amount, reason, appointment, description);
      var d := DebitLedger(c, amount, reason, appointment, description);
      d.Ok? && d.value.balance == l.balance && |d.value.transactions| == |l.transactions| + 2
  {
  }

  /** A wallet; every user gets one. */
  class Wallet {
    const userId: nat
    var balance: int
    var transactions: seq<Transaction>

    function State(): Ledger reads this { Ledger(balance, transactions) }

    ghost predicate Valid() reads this { Balanced(State()) }

    constructor (userId: nat)
      ensures this.userId == userId && Valid()
      ensures balance == 0 && transactions == []
    {
      this.userId := userId;
      balance := 0;
      transactions := [];
    }

    /** `Wallet.credit` (core/payments/models.py). */
    method Credit(amount: int, reason: TxReason, appointment: Option<nat>, description: string)
      returns (t: Transaction)
      requires Valid()
      modifies this
      ensures Valid()
      ensures State() == CreditLedger(old(State()), amount, reason, appointment, description)
      ensures t == Transaction(amount, CREDIT, reason, appointment, description)
    {
      LedgerOpsKeepBalanced(State(), amount, reason, appointment, description);
      t := Transaction(amount, CREDIT, reason, appointment, description);
      balance := balance + amount;
      transactions := [t] + transactions;
    }

    /** `Wallet.debit`: raises "Insufficient balance" and changes nothing when the
        balance is below the amount. */
    method Debit(amount: int, reason: TxReason, appointment: Option<nat>, description: string)
      returns (r: Result<Transaction, WalletError>)
      requires Valid()
      modifies this
      ensures Valid()
      ensures r.Err? <==> old(balance) < amount
      ensures r.Err? ==> State() == old(State())
      ensures r.Ok? ==> Ok(State()) == DebitLedger(old(State()), amount, reason, appointment, description)
      ensures r.Ok? ==> r.value == Transaction(amount, DEBIT, reason, appointment, description)
    {
      LedgerOpsKeepBalanced(State(), amount, reason, appointment, description);
      if balance < amount {
        return Err(InsufficientBalance);
      }
      var t := Transaction(amount, DEBIT, reason, appointment, description);
      balance := balance - amount;
      transactions := [t] + transactions;
      r := Ok(t);
    }
  }

  // ---------------------------------------------------------------------------
  // Serializers

  /** `WalletSerializer.get_recent_transactions`: the first five rows, which are
      the five newest. */
  function RecentTransactions(txs: seq<Transaction>): (r: seq<Transaction>)
    ensures |r| <= 5
    ensures |r| == if |txs| < 5 then |txs| else 5
    ensures r == txs[..|r|]
  {
    if |txs| <= 5 then txs else txs[..5]
  }

  /** A decimal number as Python's `Decimal.as_tuple()` describes it: a sign, a
      coefficient (its decimal digits) and an exponent; the value is
      (-1)^negative * coefficient * 10^exponent. */
  datatype Dec = Dec(negative: bool, coefficient: nat, exponent: int)

  /** Length of the digit tuple of the coefficient (1 for zero). */
  function DigitCount(n: nat): (k: nat)
    ensures k >= 1
  {
    |NatToString(n)|
  }

  datatype AmountError = MaxDigits | MaxDecimalPlaces | MaxWholeDigits | BelowMinimum | NotPositive

  const MAX_DIGITS: nat := 10
  const DECIMAL_PLACES: nat := 2
  const MAX_WHOLE_DIGITS: nat := MAX_DIGITS - DECIMAL_PLACES

  /** Digits after the point, as `DecimalField.validate_precision` counts them. */
  function PlacesOf(d: Dec): nat {
    if d.exponent >= 0 then 0 else -d.exponent
  }

  /** Digits before the point, as `DecimalField.validate_precision` counts them. */
  function WholeDigitsOf(d: Dec): nat {
    var n := DigitCount(d.coefficient);
    if d.exponent >= 0 then n + d.exponent
    else if n > -d.exponent then n + d.exponent
    else 0
  }

  /** All digits, as `DecimalField.validate_precision` counts them. */
  function TotalDigitsOf(d: Dec): nat {
    var n := DigitCount(d.coefficient);
    if d.exponent >= 0 then n + d.exponent
    else if n > -d.exponent then n
    else -d.exponent
  }

  /** `validate_precision` of a `DecimalField(max_digits=10, decimal_places=2)`. */
  function PrecisionCheck(d: Dec): (r: Option<AmountError>)
    ensures r.None? ==> d.exponent >= -(DECIMAL_PLACES as int)
    ensures r.None? ==> DigitCount(d.coefficient) + d.exponent <= MAX_WHOLE_DIGITS
  {
    if TotalDigitsOf(d) > MAX_DIGITS then Some(MaxDigits)
    else if PlacesOf(d) > DECIMAL_PLACES then Some(MaxDecimalPlaces)
    else if WholeDigitsOf(d) > MAX_WHOLE_DIGITS then Some(MaxWholeDigits)
    else None
  }

  /** The value in paise of a decimal with at most two places. */
  function DecPaise(d: Dec): int
    requires d.exponent >= -2
  {
    var m := d.coefficient * Pow10(d.exponent + 2);
    if d.negative then -m else m
  }

  lemma MulStrict(a: nat, b: nat, c: nat)
    requires a < b && c > 0
    ensures a * c < b * c
  {
  }

  /** An amount accepted by the precision check is below 10^8 rupees. */
  lemma {:induction false} AcceptedBelowLimit(d: Dec)
    requires PrecisionCheck(d).None?
    ensures DecPaise(d) < Pow10(MAX_DIGITS)
  {
    NatBelowPow10(d.coefficient);
    var k: nat := d.exponent + 2;
    var m := d.coefficient * Pow10(k);
    ScaledBelow(d.coefficient, DigitCount(d.coefficient), k);
    assert DecPaise(d) == if d.negative then -m else m;
  }

  /** A number of `n` digits shifted left by `k` places, with `n + k` at most
      ten, stays below 10^10. */
  lemma ScaledBelow(c: nat, n: nat, k: nat)
    requires c < Pow10(n) && n + k <= MAX_DIGITS
    ensures 0 <= c * Pow10(k) < Pow10(MAX_DIGITS)
  {
    MulStrict(c, Pow10(n), Pow10(k));
    Pow10Add(n, k);
    assert c * Pow10(k) < Pow10(n + k);
    Pow10Monotone(n + k, MAX_DIGITS);
    MulNonneg(c, Pow10(k));
  }

  lemma MulNonneg(a: nat, b: nat)
    ensures 0 <= a * b
  {
  }

  /** The `amount` field of `TopUpSerializer` (and of `PaymentSerializer`, which
      declares the same field without `validate_amount`): the precision check,
      then `min_value=1`, then `validate_amount`. The result is in paise. */
  function ValidateAmount(d: Dec): (r: Result<int, AmountError>)
    ensures r.Ok? <==> PrecisionCheck(d).None? && DecPaise(d) >= 100
    ensures r.Ok? ==> 100 <= r.value < Pow10(MAX_DIGITS) && r.value == DecPaise(d)
    ensures r != Err(NotPositive)
  {
    match PrecisionCheck(d)
    case Some(e) => Err(e)
    case None =>
      var p := DecPaise(d);
      AcceptedBelowLimit(d);
      if p < 100 then Err(BelowMinimum)
      else if p <= 0 then Err(NotPositive)
      else Ok(p)
  }

  /** Every whole number of paise from 1.00 up to 99999999.99 rupees, written with
      two decimal places, is accepted as itself. */
  lemma {:induction false} ValidateAmountAcceptsTwoPlaces(p: nat)
    requires 100 <= p < Pow10(MAX_DIGITS)
    ensures ValidateAmount(Dec(false, p, -2)) == Ok(p)
  {
    DigitCountBounds(p);
    assert Pow10(0) == 1;
    assert DecPaise(Dec(false, p, -2)) == p;
  }

  /** An amount from 1.00 to 99999999.99 rupees has between 3 and 10 digits
      in paise. */
  lemma DigitCountBounds(p: nat)
    requires 100 <= p < Pow10(MAX_DIGITS)
    ensures 3 <= DigitCount(p) <= MAX_DIGITS
  {
    var n := DigitCount(p);
    if n > MAX_DIGITS {
      NatAtLeastPow10(p, n);
      Pow10Monotone(MAX_DIGITS, n - 1);
      assert false;
    }
    if n <= 2 {
      NatBelowPow10(p);
      assert false;
    }
  }

  /** A number written with k >= 2 digits is at least 10^(k-1). */
  lemma {:induction false} NatAtLeastPow10(n: nat, k: nat)
    requires k == DigitCount(n) && k >= 2
    ensures n >= Pow10(k - 1)
    decreases n
  {
    assert NatToString(n) == NatToString(n / 10) + [DigitChar(n % 10)];
    if k > 2 {
      NatAtLeastPow10(n / 10, k - 1);
    } else {
      assert |NatToString(n / 10)| == 1;
    }
  }
}

=== FILE: private_route.dfy ===
/** The route guard: a spinner while the session loads, the login page for
    visitors, the page itself for users with an allowed role, and otherwise
    the user's own dashboard. */
module PrivateRoute {
  import opened Wrappers
  import opened AuthContext

  datatype Route =
    | Spinner
    | ToLogin(from: string)    // `<Navigate to="/login" state={{ from: location }}>`
    | Children
    | Redirect(to: string)

  /** One entry of `allowedRoles` against the user's flags; an unknown role
      name grants nothing. */
  predicate RoleGrants(role: string, user: Option<ClientUser>) {
    if role == "patient" then IsPatient(user)
    else if role == "doctor" then IsDoctor(user)
    else if role == "provider" then IsProvider(user)
    else false
  }

  /** `allowedRoles.some(...)`. */
  function HasAccess(roles: seq<string>, user: Option<ClientUser>): (b: bool)
    ensures b <==> exists i :: 0 <= i < |roles| && RoleGrants(roles[i], user)
  {
    if |roles| == 0 then false
    else if RoleGrants(roles[0], user) then true
    else
      var rest := HasAccess(roles[1..], user);
      assert forall i :: 1 <= i < |roles| ==> roles[i] == roles[1..][i - 1];
      assert rest ==> exists i :: 0 <= i < |roles| && RoleGrants(roles[i], user) by {
        if rest {
          var i :| 0 <= i < |roles[1..]| && RoleGrants(roles[1..][i], user);
          assert RoleGrants(roles[i + 1], user);
        }
      }
      rest
  }

  /** The dashboard a user without access is sent to. */
  function Dashboard(user: Option<ClientUser>): (to: string)
    ensures to == "/patient" <==> IsPatient(user)
    ensures to == "/doctor" <==> !IsPatient(user) && IsDoctor(user)
    ensures to == "/provider" <==> !IsPatient(user) && !IsDoctor(user) && IsProvider(user)
    ensures to == "/" <==> !IsPatient(user) && !IsDoctor(user) && !IsProvider(user)
  {
    if IsPatient(user) then "/patient"
    else if IsDoctor(user) then "/doctor"
    else if IsProvider(user) then "/provider"
    else "/"
  }

  function Decide(loading: bool, user: Option<ClientUser>, allowedRoles: seq<string>, location: string): (r: Route)
    ensures r == Spinner <==> loading
    ensures r.ToLogin? <==> !loading && !IsAuthenticated(user)
    ensures r.ToLogin? ==> r.from == location
    ensures r == Children <==> !loading && IsAuthenticated(user) && (|allowedRoles| == 0 || HasAccess(allowedRoles, user))
    ensures r.Redirect? ==> r.to == Dashboard(user)
  {
    if loading then Spinner
    else if !IsAuthenticated(user) then ToLogin(location)
    else if |allowedRoles| > 0 && !HasAccess(allowedRoles, user) then Redirect(Dashboard(user))
    else Children
  }

  /** A list of nothing but unknown role names admits nobody. */
  lemma UnknownRolesAdmitNobody(user: Option<ClientUser>, roles: seq<string>, location: string)
    requires IsAuthenticated(user) && |roles| > 0
    requires forall i :: 0 <= i < |roles| ==> roles[i] != "patient" && roles[i] != "doctor" && roles[i] != "provider"
    ensures Decide(false, user, roles, location) == Redirect(Dashboard(user))
  {
  }

  /** The dashboard a refused user is sent to admits that user when it is
      guarded by its own role, so a refusal never leads to a second refusal. */
  lemma DashboardAdmits(user: Option<ClientUser>, roles: seq<string>, location: string)
    requires Decide(false, user, roles, location).Redirect?
    requires Dashboard(user) != "/"
    ensures var role := Dashboard(user)[1..];
            Decide(false, user, [role], location) == Children
  {
    var role := Dashboard(user)[1..];
    if IsPatient(user) {
      assert role == "patient";
    } else if IsDoctor(user) {
      assert role == "doctor";
    } else {
      assert role == "provider";
    }
    assert RoleGrants([role][0], user);
  }
}

=== FILE: profile_page.dfy ===
/** The shared profile page: the form built from the fetched profile, field
    edits, the split of the form into the update body, the password-change
    and add-doctor checks, and the message after saving. */
module ProfilePage {
  import opened Wrappers
  import opened ClientValues

  /** The keys that belong to the user rather than to the role profile. */
  const USER_FIELDS: set<string> := {"first_name", "last_name", "phone_number"}

  /** `{first_name: x || '', last_name: .., phone_number: .., ...profile}`:
      the user fields default to the empty string and the profile's own keys,
      spread last, override them. */
  function InitialForm(firstName: JsValue, lastName: JsValue, phoneNumber: JsValue,
                       profile: Option<map<string, JsValue>>): (form: map<string, JsValue>)
    ensures form.Keys == USER_FIELDS + (if profile.Some? then profile.value.Keys else {})
    ensures profile.Some? ==> forall k :: k in profile.value ==> form[k] == profile.value[k]
    ensures (profile.None? || "first_name" !in profile.value) ==> form["first_name"] == Or(firstName, Str(""))
    ensures (profile.None? || "last_name" !in profile.value) ==> form["last_name"] == Or(lastName, Str(""))
    ensures (profile.None? || "phone_number" !in profile.value) ==> form["phone_number"] == Or(phoneNumber, Str(""))
  {
    var base := map["first_name" := Or(firstName, Str("")), "last_name" := Or(lastName, Str("")),
                    "phone_number" := Or(phoneNumber, Str(""))];
    if profile.Some? then base + profile.value else base
  }

  /** `handleChange(field, value)`: only the named field changes. */
  function Change(form: map<string, JsValue>, field: string, value: JsValue): (r: map<string, JsValue>)
    ensures r.Keys == form.Keys + {field} && r[field] == value
    ensures forall k :: k in form && k != field ==> r[k] == form[k]
  {
    form[field := value]
  }

  /** The loop of `handleSave`: every form key goes to the user part when it
      is a user field and to the profile part otherwise. */
  method SplitForSave(form: map<string, JsValue>) returns (userData: map<string, JsValue>, profileData: map<string, JsValue>)
    ensures forall k :: k in userData <==> k in form && k in USER_FIELDS
    ensures forall k :: k in profileData <==> k in form && k !in USER_FIELDS
    ensures forall k :: k in userData ==> userData[k] == form[k]
    ensures forall k :: k in profileData ==> profileData[k] == form[k]
  {
    userData, profileData := map[], map[];
    var todo := form.Keys;
    while todo != {}
      invariant todo <= form.Keys
      invariant forall k :: k in userData <==> k in form && k !in todo && k in USER_FIELDS
      invariant forall k :: k in profileData <==> k in form && k !in todo && k !in USER_FIELDS
      invariant forall k :: k in userData ==> userData[k] == form[k]
      invariant forall k :: k in profileData ==> profileData[k] == form[k]
      decreases |todo|
    {
      var k :| k in todo;
      if k in USER_FIELDS {
        userData := userData[k := form[k]];
      } else {
        profileData := profileData[k := form[k]];
      }
      todo := todo - {k};
    }
  }

  /** The split is a partition: each key lands in exactly one part, with its
      value, and the two parts together are the form. */
  lemma SplitIsPartition(form: map<string, JsValue>, userData: map<string, JsValue>, profileData: map<string, JsValue>)
    requires forall k :: k in userData <==> k in form && k in USER_FIELDS
    requires forall k :: k in profileData <==> k in form && k !in USER_FIELDS
    requires forall k :: k in userData ==> userData[k] == form[k]
    requires forall k :: k in profileData ==> profileData[k] == form[k]
    ensures userData.Keys !! profileData.Keys && userData + profileData == form
  {
    assert (userData + profileData).Keys == form.Keys;
  }

  const PASSWORDS_DIFFER := "New passwords don't match"
  const PASSWORD_TOO_SHORT := "Password must be at least 8 characters"

  /** `handlePasswordChange`'s checks, in order; `None` means the change is sent. */
  function PasswordChangeError(newPassword: string, confirm: string): (e: Option<string>)
    ensures e == Some(PASSWORDS_DIFFER) <==> newPassword != confirm
    ensures e == Some(PASSWORD_TOO_SHORT) <==> newPassword == confirm && |newPassword| < 8
    ensures e.None? <==> newPassword == confirm && |newPassword| >= 8
  {
    if newPassword != confirm then Some(PASSWORDS_DIFFER)
    else if |newPassword| < 8 then Some(PASSWORD_TOO_SHORT)
    else None
  }

  const DOCTOR_ID_MISSING := "Please provide HPR ID or email"

  /** `handleAddDoctor`'s guard: an HPR id or an email must be given. */
  function AddDoctorError(hprId: string, email: string): (e: Option<string>)
    ensures e.None? <==> hprId != "" || email != ""
    ensures e.Some? ==> e.value == DOCTOR_ID_MISSING
  {
    if hprId == "" && email == "" then Some(DOCTOR_ID_MISSING) else None
  }

  const SAVED := "Profile updated successfully!"
  const SAVED_QR_REGENERATED := "Profile updated successfully! Your QR code has been regenerated."
  const SAVED_QR_PENDING := "Profile updated successfully! (QR code update pending)"
  const SAVE_FAILED := "Failed to save profile"

  /** The messages after `handleSave`, and whether the QR data was
      requested. `qr` is the answer to that request, read only when it is made. */
  datatype SaveOutcome = SaveOutcome(success: Option<string>, error: Option<string>, qrRequested: bool)

  function AfterSave(profileType: Option<string>, update: Result<(), ApiError>, qr: Result<(), ApiError>): (r: SaveOutcome)
    ensures r.qrRequested <==> update.Ok? && profileType == Some("PATIENT")
    ensures update.Err? ==> r.success.None? && r.error == Some(TextOr(update.error.error, SAVE_FAILED))
    ensures update.Ok? ==> r.error.None? && r.success.Some?
    ensures update.Ok? && profileType != Some("PATIENT") ==> r.success == Some(SAVED)
    ensures r.qrRequested && qr.Err? ==> r.success == Some(SAVED_QR_PENDING)
    ensures r.qrRequested && qr.Ok? ==> r.success == Some(SAVED_QR_REGENERATED)
  {
    if update.Err? then SaveOutcome(None, Some(TextOr(update.error.error, SAVE_FAILED)), false)
    else if profileType == Some("PATIENT") then
      SaveOutcome(Some(if qr.Ok? then SAVED_QR_REGENERATED else SAVED_QR_PENDING), None, true)
    else SaveOutcome(Some(SAVED), None, false)
  }

  /** The body of the update request: the user fields at the top level and
      everything else under `profile`. */
  datatype UpdateBody = UpdateBody(user: map<string, JsValue>, profile: map<string, JsValue>)

  /** The body `handleSave` sends: each form key is in exactly one of the
      two parts, user fields at the top level, with its value unchanged. */
  method SaveBody(form: map<string, JsValue>) returns (b: UpdateBody)
    ensures b.user.Keys <= USER_FIELDS && b.profile.Keys !! USER_FIELDS
    ensures b.user.Keys !! b.profile.Keys && b.user + b.profile == form
  {
    var userData, profileData := SplitForSave(form);
    SplitIsPartition(form, userData, profileData);
    b := UpdateBody(userData, profileData);
  }

  /** Saving right after loading sends back every profile key under
      `profile`, except a profile key named like a user field, which is sent
      at the top level. */
  lemma LoadThenSaveKeepsProfileKeys(firstName: JsValue, lastName: JsValue, phoneNumber: JsValue,
                                     profile: map<string, JsValue>, k: string)
    requires k in profile && k !in USER_FIELDS
    ensures var form := InitialForm(firstName, lastName, phoneNumber, Some(profile));
            k in form && k !in USER_FIELDS && form[k] == profile[k]
  {
  }
}

=== FILE: queue.dfy ===
/** The doctor's queue for a day and the patient's wait-time estimate. */
module AppointmentQueue {
  import opened Wrappers
  import opened Users
  import opened Appointments
  import opened Sorting
  import opened Seqs
  import opened AppointmentViews

  /** A row of a doctor's queue for a day: that doctor, that day, still open. */
  predicate InQueue(a: Appointment, doctor: nat, day: int) {
    a.doctor == doctor && Day(a.scheduledTime) == day && (a.status == SCHEDULED || a.status == IN_PROGRESS)
  }

  /** `DoctorQueueView.get`: the doctor's open appointments of the day, by time. */
  function DoctorQueue(appts: seq<Appointment>, doctor: nat, day: int): (q: seq<Appointment>)
    ensures SortedBy(q, TimeKey)
    ensures forall i :: 0 <= i < |q| ==> InQueue(q[i], doctor, day) && q[i] in appts
    ensures forall i :: 0 <= i < |appts| && InQueue(appts[i], doctor, day) ==> appts[i] in q
    ensures multiset(q) == multiset(Filter(appts, x => InQueue(x, doctor, day)))
  {
    var rows := Filter(appts, x => InQueue(x, doctor, day));
    SortByMembers(rows, TimeKey);
    SortBy(rows, TimeKey)
  }

  // ---------------------------------------------------------------------------
  // Wait time

  /** A completed consultation of `doctor` with both times recorded. */
  predicate Finished(a: Appointment, doctor: nat) {
    a.doctor == doctor && a.status == Status.COMPLETED && a.actualStartTime.Some? && a.actualEndTime.Some?
  }

  /** Sorting by this key puts the latest end time first. */
  function LatestEndFirst(a: Appointment): int {
    if a.actualEndTime.Some? then -a.actualEndTime.value else 0
  }

  const HISTORY: nat := 10

  /** The doctor's finished consultations, in table order. */
  function FinishedOf(appts: seq<Appointment>, doctor: nat): seq<Appointment> {
    Filter(appts, x => Finished(x, doctor))
  }

  /** The doctor's ten most recently finished consultations: each finished row
      at most as often as it is stored, all of them when there are fewer than
      ten, latest end first, and none left out that ended later than the last
      one kept. */
  function RecentCompleted(appts: seq<Appointment>, doctor: nat): (r: seq<Appointment>)
    ensures |r| <= HISTORY
    ensures forall i :: 0 <= i < |r| ==> Finished(r[i], doctor) && r[i] in appts
    ensures SortedBy(r, LatestEndFirst)
    ensures |r| == if |FinishedOf(appts, doctor)| < HISTORY then |FinishedOf(appts, doctor)| else HISTORY
    ensures multiset(r) <= multiset(FinishedOf(appts, doctor))
    ensures |r| > 0 ==> forall x :: x in multiset(FinishedOf(appts, doctor)) - multiset(r) ==>
                                      LatestEndFirst(r[|r| - 1]) <= LatestEndFirst(x)
  {
    var recent := TakeLeast(FinishedOf(appts, doctor), HISTORY, LatestEndFirst);
    DrawnFromFinished(appts, doctor, recent);
    recent
  }

  /** Rows drawn from the doctor's finished consultations are finished rows of
      the table. */
  lemma DrawnFromFinished(appts: seq<Appointment>, doctor: nat, r: seq<Appointment>)
    requires multiset(r) <= multiset(FinishedOf(appts, doctor))
    ensures forall i :: 0 <= i < |r| ==> Finished(r[i], doctor) && r[i] in appts
  {
    var f := FinishedOf(appts, doctor);
    forall i | 0 <= i < |r| ensures Finished(r[i], doctor) && r[i] in appts {
      assert r[i] in multiset(f);
      assert r[i] in f;
    }
  }

  /** The total length of the consultations, in seconds. */
  function TotalDuration(s: seq<Appointment>): int {
    if |s| == 0 then 0
    else
      (if s[0].actualStartTime.Some? && s[0].actualEndTime.Some?
       then s[0].actualEndTime.value - s[0].actualStartTime.value else 0)
      + TotalDuration(s[1..])
  }

  /** The average consultation length: the mean of the recent durations, never
      below 15 minutes, and 15 minutes with no history. */
  function AverageDuration(recent: seq<Appointment>): (avg: int)
    ensures avg >= FIFTEEN_MINUTES
    ensures |recent| == 0 ==> avg == FIFTEEN_MINUTES
    ensures |recent| > 0 && avg > FIFTEEN_MINUTES ==>
              avg * |recent| <= TotalDuration(recent) < (avg + 1) * |recent|
    ensures |recent| > 0 && TotalDuration(recent) >= FIFTEEN_MINUTES * |recent| ==>
              avg * |recent| <= TotalDuration(recent) < (avg + 1) * |recent|
  {
    if |recent| == 0 then FIFTEEN_MINUTES
    else
      var mean := TotalDuration(recent) / |recent|;
      if mean < FIFTEEN_MINUTES then FIFTEEN_MINUTES else mean
  }

  /** Ahead of `a` in its doctor's day: scheduled strictly earlier that day and
      still open. The row of `a` itself never qualifies, so the view's
      exclusion of `a`'s id changes nothing. */
  predicate AheadOf(b: Appointment, a: Appointment, open: Status -> bool) {
    b.doctor == a.doctor && Day(b.scheduledTime) == Day(a.scheduledTime)
    && b.scheduledTime < a.scheduledTime && open(b.status)
  }

  function IsOpen(s: Status): bool { s == SCHEDULED || s == IN_PROGRESS }
  function IsScheduled(s: Status): bool { s == SCHEDULED }

  /** The number of appointments ahead of `a`. */
  function CountAhead(appts: seq<Appointment>, a: Appointment, open: Status -> bool): nat {
    |Filter(appts, x => AheadOf(x, a, open))|
  }

  /** The doctor's consultation in progress with the earliest scheduled time. */
  function RunningConsultation(appts: seq<Appointment>, doctor: nat): Option<Appointment> {
    var running := SortBy(Filter(appts, (x: Appointment) => x.doctor == doctor && x.status == IN_PROGRESS), TimeKey);
    if |running| == 0 then None else Some(running[0])
  }

  /** A candidate for the start of `a`'s doctor's day: same doctor, same day, SCHEDULED. */
  predicate SameDayScheduled(x: Appointment, a: Appointment) {
    x.doctor == a.doctor && Day(x.scheduledTime) == Day(a.scheduledTime) && x.status == SCHEDULED
  }

  /** The doctor's earliest SCHEDULED appointment on `a`'s day. */
  function EarliestScheduled(appts: seq<Appointment>, a: Appointment): (r: Option<Appointment>)
    ensures r.Some? ==> r.value in appts && SameDayScheduled(r.value, a)
    ensures r.Some? ==> forall i :: 0 <= i < |appts| && SameDayScheduled(appts[i], a) ==>
                          r.value.scheduledTime <= appts[i].scheduledTime
    ensures r.None? ==> forall i :: 0 <= i < |appts| ==> !SameDayScheduled(appts[i], a)
  {
    var rows := Filter(appts, (x: Appointment) => SameDayScheduled(x, a));
    var sorted := SortBy(rows, TimeKey);
    SortByMembers(rows, TimeKey);
    if |sorted| == 0 then None
    else
      SortByFirstIsLeast(rows, TimeKey);
      assert forall i :: 0 <= i < |appts| && SameDayScheduled(appts[i], a) ==>
               exists k :: 0 <= k < |rows| && rows[k] == appts[i];
      Some(sorted[0])
  }

  /** A SCHEDULED appointment is itself a candidate, so the earliest one exists
      and is no later: the view's "no other appointments" branch never runs. */
  lemma EarliestExists(appts: seq<Appointment>, id: nat)
    requires id < |appts| && appts[id].status == SCHEDULED
    ensures EarliestScheduled(appts, appts[id]).Some?
    ensures EarliestScheduled(appts, appts[id]).value.scheduledTime <= appts[id].scheduledTime
  {
    assert SameDayScheduled(appts[id], appts[id]);
  }

  datatype WaitError = WaitNotFound | NotYourAppointment | AlreadyFinished

  datatype WaitInfo =
    | InConsultation
    | Waiting(position: nat, ahead: nat, avgSeconds: int, waitSeconds: int,
              predictedStart: int, delaySeconds: int)

  /** The start time the queue predicts, before clamping to the scheduled
      time. `running` is the doctor's consultation in progress, `earliest` the
      day's earliest SCHEDULED appointment, `aheadOpen` and `aheadScheduled`
      the counts of open and of SCHEDULED appointments ahead of `a`. */
  function PredictedStart(running: Option<Appointment>, earliest: Option<Appointment>,
                          aheadOpen: nat, aheadScheduled: nat, a: Appointment, avg: int, now: int): (p: int)
    ensures avg >= 0 && running.Some? && running.value.actualStartTime.Some? ==> p >= now
    ensures avg >= 0 && !(running.Some? && running.value.actualStartTime.Some?) && earliest.Some? ==>
              p >= now && p >= earliest.value.scheduledTime
  {
    if running.Some? && running.value.actualStartTime.Some? then
      var elapsed := now - running.value.actualStartTime.value;
      var remaining := if avg - elapsed > 0 then avg - elapsed else 0;
      now + remaining + aheadOpen * avg
    else
      match earliest
      case Some(e) =>
        var base := if now > e.scheduledTime then now else e.scheduledTime;
        base + aheadScheduled * avg
      case None => a.scheduledTime
  }

  /** The queue's prediction for `a` from the state of the table. */
  function QueuePrediction(appts: seq<Appointment>, a: Appointment, avg: int, now: int): int {
    PredictedStart(RunningConsultation(appts, a.doctor), EarliestScheduled(appts, a),
                   CountAhead(appts, a, IsOpen), CountAhead(appts, a, IsScheduled), a, avg, now)
  }

  /** `WaitTimeView.get`. */
  function WaitTime(appts: seq<Appointment>, patients: seq<PatientProfile>, id: nat, user: User, now: int)
    : (r: Result<WaitInfo, WaitError>)
    requires id < |appts| ==> appts[id].patient < |patients|
    ensures r == Err(WaitNotFound) <==> id >= |appts|
    ensures id < |appts| ==>
      var a := appts[id];
      var mine := !IsPatient(user) || patients[a.patient].userId == user.id;
      (r == Err(NotYourAppointment) <==> !mine) &&
      (r == Err(AlreadyFinished) <==> mine && (a.status == Status.COMPLETED || a.status == CANCELLED)) &&
      (r == Ok(InConsultation) <==> mine && a.status == IN_PROGRESS) &&
      (r.Ok? && r.value.Waiting? <==> mine && a.status == SCHEDULED)
    ensures r.Ok? && r.value.Waiting? ==>
      var w := r.value;
      var a := appts[id];
      w.position == w.ahead + 1 && w.ahead == CountAhead(appts, a, IsOpen) &&
      w.avgSeconds == AverageDuration(RecentCompleted(appts, a.doctor)) && w.avgSeconds >= FIFTEEN_MINUTES &&
      w.delaySeconds >= 0 && w.waitSeconds == w.delaySeconds &&
      w.predictedStart == a.scheduledTime + w.delaySeconds &&
      (var p := QueuePrediction(appts, a, w.avgSeconds, now);
       w.predictedStart == if p <= a.scheduledTime then a.scheduledTime else p)
  {
    if id >= |appts| then Err(WaitNotFound)
    else
      var a := appts[id];
      if IsPatient(user) && patients[a.patient].userId != user.id then Err(NotYourAppointment)
      else if a.status == Status.COMPLETED || a.status == CANCELLED then Err(AlreadyFinished)
      else if a.status == IN_PROGRESS then Ok(InConsultation)
      else
        var avg := AverageDuration(RecentCompleted(appts, a.doctor));
        var ahead := CountAhead(appts, a, IsOpen);
        var predicted := QueuePrediction(appts, a, avg, now);
        if predicted <= a.scheduledTime then Ok(Waiting(ahead + 1, ahead, avg, 0, a.scheduledTime, 0))
        else
          var delay := predicted - a.scheduledTime;
          Ok(Waiting(ahead + 1, ahead, avg, delay, predicted, delay))
  }

  /** With no consultation running and nobody SCHEDULED earlier that day, the
      queue predicts the appointment's own time whenever that time has not passed. */
  lemma FirstOfDayPredicted(appts: seq<Appointment>, id: nat, avg: int, now: int)
    requires id < |appts| && appts[id].status == SCHEDULED && now <= appts[id].scheduledTime
    requires RunningConsultation(appts, appts[id].doctor).None?
    requires CountAhead(appts, appts[id], IsScheduled) == 0
    ensures QueuePrediction(appts, appts[id], avg, now) == appts[id].scheduledTime
  {
    var a := appts[id];
    EarliestExists(appts, id);
    var e := EarliestScheduled(appts, a).value;
    var k :| 0 <= k < |appts| && appts[k] == e;
    NoneAheadNotEarlier(appts, a, k);
    assert e.scheduledTime == a.scheduledTime;
    assert QueuePrediction(appts, a, avg, now) ==
           PredictedStart(None, Some(e), CountAhead(appts, a, IsOpen), 0, a, avg, now);
  }

  /** With nobody SCHEDULED ahead, no candidate of the day is earlier. */
  lemma NoneAheadNotEarlier(appts: seq<Appointment>, a: Appointment, k: nat)
    requires CountAhead(appts, a, IsScheduled) == 0
    requires k < |appts| && SameDayScheduled(appts[k], a)
    ensures appts[k].scheduledTime >= a.scheduledTime
  {
    assert !AheadOf(appts[k], a, IsScheduled);
  }

  /** With no consultation running, the day's first SCHEDULED appointment waits
      nothing as long as its time has not passed. */
  lemma FirstOfDayOnTime(appts: seq<Appointment>, patients: seq<PatientProfile>, id: nat, user: User, now: int)
    requires id < |appts| && appts[id].patient < |patients|
    requires appts[id].status == SCHEDULED && now <= appts[id].scheduledTime
    requires RunningConsultation(appts, appts[id].doctor).None?
    requires CountAhead(appts, appts[id], IsScheduled) == 0
    requires !IsPatient(user) || patients[appts[id].patient].userId == user.id
    ensures WaitTime(appts, patients, id, user, now).Ok?
    ensures WaitTime(appts, patients, id, user, now).value.delaySeconds == 0
  {
    FirstOfDayPredicted(appts, id, AverageDuration(RecentCompleted(appts, appts[id].doctor)), now);
  }
}

=== FILE: registry.dfy ===
/** The mock UHI registry server: ABHA ids for patients, HPR ids for health
    professionals and HFR ids for facilities. Each registration validates its
    body, then inserts a record unless the aadhaar number is already on file.
    The random parts of a record (the fake name, the date of birth, the
    address suffix, the uuid) are inputs. */
module Registry {
  import opened Wrappers
  import opened Text

  datatype AbhaRecord = AbhaRecord(abhaAddress: string, firstName: string, lastName: string,
                                   gender: string, dob: int, mobile: string, aadhaar: string)

  datatype HprRecord = HprRecord(hprId: string, firstName: string, lastName: string, gender: string,
                                 specialization: string, aadhaar: string, mobile: string)

  datatype HfrRecord = HfrRecord(hfrId: string, name: string, kind: string, address: string)

  /** The output of `create_fake_name`: a gender of "M" or "F" and a name. */
  datatype FakeName = FakeName(gender: string, firstName: string, lastName: string)

  predicate ValidFakeName(f: FakeName) { f.gender == "M" || f.gender == "F" }

  datatype RegistryError =
    | Invalid         // 400: the body fails its serializer
    | AadhaarTaken    // 400: a record with this aadhaar already exists
    | KeyTaken        // an insert hits a unique column (IntegrityError)

  // ---------------------------------------------------------------------------
  // Input serializers

  /** A required `CharField`: present, not blank once trimmed, and within
      `maxLength` when there is one. */
  predicate TextField(body: map<string, string>, name: string, maxLength: Option<nat>) {
    name in body && |Trim(body[name])| > 0 && (maxLength.None? || |Trim(body[name])| <= maxLength.value)
  }

  /** `CreateAbhaSerializer`: `mobile` (at most 10) and `aadhaar` (at most 12). */
  function ValidateAbha(body: map<string, string>): (r: Option<map<string, string>>)
    ensures r.Some? <==> TextField(body, "mobile", Some(10)) && TextField(body, "aadhaar", Some(12))
    ensures r.Some? ==> r.value.Keys == {"mobile", "aadhaar"} &&
                        r.value["mobile"] == Trim(body["mobile"]) && r.value["aadhaar"] == Trim(body["aadhaar"])
  {
    if TextField(body, "mobile", Some(10)) && TextField(body, "aadhaar", Some(12)) then
      Some(map["mobile" := Trim(body["mobile"]), "aadhaar" := Trim(body["aadhaar"])])
    else None
  }

  /** `CreateHPRSerializer`: `aadhar` (spelled so, at most 12), `mobile` (at
      most 10) and `specialization` (at most 100). */
  function ValidateHpr(body: map<string, string>): (r: Option<map<string, string>>)
    ensures r.Some? <==> TextField(body, "aadhar", Some(12)) && TextField(body, "mobile", Some(10)) &&
                         TextField(body, "specialization", Some(100))
    ensures r.Some? ==> r.value.Keys == {"aadhar", "mobile", "specialization"} &&
                        r.value["aadhar"] == Trim(body["aadhar"]) && r.value["mobile"] == Trim(body["mobile"]) &&
                        r.value["specialization"] == Trim(body["specialization"])
  {
    if TextField(body, "aadhar", Some(12)) && TextField(body, "mobile", Some(10)) &&
       TextField(body, "specialization", Some(100)) then
      Some(map["aadhar" := Trim(body["aadhar"]), "mobile" := Trim(body["mobile"]),
               "specialization" := Trim(body["specialization"])])
    else None
  }

  /** The facility types a `ChoiceField` accepts, compared without trimming. */
  predicate IsFacilityType(s: string) { s == "HOSPITAL" || s == "LAB" || s == "PHARMACY" }

  /** `CreateHFRSerializer`: `name` (at most 255), `type` (a facility type)
      and `address` (no limit). */
  function ValidateHfr(body: map<string, string>): (r: Option<map<string, string>>)
    ensures r.Some? <==> TextField(body, "name", Some(255)) && "type" in body && IsFacilityType(body["type"]) &&
                         TextField(body, "address", None)
    ensures r.Some? ==> r.value.Keys == {"name", "type", "address"} && IsFacilityType(r.value["type"]) &&
                        r.value["name"] == Trim(body["name"]) && r.value["address"] == Trim(body["address"])
  {
    if TextField(body, "name", Some(255)) && "type" in body && IsFacilityType(body["type"]) &&
       TextField(body, "address", None) then
      Some(map["name" := Trim(body["name"]), "type" := body["type"], "address" := Trim(body["address"])])
    else None
  }

  /** The HPR view reads `aadhaar`, a key its serializer never produces: the
      read can only succeed on a body that failed validation. */
  lemma HprReadsUndeclaredKey(body: map<string, string>)
    ensures ValidateHpr(body).Some? ==> "aadhaar" !in ValidateHpr(body).value
  {
  }

  // ---------------------------------------------------------------------------
  // Generated identifiers

  /** `f"{first_name}_{last_name}.{suffix}@uhi"`. */
  function AbhaAddress(firstName: string, lastName: string, suffix: int): (a: string)
    requires 1000 <= suffix <= 9999
    ensures IsPrefix(firstName + "_" + lastName + ".", a) && IsSuffix("@uhi", a)
    ensures |a| == |firstName| + |lastName| + 10
    ensures var k := |firstName| + |lastName| + 2;
            AllDigits(a[k..k + 4]) && ParseNat(a[k..k + 4]) == Some(suffix)
  {
    NatToStringFourDigits(suffix);
    NatToStringRoundTrip(suffix);
    var head := firstName + "_" + lastName + ".";
    var a := head + NatToString(suffix) + "@uhi";
    assert a[..|head|] == head;
    assert a[|head|..|head| + 4] == NatToString(suffix);
    a
  }

  /** `"HPR-" + str(uuid4())`. */
  function HprId(uuid: string): (id: string)
    ensures IsPrefix("HPR-", id) && id[4..] == uuid
  {
    "HPR-" + uuid
  }

  /** `f"IN-{str(uuid4())[:8].upper()}"`: at most eight characters of the
      uuid, upper-cased. */
  function HfrId(uuid: string): (id: string)
    ensures IsPrefix("IN-", id)
    ensures |id| == 3 + (if |uuid| < 8 then |uuid| else 8)
    ensures forall i :: 3 <= i < |id| ==> !('a' <= id[i] <= 'z')
    ensures forall i :: 3 <= i < |id| ==> id[i] == UpperChar(uuid[i - 3])
  {
    var n := if |uuid| < 8 then |uuid| else 8;
    var u := Upper(uuid[..n]);
    assert ("IN-" + u)[..3] == "IN-";
    "IN-" + u
  }

  // ---------------------------------------------------------------------------
  // The registry

  /** No two records share the key `key`. */
  ghost predicate KeyUnique<T>(rs: seq<T>, key: T -> string) {
    forall i, j :: 0 <= i < j < |rs| ==> key(rs[i]) != key(rs[j])
  }

  /** The first record whose `key` is `k`. */
  function FindBy<T>(rs: seq<T>, key: T -> string, k: string): (r: Option<nat>)
    ensures r.Some? ==> r.value < |rs| && key(rs[r.value]) == k
    ensures r.None? ==> forall i :: 0 <= i < |rs| ==> key(rs[i]) != k
  {
    if |rs| == 0 then None
    else if key(rs[0]) == k then Some(0)
    else
      match FindBy(rs[1..], key, k)
      case None =>
        assert forall i :: 1 <= i < |rs| ==> rs[i] == rs[1..][i - 1];
        None
      case Some(i) => Some(i + 1)
  }

  function AbhaAadhaar(r: AbhaRecord): string { r.aadhaar }
  function AbhaAddressOf(r: AbhaRecord): string { r.abhaAddress }
  function HprAadhaar(r: HprRecord): string { r.aadhaar }
  function HprIdOf(r: HprRecord): string { r.hprId }
  function HfrIdOf(r: HfrRecord): string { r.hfrId }

  /** Appending a record whose key is new keeps the keys unique. */
  lemma AppendKeepsUnique<T>(rs: seq<T>, key: T -> string, x: T)
    requires KeyUnique(rs, key) && FindBy(rs, key, key(x)).None?
    ensures KeyUnique(rs + [x], key)
    ensures FindBy(rs + [x], key, key(x)) == Some(|rs|)
  {
    FindLast(rs, key, x);
  }

  lemma {:induction false} FindLast<T>(rs: seq<T>, key: T -> string, x: T)
    requires FindBy(rs, key, key(x)).None?
    ensures FindBy(rs + [x], key, key(x)) == Some(|rs|)
  {
    if |rs| > 0 {
      assert (rs + [x])[1..] == rs[1..] + [x];
      FindLast(rs[1..], key, x);
    }
  }

  /** A new ABHA record whose aadhaar number and address are both unused
      keeps both keys unique. */
  lemma AbhaAppendKeepsUnique(rs: seq<AbhaRecord>, rec: AbhaRecord)
    requires KeyUnique(rs, AbhaAadhaar) && KeyUnique(rs, AbhaAddressOf)
    requires FindBy(rs, AbhaAadhaar, rec.aadhaar).None? && FindBy(rs, AbhaAddressOf, rec.abhaAddress).None?
    ensures KeyUnique(rs + [rec], AbhaAadhaar) && KeyUnique(rs + [rec], AbhaAddressOf)
  {
    AppendKeepsUnique(rs, AbhaAadhaar, rec);
    AppendKeepsUnique(rs, AbhaAddressOf, rec);
  }

  class MockRegistry {
    var abha: seq<AbhaRecord>
    var hpr: seq<HprRecord>
    var hfr: seq<HfrRecord>

    /** One ABHA record per aadhaar (kept by `get_or_create`) and per address,
        one HPR record per aadhaar and per id, one HFR record per id. */
    ghost predicate Valid()
      reads this
    {
      KeyUnique(abha, AbhaAadhaar) && KeyUnique(abha, AbhaAddressOf) &&
      KeyUnique(hpr, HprAadhaar) && KeyUnique(hpr, HprIdOf) && KeyUnique(hfr, HfrIdOf)
    }

    constructor ()
      ensures Valid() && abha == [] && hpr == [] && hfr == []
    {
      abha, hpr, hfr := [], [], [];
    }

    /** `CreateAbhaView.post`. */
    method CreateAbha(body: map<string, string>, name: FakeName, dob: int, suffix: int)
      returns (r: Result<AbhaRecord, RegistryError>)
      requires Valid() && ValidFakeName(name) && 1000 <= suffix <= 9999
      modifies this`abha
      ensures Valid()
      ensures r == NewAbha(old(abha), body, name, dob, suffix)
      ensures abha == if r.Ok? then old(abha) + [r.value] else old(abha)
    {
      r := NewAbha(abha, body, name, dob, suffix);
      if r.Ok? {
        AbhaAppendKeepsUnique(abha, r.value);
        abha := abha + [r.value];
      }
    }

    /** `CreateHPRView.post` as written: line 78 reads `validated_data['aadhaar']`,
        which exists only if validation produced that key. Validation never
        does, so every body this precondition admits fails validation. */
    method CreateHprAsWritten(body: map<string, string>)
      returns (r: Result<HprRecord, RegistryError>)
      requires ValidateHpr(body).Some? ==> "aadhaar" in ValidateHpr(body).value
      ensures r == Err(Invalid)
    {
      var v := ValidateHpr(body);
      if v.None? {
        return Err(Invalid);
      }
      assert false;
    }

    /** `CreateHPRView.post` reading the aadhaar number under the key its
        serializer declares. */
    method CreateHpr(body: map<string, string>, name: FakeName, uuid: string)
      returns (r: Result<HprRecord, RegistryError>)
      requires Valid() && ValidFakeName(name)
      modifies this`hpr
      ensures Valid()
      ensures r == NewHpr(old(hpr), body, name, uuid)
      ensures hpr == if r.Ok? then old(hpr) + [r.value] else old(hpr)
    {
      r := NewHpr(hpr, body, name, uuid);
      if r.Ok? {
        AppendKeepsUnique(hpr, HprAadhaar, r.value);
        AppendKeepsUnique(hpr, HprIdOf, r.value);
        hpr := hpr + [r.value];
      }
    }

    /** `CreateHFRView.post`: always a new record, unless the generated id is
        already taken. */
    method CreateHfr(body: map<string, string>, uuid: string)
      returns (r: Result<HfrRecord, RegistryError>)
      requires Valid()
      modifies this`hfr
      ensures Valid()
      ensures r == NewHfr(old(hfr), body, uuid)
      ensures hfr == if r.Ok? then old(hfr) + [r.value] else old(hfr)
    {
      r := NewHfr(hfr, body, uuid);
      if r.Ok? {
        AppendKeepsUnique(hfr, HfrIdOf, r.value);
        hfr := hfr + [r.value];
      }
    }
  }

  /** The outcome of an ABHA registration against the records `rs`: the body
      is validated, a known aadhaar number is refused, and the generated
      address must be new. */
  function NewAbha(rs: seq<AbhaRecord>, body: map<string, string>, name: FakeName, dob: int, suffix: int)
    : (r: Result<AbhaRecord, RegistryError>)
    requires 1000 <= suffix <= 9999
    ensures r.Ok? ==> FindBy(rs, AbhaAadhaar, r.value.aadhaar).None? && FindBy(rs, AbhaAddressOf, r.value.abhaAddress).None?
  {
    match ValidateAbha(body)
    case None => Err(Invalid)
    case Some(v) =>
      var address := AbhaAddress(name.firstName, name.lastName, suffix);
      if FindBy(rs, AbhaAadhaar, v["aadhaar"]).Some? then Err(AadhaarTaken)
      else if FindBy(rs, AbhaAddressOf, address).Some? then Err(KeyTaken)
      else Ok(AbhaRecord(address, name.firstName, name.lastName, name.gender, dob, v["mobile"], v["aadhaar"]))
  }

  /** The decisions of an ABHA registration: an invalid body, then a known
      aadhaar number, then a taken address are refused; otherwise the record
      holds the generated address, the fake name and the trimmed fields. */
  lemma NewAbhaDecides(rs: seq<AbhaRecord>, body: map<string, string>, name: FakeName, dob: int, suffix: int)
    requires 1000 <= suffix <= 9999
    ensures var r := NewAbha(rs, body, name, dob, suffix);
      (r == Err(Invalid) <==> ValidateAbha(body).None?) &&
      (ValidateAbha(body).Some? ==>
        var v := ValidateAbha(body).value;
        var address := AbhaAddress(name.firstName, name.lastName, suffix);
        (r == Err(AadhaarTaken) <==> FindBy(rs, AbhaAadhaar, v["aadhaar"]).Some?) &&
        (r == Err(KeyTaken) <==> FindBy(rs, AbhaAadhaar, v["aadhaar"]).None? && FindBy(rs, AbhaAddressOf, address).Some?) &&
        (r.Ok? ==> r.value == AbhaRecord(address, name.firstName, name.lastName, name.gender, dob,
                                         v["mobile"], v["aadhaar"])))
  {
  }

  /** The outcome of an HPR registration against the records `rs`, with the
      aadhaar number read under the serializer's key `aadhar`. */
  function NewHpr(rs: seq<HprRecord>, body: map<string, string>, name: FakeName, uuid: string)
    : (r: Result<HprRecord, RegistryError>)
    ensures r == Err(Invalid) <==> ValidateHpr(body).None?
    ensures ValidateHpr(body).Some? ==>
      var v := ValidateHpr(body).value;
      (r == Err(AadhaarTaken) <==> FindBy(rs, HprAadhaar, v["aadhar"]).Some?) &&
      (r == Err(KeyTaken) <==> FindBy(rs, HprAadhaar, v["aadhar"]).None? && FindBy(rs, HprIdOf, HprId(uuid)).Some?)
    ensures r.Ok? ==> FindBy(rs, HprAadhaar, r.value.aadhaar).None? && FindBy(rs, HprIdOf, r.value.hprId).None?
    ensures r.Ok? ==>
      var v := ValidateHpr(body).value;
      r.value == HprRecord(HprId(uuid), name.firstName, name.lastName, name.gender,
                           v["specialization"], v["aadhar"], v["mobile"])
  {
    match ValidateHpr(body)
    case None => Err(Invalid)
    case Some(v) =>
      if FindBy(rs, HprAadhaar, v["aadhar"]).Some? then Err(AadhaarTaken)
      else if FindBy(rs, HprIdOf, HprId(uuid)).Some? then Err(KeyTaken)
      else Ok(HprRecord(HprId(uuid), name.firstName, name.lastName, name.gender,
                        v["specialization"], v["aadhar"], v["mobile"]))
  }

  /** The outcome of an HFR registration against the records `rs`: every
      valid body creates a facility, unless the generated id is taken. */
  function NewHfr(rs: seq<HfrRecord>, body: map<string, string>, uuid: string): (r: Result<HfrRecord, RegistryError>)
    ensures r == Err(Invalid) <==> ValidateHfr(body).None?
    ensures ValidateHfr(body).Some? ==> (r == Err(KeyTaken) <==> FindBy(rs, HfrIdOf, HfrId(uuid)).Some?)
    ensures r.Ok? ==> FindBy(rs, HfrIdOf, r.value.hfrId).None?
    ensures r.Ok? ==>
      var v := ValidateHfr(body).value;
      r.value == HfrRecord(HfrId(uuid), v["name"], v["type"], v["address"])
  {
    match ValidateHfr(body)
    case None => Err(Invalid)
    case Some(v) =>
      if FindBy(rs, HfrIdOf, HfrId(uuid)).Some? then Err(KeyTaken)
      else Ok(HfrRecord(HfrId(uuid), v["name"], v["type"], v["address"]))
  }

  /** Registering the same aadhaar number twice: whatever the second body's
      other fields and the random parts, the second ABHA registration is refused. */
  lemma SecondAbhaRefused(rs: seq<AbhaRecord>, first: map<string, string>, second: map<string, string>,
                          n1: FakeName, n2: FakeName, dob1: int, dob2: int, s1: int, s2: int)
    requires 1000 <= s1 <= 9999 && 1000 <= s2 <= 9999
    requires NewAbha(rs, first, n1, dob1, s1).Ok? && ValidateAbha(second).Some?
    requires ValidateAbha(second).value["aadhaar"] == ValidateAbha(first).value["aadhaar"]
    ensures NewAbha(rs + [NewAbha(rs, first, n1, dob1, s1).value], second, n2, dob2, s2) == Err(AadhaarTaken)
  {
    var rec := NewAbha(rs, first, n1, dob1, s1).value;
    NewAbhaDecides(rs, first, n1, dob1, s1);
    assert rec.aadhaar == ValidateAbha(second).value["aadhaar"];
    FindLast(rs, AbhaAadhaar, rec);
    NewAbhaDecides(rs + [rec], second, n2, dob2, s2);
  }

  /** The same for HPR registrations, keyed by the `aadhar` field. */
  lemma SecondHprRefused(rs: seq<HprRecord>, first: map<string, string>, second: map<string, string>,
                         n1: FakeName, n2: FakeName, u1: string, u2: string)
    requires NewHpr(rs, first, n1, u1).Ok? && ValidateHpr(second).Some?
    requires ValidateHpr(second).value["aadhar"] == ValidateHpr(first).value["aadhar"]
    ensures NewHpr(rs + [NewHpr(rs, first, n1, u1).value], second, n2, u2) == Err(AadhaarTaken)
  {
    var rec := NewHpr(rs, first, n1, u1).value;
    FindLast(rs, HprAadhaar, rec);
  }

  /** Facilities are not de-duplicated: registering the same body again
      creates a second facility whenever the new uuid gives a fresh id. */
  lemma HfrNotDeduplicated(rs: seq<HfrRecord>, body: map<string, string>, u1: string, u2: string)
    requires NewHfr(rs, body, u1).Ok?
    requires FindBy(rs + [NewHfr(rs, body, u1).value], HfrIdOf, HfrId(u2)).None?
    ensures NewHfr(rs + [NewHfr(rs, body, u1).value], body, u2).Ok?
    ensures |rs + [NewHfr(rs, body, u1).value]| == |rs| + 1
  {
  }
}

=== FILE: seqs.dfy ===
/** Order-preserving filtering, the `filter` of the database queries and of the
    client's list handling. */
module Seqs {

  /** The elements of `s` that satisfy `keep`, in their original order. */
  function Filter<T>(s: seq<T>, keep: T -> bool): (r: seq<T>)
    ensures |r| <= |s|
    ensures forall i :: 0 <= i < |r| ==> keep(r[i]) && r[i] in s
    ensures forall i :: 0 <= i < |s| && keep(s[i]) ==> s[i] in r
    ensures multiset(r) <= multiset(s)
  {
    if |s| == 0 then []
    else
      assert s == [s[0]] + s[1..];
      if keep(s[0]) then [s[0]] + Filter(s[1..], keep) else Filter(s[1..], keep)
  }

  /** Filtering distributes over concatenation, so the order of the kept
      elements is the order they had in the input. */
  lemma {:induction false} FilterConcat<T>(s: seq<T>, t: seq<T>, keep: T -> bool)
    ensures Filter(s + t, keep) == Filter(s, keep) + Filter(t, keep)
  {
    if |s| > 0 {
      assert (s + t)[0] == s[0];
      assert (s + t)[1..] == s[1..] + t;
      FilterConcat(s[1..], t, keep);
    } else {
      assert s + t == t;
    }
  }

  /** A filter and its complement split the input: together they hold every
      element exactly as often as the input does. */
  lemma {:induction false} FilterPartition<T>(s: seq<T>, keep: T -> bool)
    ensures multiset(Filter(s, keep)) + multiset(Filter(s, x => !keep(x))) == multiset(s)
  {
    if |s| > 0 {
      assert s == [s[0]] + s[1..];
      FilterPartition(s[1..], keep);
    }
  }

  /** Keeping everything changes nothing. */
  lemma {:induction false} FilterAll<T>(s: seq<T>, keep: T -> bool)
    requires forall i :: 0 <= i < |s| ==> keep(s[i])
    ensures Filter(s, keep) == s
  {
    if |s| > 0 {
      assert s == [s[0]] + s[1..];
      FilterAll(s[1..], keep);
    }
  }

  /** Filtering by two tests that agree everywhere gives the same result. */
  lemma {:induction false} FilterSame<T>(s: seq<T>, p: T -> bool, q: T -> bool)
    requires forall x :: p(x) == q(x)
    ensures Filter(s, p) == Filter(s, q)
  {
    if |s| > 0 {
      FilterSame(s[1..], p, q);
    }
  }

  /** A filter and a filter by the opposite test, however it is written,
      split the input. */
  lemma FilterSplit<T>(s: seq<T>, keep: T -> bool, drop: T -> bool)
    requires forall x :: drop(x) == !keep(x)
    ensures multiset(Filter(s, keep)) + multiset(Filter(s, drop)) == multiset(s)
    ensures |Filter(s, keep)| + |Filter(s, drop)| == |s|
  {
    FilterSame(s, drop, x => !keep(x));
    FilterPartition(s, keep);
    assert |multiset(Filter(s, keep)) + multiset(Filter(s, drop))| == |multiset(s)|;
  }
}

=== FILE: signup_page.dfy ===
/** The sign-up page: the password checks, the registration body sent for
    each role, and the page's error, success and loading state. */
module SignupPage {
  import opened Wrappers
  import opened ClientValues

  datatype SignupForm = SignupForm(email: string, password: string, confirmPassword: string,
                                   phoneNumber: string, aadhaar: string, specialization: string,
                                   kind: string, name: string, address: string)

  const MIN_PASSWORD_LENGTH := 8
  const PASSWORDS_DIFFER := "Passwords do not match"
  const PASSWORD_TOO_SHORT := "Password must be at least 8 characters"
  const REGISTRATION_FAILED := "Registration failed. Please try again."

  /** The form as the page first shows it: every field empty and the
      provider type set to HOSPITAL. */
  const INITIAL_FORM := SignupForm("", "", "", "", "", "", "HOSPITAL", "", "")

  /** The checks before any request: a mismatch is reported first, and the
      length is checked only once the two passwords agree. */
  function PasswordError(f: SignupForm): (e: Option<string>)
    ensures e == Some(PASSWORDS_DIFFER) <==> f.password != f.confirmPassword
    ensures e == Some(PASSWORD_TOO_SHORT) <==> f.password == f.confirmPassword && |f.password| < MIN_PASSWORD_LENGTH
    ensures e.None? <==> f.password == f.confirmPassword && |f.password| >= MIN_PASSWORD_LENGTH
  {
    if f.password != f.confirmPassword then Some(PASSWORDS_DIFFER)
    else if |f.password| < MIN_PASSWORD_LENGTH then Some(PASSWORD_TOO_SHORT)
    else None
  }

  /** A registration call: the endpoint and the JSON body. */
  datatype Registration = Registration(endpoint: string, body: map<string, string>)

  /** The call `handleSubmit` makes for `role`; none for a role the page
      does not know. */
  function RegistrationFor(role: string, f: SignupForm): (r: Option<Registration>)
    ensures r.Some? <==> role == "patient" || role == "doctor" || role == "provider"
    ensures r.Some? ==> "email" in r.value.body && r.value.body["email"] == f.email &&
                        "password" in r.value.body && r.value.body["password"] == f.password &&
                        "phone_number" in r.value.body && r.value.body["phone_number"] == f.phoneNumber
    ensures role == "patient" ==>
      r.value.endpoint == "/auth/register/patient/" &&
      r.value.body.Keys == {"email", "password", "phone_number", "aadhaar"} && r.value.body["aadhaar"] == f.aadhaar
    ensures role == "doctor" ==>
      r.value.endpoint == "/auth/register/doctor/" &&
      r.value.body.Keys == {"email", "password", "phone_number", "aadhaar", "specialization"} &&
      r.value.body["aadhaar"] == f.aadhaar && r.value.body["specialization"] == f.specialization
    ensures role == "provider" ==>
      r.value.endpoint == "/auth/register/provider/" &&
      r.value.body.Keys == {"email", "password", "phone_number", "type", "name", "address"} &&
      r.value.body["type"] == f.kind && r.value.body["name"] == f.name && r.value.body["address"] == f.address
  {
    var common := map["email" := f.email, "password" := f.password, "phone_number" := f.phoneNumber];
    if role == "patient" then
      Some(Registration("/auth/register/patient/", common["aadhaar" := f.aadhaar]))
    else if role == "doctor" then
      Some(Registration("/auth/register/doctor/",
                        common["aadhaar" := f.aadhaar]["specialization" := f.specialization]))
    else if role == "provider" then
      Some(Registration("/auth/register/provider/",
                        common["type" := f.kind]["name" := f.name]["address" := f.address]))
    else None
  }

  /** A provider's body never carries the aadhaar number, whatever the form holds. */
  lemma ProviderSendsNoAadhaar(f: SignupForm)
    ensures "aadhaar" !in RegistrationFor("provider", f).value.body
  {
  }

  /** The doctor's body is the patient's plus `specialization`. */
  lemma DoctorBodyExtendsPatientBody(f: SignupForm)
    ensures RegistrationFor("doctor", f).value.body ==
            RegistrationFor("patient", f).value.body["specialization" := f.specialization]
  {
    assert RegistrationFor("doctor", f).value.body.Keys ==
           RegistrationFor("patient", f).value.body["specialization" := f.specialization].Keys;
  }

  /** `email[0]`, then `detail`, then the generic message. */
  function ErrorText(err: ApiError): (t: string)
    ensures |err.email| > 0 && err.email[0] != "" ==> t == err.email[0]
    ensures (|err.email| == 0 || err.email[0] == "") ==> t == TextOr(err.detail, REGISTRATION_FAILED)
    ensures t != ""
  {
    if |err.email| > 0 && err.email[0] != "" then err.email[0] else TextOr(err.detail, REGISTRATION_FAILED)
  }

  class SignupPage {
    var error: string
    var success: bool
    var loading: bool

    constructor ()
      ensures error == "" && !success && !loading
    {
      error, success, loading := "", false, false;
    }

    /** `handleSubmit`. `response` is the server's answer to the registration
        call, read only when the call is made; `sent` is the call made. */
    method Submit(role: string, f: SignupForm, response: Result<JsValue, ApiError>) returns (sent: Option<Registration>)
      modifies this
      ensures PasswordError(f).Some? ==>
        sent == None && error == PasswordError(f).value && success == old(success) && loading == old(loading)
      ensures PasswordError(f).None? ==> sent == RegistrationFor(role, f) && !loading
      ensures PasswordError(f).None? && sent.Some? && response.Err? ==>
        error == ErrorText(response.error) && success == old(success)
      ensures PasswordError(f).None? && (sent.None? || response.Ok?) ==> error == "" && success
    {
      error := "";
      sent := None;
      var check := PasswordError(f);
      if check.Some? {
        error := check.value;
        return;
      }
      loading := true;
      sent := RegistrationFor(role, f);
      if sent.Some? && response.Err? {
        error := ErrorText(response.error);
      } else {
        success := true;
      }
      loading := false;
    }
  }
}

=== FILE: sorting.dfy ===
/** Ordering of rows by an integer key: the `order_by` of the database queries
    and the comparator sorts of the client pages. */
module Sorting {
  import opened Seqs

  /** Non-decreasing by `key`. */
  ghost predicate SortedBy<T>(s: seq<T>, key: T -> int) {
    forall i, j :: 0 <= i < j < |s| ==> key(s[i]) <= key(s[j])
  }

  /** The tail of a sorted sequence is sorted. */
  lemma SortedTail<T>(s: seq<T>, key: T -> int)
    requires |s| > 0 && SortedBy(s, key)
    ensures SortedBy(s[1..], key)
  {
    forall i, j | 0 <= i < j < |s[1..]| ensures key(s[1..][i]) <= key(s[1..][j]) {
      assert s[1..][i] == s[i + 1] && s[1..][j] == s[j + 1];
    }
  }

  /** The head of a sorted sequence has the least key of all its elements. */
  lemma SortedHeadLeast<T>(s: seq<T>, key: T -> int)
    requires |s| > 0 && SortedBy(s, key)
    ensures forall y :: y in s ==> key(s[0]) <= key(y)
  {
    forall y | y in s ensures key(s[0]) <= key(y) {
      var k :| 0 <= k < |s| && s[k] == y;
    }
  }

  /** An element no larger than anything in a sorted sequence can go in front. */
  lemma ConsSorted<T>(h: T, t: seq<T>, key: T -> int)
    requires SortedBy(t, key)
    requires forall i :: 0 <= i < |t| ==> key(h) <= key(t[i])
    ensures SortedBy([h] + t, key)
  {
    var r := [h] + t;
    forall i, j | 0 <= i < j < |r| ensures key(r[i]) <= key(r[j]) {
      assert r[j] == t[j - 1];
      if i > 0 {
        assert r[i] == t[i - 1];
      }
    }
  }

  /** Putting the head of `s` in front of `x` inserted into the tail keeps
      the sequence sorted and its elements those of `s` and `x`. */
  lemma InsertBehindHead<T>(x: T, s: seq<T>, t: seq<T>, key: T -> int)
    requires |s| > 0 && SortedBy(s, key) && key(s[0]) <= key(x)
    requires SortedBy(t, key) && multiset(t) == multiset(s[1..]) + multiset{x}
    requires t[0] == x || (|s| > 1 && t[0] == s[1])
    ensures SortedBy([s[0]] + t, key)
    ensures multiset([s[0]] + t) == multiset(s) + multiset{x}
  {
    assert s == [s[0]] + s[1..];
    ConsSorted(s[0], t, key);
  }

  /** Inserts `x` before the first element with a larger key, so that rows with
      equal keys keep their order. */
  function Insert<T>(x: T, s: seq<T>, key: T -> int): (r: seq<T>)
    requires SortedBy(s, key)
    ensures multiset(r) == multiset(s) + multiset{x}
    ensures |r| == |s| + 1
    ensures SortedBy(r, key)
    ensures r[0] == x || (|s| > 0 && r[0] == s[0])
  {
    if |s| == 0 then [x]
    else if key(x) < key(s[0]) then
      ConsSorted(x, s, key);
      [x] + s
    else
      SortedTail(s, key);
      var t := Insert(x, s[1..], key);
      InsertBehindHead(x, s, t, key);
      [s[0]] + t
  }

  /** A stable sort by `key`, ascending. */
  function SortBy<T>(s: seq<T>, key: T -> int): (r: seq<T>)
    ensures multiset(r) == multiset(s)
    ensures |r| == |s|
    ensures SortedBy(r, key)
  {
    if |s| == 0 then []
    else
      assert s == s[..|s| - 1] + [s[|s| - 1]];
      Insert(s[|s| - 1], SortBy(s[..|s| - 1], key), key)
  }

  /** Sorting keeps exactly the elements it was given. */
  lemma SortByMembers<T>(s: seq<T>, key: T -> int)
    ensures forall i :: 0 <= i < |SortBy(s, key)| ==> SortBy(s, key)[i] in s
    ensures forall i :: 0 <= i < |s| ==> s[i] in SortBy(s, key)
  {
    var r := SortBy(s, key);
    forall i | 0 <= i < |r| ensures r[i] in s {
      assert r[i] in multiset(r);
    }
    forall i | 0 <= i < |s| ensures s[i] in r {
      assert s[i] in multiset(s);
    }
  }

  /** The first element of the sorted sequence has the least key of the input. */
  lemma SortByFirstIsLeast<T>(s: seq<T>, key: T -> int)
    requires |s| > 0
    ensures forall i :: 0 <= i < |s| ==> key(SortBy(s, key)[0]) <= key(s[i])
  {
    var r := SortBy(s, key);
    forall i | 0 <= i < |s| ensures key(r[0]) <= key(s[i]) {
      assert s[i] in multiset(r);
      var k :| 0 <= k < |r| && r[k] == s[i];
    }
  }

  /** A prefix holds each element at most as often as the whole. */
  lemma PrefixSubmultiset<T>(s: seq<T>, n: nat)
    requires n <= |s|
    ensures multiset(s[..n]) <= multiset(s)
  {
    assert s == s[..n] + s[n..];
  }

  /** A prefix of a sorted sequence is sorted. */
  lemma SortedPrefix<T>(s: seq<T>, n: nat, key: T -> int)
    requires SortedBy(s, key) && n <= |s|
    ensures SortedBy(s[..n], key)
  {
    var p := s[..n];
    forall i, j | 0 <= i < j < |p| ensures key(p[i]) <= key(p[j]) {
      assert p[i] == s[i] && p[j] == s[j];
    }
  }

  /** Whatever a prefix of a sorted sequence leaves out has a key no smaller
      than the prefix's last element. */
  lemma SortedRestNoLess<T>(s: seq<T>, n: nat, key: T -> int)
    requires SortedBy(s, key) && 0 < n <= |s|
    ensures forall x :: x in multiset(s) - multiset(s[..n]) ==> key(s[n - 1]) <= key(x)
  {
    var rest := s[n..];
    assert s == s[..n] + rest;
    assert multiset(s) - multiset(s[..n]) == multiset(rest);
    forall x | x in multiset(s) - multiset(s[..n]) ensures key(s[n - 1]) <= key(x) {
      assert x in rest;
      var j :| 0 <= j < |rest| && rest[j] == x;
      assert s[n + j] == x;
    }
  }

  /** A prefix of any sorted arrangement of `s` is drawn from `s`, is sorted,
      and leaves out nothing with a smaller key than its last element. */
  lemma LeastPrefix<T>(s: seq<T>, sorted: seq<T>, r: seq<T>, key: T -> int)
    requires multiset(sorted) == multiset(s) && SortedBy(sorted, key)
    requires 0 < |r| <= |sorted| && r == sorted[..|r|]
    ensures multiset(r) <= multiset(s)
    ensures SortedBy(r, key)
    ensures forall x :: x in multiset(s) - multiset(r) ==> key(r[|r| - 1]) <= key(x)
  {
    PrefixSubmultiset(sorted, |r|);
    SortedPrefix(sorted, |r|, key);
    SortedRestNoLess(sorted, |r|, key);
  }

  /** The first `n` elements of `sorted`, an arrangement of `s` by key. */
  function LeastOfSorted<T>(s: seq<T>, sorted: seq<T>, n: nat, key: T -> int): (r: seq<T>)
    requires multiset(sorted) == multiset(s) && |sorted| == |s| && SortedBy(sorted, key)
    ensures |r| == if |s| < n then |s| else n
    ensures multiset(r) <= multiset(s)
    ensures SortedBy(r, key)
    ensures |r| > 0 ==> forall x :: x in multiset(s) - multiset(r) ==> key(r[|r| - 1]) <= key(x)
  {
    if |s| == 0 || n == 0 then []
    else
      var r := sorted[..if |s| < n then |s| else n];
      LeastPrefix(s, sorted, r, key);
      r
  }

  /** The `n` elements of least key, in key order (`order_by(...)[:n]`): all
      of them when there are fewer, each at most as often as it occurs, and
      none left out with a smaller key than the last one taken. */
  function TakeLeast<T>(s: seq<T>, n: nat, key: T -> int): (r: seq<T>)
    ensures |r| == if |s| < n then |s| else n
    ensures multiset(r) <= multiset(s)
    ensures SortedBy(r, key)
    ensures |r| > 0 ==> forall x :: x in multiset(s) - multiset(r) ==> key(r[|r| - 1]) <= key(x)
  {
    LeastOfSorted(s, SortBy(s, key), n, key)
  }

  /** Filtering a sorted sequence leaves it sorted. */
  lemma {:induction false} FilterKeepsSorted<T>(s: seq<T>, key: T -> int, keep: T -> bool)
    requires SortedBy(s, key)
    ensures SortedBy(Filter(s, keep), key)
  {
    if |s| > 0 {
      SortedTail(s, key);
      FilterKeepsSorted(s[1..], key, keep);
      var rest := Filter(s[1..], keep);
      if keep(s[0]) {
        SortedHeadLeast(s, key);
        forall i | 0 <= i < |rest| ensures key(s[0]) <= key(rest[i]) {
          assert rest[i] in s[1..];
          assert rest[i] in s;
        }
        ConsSorted(s[0], rest, key);
      }
    }
  }
}

=== FILE: text.dfy ===
/** String helpers shared by the backend and the client: decimal digits, padding,
    ASCII case mapping, whitespace trimming and substring search. */
module Text {
  import opened Wrappers

  predicate IsDigit(c: char) { '0' <= c <= '9' }

  function DigitChar(d: nat): (c: char)
    requires d < 10
    ensures IsDigit(c)
  {
    ('0' as int + d) as char
  }

  function DigitValue(c: char): (d: nat)
    requires IsDigit(c)
    ensures d < 10 && DigitChar(d) == c
  {
    (c as int - '0' as int) as nat
  }

  /** Decimal rendering of a natural number, without leading zeros ("0" for zero). */
  function NatToString(n: nat): (s: string)
    ensures |s| >= 1
    ensures forall i :: 0 <= i < |s| ==> IsDigit(s[i])
    decreases n
  {
    if n < 10 then [DigitChar(n)] else NatToString(n / 10) + [DigitChar(n % 10)]
  }

  predicate AllDigits(s: string) { forall i :: 0 <= i < |s| ==> IsDigit(s[i]) }

  function DigitsValue(s: string): nat
    requires AllDigits(s)
  {
    if |s| == 0 then 0 else DigitsValue(s[..|s| - 1]) * 10 + DigitValue(s[|s| - 1])
  }

  /** Parses a non-empty run of decimal digits. */
  function ParseNat(s: string): (r: Option<nat>)
    ensures r.Some? <==> (|s| >= 1 && AllDigits(s))
  {
    if |s| >= 1 && AllDigits(s) then Some(DigitsValue(s)) else None
  }

  lemma {:induction false} DigitsValueOfNatToString(n: nat)
    ensures DigitsValue(NatToString(n)) == n
    decreases n
  {
    if n >= 10 {
      var s := NatToString(n);
      assert s[..|s| - 1] == NatToString(n / 10);
      DigitsValueOfNatToString(n / 10);
    }
  }

  /** Rendering then parsing gives the number back. */
  lemma NatToStringRoundTrip(n: nat)
    ensures ParseNat(NatToString(n)) == Some(n)
  {
    DigitsValueOfNatToString(n);
  }

  /** A number in 1000..9999 is rendered with exactly four digits. */
  lemma {:induction false} NatToStringFourDigits(n: nat)
    requires 1000 <= n <= 9999
    ensures |NatToString(n)| == 4
  {
    assert NatToString(n) == NatToString(n / 10) + [DigitChar(n % 10)];
    assert NatToString(n / 10) == NatToString(n / 100) + [DigitChar(n / 10 % 10)];
    assert NatToString(n / 100) == NatToString(n / 1000) + [DigitChar(n / 100 % 10)];
  }

  /** JavaScript `padStart(2, '0')`. */
  function PadStart2(s: string): (r: string)
    ensures |s| >= 2 ==> r == s
    ensures |s| < 2 ==> |r| == 2 && r[2 - |s|..] == s && forall i :: 0 <= i < 2 - |s| ==> r[i] == '0'
  {
    if |s| >= 2 then s else if |s| == 1 then ['0'] + s else "00"
  }

  function LowerChar(c: char): char {
    if 'A' <= c <= 'Z' then (c as int - 'A' as int + 'a' as int) as char else c
  }

  function UpperChar(c: char): char {
    if 'a' <= c <= 'z' then (c as int - 'a' as int + 'A' as int) as char else c
  }

  /** A number below 100, rendered and padded to two digits, reads back as itself. */
  lemma TwoDigitsValue(n: nat)
    requires n < 100
    ensures |PadStart2(NatToString(n))| == 2 && AllDigits(PadStart2(NatToString(n)))
    ensures ParseNat(PadStart2(NatToString(n))) == Some(n)
  {
    var t := NatToString(n);
    NatToStringRoundTrip(n);
    if n < 10 {
      var u := PadStart2(t);
      assert u == ['0'] + t;
      assert u[..1] == "0";
      assert DigitsValue(u) == DigitsValue(u[..1]) * 10 + DigitValue(u[1]);
    }
  }

  /** ASCII `toLowerCase()`. */
  function Lower(s: string): (r: string)
    ensures |r| == |s| && forall i :: 0 <= i < |s| ==> r[i] == LowerChar(s[i])
  {
    seq(|s|, i requires 0 <= i < |s| => LowerChar(s[i]))
  }

  /** ASCII `upper()`. */
  function Upper(s: string): (r: string)
    ensures |r| == |s| && forall i :: 0 <= i < |s| ==> r[i] == UpperChar(s[i])
    ensures forall i :: 0 <= i < |r| ==> !('a' <= r[i] <= 'z')
  {
    seq(|s|, i requires 0 <= i < |s| => UpperChar(s[i]))
  }

  predicate IsSpace(c: char) {
    c == ' ' || c == '\t' || c == '\n' || c == '\r' || c == '\U{B}' || c == '\U{C}'
  }

  function TrimStart(s: string): string {
    if |s| > 0 && IsSpace(s[0]) then TrimStart(s[1..]) else s
  }

  function TrimEnd(s: string): string {
    if |s| > 0 && IsSpace(s[|s| - 1]) then TrimEnd(s[..|s| - 1]) else s
  }

  /** Python `str.strip()` / JavaScript `trim()` over ASCII white space. */
  function Trim(s: string): string {
    TrimEnd(TrimStart(s))
  }

  /** `TrimStart` removes exactly the leading white space: what is left is a
      suffix of the input that does not start with white space. */
  lemma {:induction false} TrimStartSuffix(s: string)
    ensures |TrimStart(s)| <= |s| && TrimStart(s) == s[|s| - |TrimStart(s)|..]
    ensures |TrimStart(s)| > 0 ==> !IsSpace(TrimStart(s)[0])
    ensures forall i :: 0 <= i < |s| - |TrimStart(s)| ==> IsSpace(s[i])
  {
    if |s| > 0 && IsSpace(s[0]) {
      TrimStartSuffix(s[1..]);
      assert forall i :: 1 <= i < |s| ==> s[1..][i - 1] == s[i];
    }
  }

  /** `TrimEnd` removes exactly the trailing white space: what is left is a
      prefix of the input that does not end with white space. */
  lemma {:induction false} TrimEndPrefix(s: string)
    ensures |TrimEnd(s)| <= |s| && TrimEnd(s) == s[..|TrimEnd(s)|]
    ensures |TrimEnd(s)| > 0 ==> !IsSpace(TrimEnd(s)[|TrimEnd(s)| - 1])
    ensures forall i :: |TrimEnd(s)| <= i < |s| ==> IsSpace(s[i])
  {
    if |s| > 0 && IsSpace(s[|s| - 1]) {
      TrimEndPrefix(s[..|s| - 1]);
      assert forall i :: 0 <= i < |s| - 1 ==> s[..|s| - 1][i] == s[i];
    }
  }

  /** The trimmed string is an infix of the input with no white space at either end,
      and only white space was removed. */
  lemma TrimIsInfix(s: string)
    ensures exists a, b :: 0 <= a <= b <= |s| && Trim(s) == s[a..b]
    ensures |Trim(s)| > 0 ==> !IsSpace(Trim(s)[0]) && !IsSpace(Trim(s)[|Trim(s)| - 1])
  {
    var t := TrimStart(s);
    TrimStartSuffix(s);
    TrimEndPrefix(t);
    var a := |s| - |t|;
    assert Trim(s) == s[a..a + |Trim(s)|];
    if |Trim(s)| > 0 {
      assert Trim(s)[0] == t[0];
    }
  }

  lemma TrimIdempotent(s: string)
    ensures Trim(Trim(s)) == Trim(s)
  {
    var r := Trim(s);
    TrimIsInfix(s);
    if |r| > 0 {
      assert TrimStart(r) == r;
      assert TrimEnd(r) == r;
    } else {
      assert r == [];
    }
  }

  predicate IsPrefix(p: string, s: string) { |p| <= |s| && s[..|p|] == p }

  predicate IsSuffix(p: string, s: string) { |p| <= |s| && s[|s| - |p|..] == p }

  /** `sub` occurs in `s` at index `i`. */
  predicate OccursAt(s: string, sub: string, i: int) {
    0 <= i && i + |sub| <= |s| && s[i..i + |sub|] == sub
  }

  /** JavaScript `s.includes(sub)`. */
  function Contains(s: string, sub: string): (b: bool)
    ensures b <==> exists i :: OccursAt(s, sub, i)
    decreases |s|
  {
    if IsPrefix(sub, s) then
      assert OccursAt(s, sub, 0);
      true
    else if |s| == 0 then
      false
    else
      var r := Contains(s[1..], sub);
      assert forall i :: OccursAt(s[1..], sub, i) <==> OccursAt(s, sub, i + 1) by {
        forall i ensures OccursAt(s[1..], sub, i) <==> OccursAt(s, sub, i + 1) {
          if 0 <= i && i + |sub| <= |s[1..]| {
            assert s[1..][i..i + |sub|] == s[i + 1..i + 1 + |sub|];
          }
        }
      }
      assert (exists i :: OccursAt(s, sub, i)) ==> r by {
        if exists i :: OccursAt(s, sub, i) {
          var i :| OccursAt(s, sub, i);
          assert i != 0;
          assert OccursAt(s[1..], sub, i - 1);
        }
      }
      r
  }

  lemma ContainsEmpty(s: string)
    ensures Contains(s, "")
  {
    assert OccursAt(s, "", 0);
  }
}

=== FILE: upload_report_page.dfy ===
/** The provider's report upload: a three-step wizard (find the patient by
    ABHA id, pick a TEST step of one of their journeys, upload the file) whose
    state the handlers update in place. */
module UploadReportPage {
  import opened Wrappers
  import opened Text
  import opened Seqs
  import opened ClientValues
  import opened ApiClient

  /** A journey step as the lookup returns it; `kind` is its `type`. */
  datatype ClientStep = ClientStep(id: nat, kind: string)

  datatype ClientJourney = ClientJourney(id: nat, title: string, steps: seq<ClientStep>)

  /** The lookup's answer: the patient's id and name and their journeys, any
      of which may be missing. */
  datatype LookupResponse = LookupResponse(patientAbhaId: Option<string>, patientName: Option<string>,
                                           journeys: Option<seq<ClientJourney>>)

  datatype Patient = Patient(abhaId: Option<string>, name: Option<string>)

  /** The chosen step with the title and id of its journey attached. */
  datatype SelectedStep = SelectedStep(step: ClientStep, journeyTitle: string, journeyId: nat)

  /** The multipart request `reportAPI.upload` sends. */
  datatype UploadRequest = UploadRequest(path: string, form: seq<(string, string)>)

  const NOT_FOUND := "Patient not found. Please check the ABHA ID."
  const SELECTION_MISSING := "Please select a step and file"
  const UPLOAD_FAILED := "Upload failed"

  predicate IsTest(s: ClientStep) { s.kind == "TEST" }

  /** The step buttons listed under one journey. */
  function TestSteps(j: ClientJourney): (r: seq<ClientStep>)
    ensures forall s :: s in r <==> s in j.steps && IsTest(s)
  {
    Filter(j.steps, IsTest)
  }

  /** `journeys.some(j => j.steps?.some(s => s.type === 'TEST'))`. */
  predicate AnyTestStep(js: seq<ClientJourney>) {
    exists i, k :: 0 <= i < |js| && 0 <= k < |js[i].steps| && IsTest(js[i].steps[k])
  }

  /** The step buttons of one journey, each with that journey. */
  function ButtonsOf(j: ClientJourney): (r: seq<(ClientJourney, ClientStep)>)
    ensures forall j', s :: (j', s) in r <==> j' == j && s in TestSteps(j)
  {
    var t := TestSteps(j);
    var r := seq(|t|, i requires 0 <= i < |t| => (j, t[i]));
    assert forall s :: s in t ==> (j, s) in r by {
      forall s | s in t ensures (j, s) in r {
        var i :| 0 <= i < |t| && t[i] == s;
        assert r[i] == (j, s);
      }
    }
    r
  }

  /** Every step button of the page, journey by journey. */
  function Offered(js: seq<ClientJourney>): (r: seq<(ClientJourney, ClientStep)>)
    ensures forall j, s :: (j, s) in r <==> j in js && s in TestSteps(j)
  {
    if |js| == 0 then []
    else
      assert forall j :: j in js <==> j == js[0] || j in js[1..];
      ButtonsOf(js[0]) + Offered(js[1..])
  }

  /** A button on offer is a TEST step of one of the journeys. */
  lemma OfferedIsTestStep(js: seq<ClientJourney>, j: ClientJourney, s: ClientStep)
    requires (j, s) in Offered(js)
    ensures AnyTestStep(js)
  {
    var i :| 0 <= i < |js| && js[i] == j;
    var k :| 0 <= k < |j.steps| && j.steps[k] == s;
    assert IsTest(js[i].steps[k]);
  }

  /** The "no test steps" panel shows exactly when there is no step button to
      press. */
  lemma EmptyStateIffNothingOffered(js: seq<ClientJourney>)
    ensures (|js| == 0 || !AnyTestStep(js)) <==> Offered(js) == []
  {
    if AnyTestStep(js) {
      var i, k :| 0 <= i < |js| && 0 <= k < |js[i].steps| && IsTest(js[i].steps[k]);
      assert (js[i], js[i].steps[k]) in Offered(js);
    }
    if Offered(js) != [] {
      OfferedIsTestStep(js, Offered(js)[0].0, Offered(js)[0].1);
    }
  }

  /** The ABHA id a search looks up: the trimmed input, or none when the
      input is blank. */
  function LookupId(input: string): (id: Option<string>)
    ensures id.None? <==> Trim(input) == ""
    ensures id.Some? ==> id.value == Trim(input)
  {
    var t := Trim(input);
    if t == "" then None else Some(t)
  }

  /** The id looked up is a piece of the input with no white space at
      either end. */
  lemma LookupIdIsTrimmed(input: string)
    ensures LookupId(input).Some? ==>
      var id := LookupId(input).value;
      (exists a, b :: 0 <= a <= b <= |input| && id == input[a..b]) &&
      !IsSpace(id[0]) && !IsSpace(id[|id| - 1])
  {
    TrimIsInfix(input);
  }

  class UploadWizard {
    var step: nat
    var searchInput: string
    var searchLoading: bool
    var patient: Option<Patient>
    var journeys: seq<ClientJourney>
    var selectedStep: Option<SelectedStep>
    var file: Option<string>
    var uploading: bool
    var result: Option<JsValue>
    var error: Option<string>

    /** The wizard is on step 1, 2 or 3, and on step 3 only with a step chosen. */
    predicate Valid()
      reads this
    {
      1 <= step <= 3 && (step == 3 ==> selectedStep.Some?)
    }

    /** The state `resetFlow` returns to. */
    predicate Initial()
      reads this
    {
      step == 1 && searchInput == "" && patient.None? && journeys == [] &&
      selectedStep.None? && file.None? && result.None? && error.None?
    }

    constructor ()
      ensures Valid() && Initial() && !searchLoading && !uploading
    {
      step, searchInput, searchLoading, patient, journeys := 1, "", false, None, [];
      selectedStep, file, uploading, result, error := None, None, false, None, None;
    }

    /** Typing into the ABHA id field. */
    method Type(text: string)
      modifies this`searchInput
      ensures searchInput == text
    {
      searchInput := text;
    }

    /** `handlePatientSearch`. A blank input does nothing; otherwise the
        trimmed input is looked up (`requested`) and `response` is the answer. */
    method Search(response: Result<LookupResponse, ApiError>) returns (requested: Option<string>)
      requires Valid()
      modifies this`searchLoading, this`error, this`patient, this`journeys, this`step
      ensures Valid()
      ensures requested == LookupId(old(searchInput))
      ensures requested.None? ==>
        step == old(step) && patient == old(patient) && journeys == old(journeys) &&
        error == old(error) && searchLoading == old(searchLoading)
      ensures requested.Some? ==> !searchLoading
      ensures requested.Some? && response.Ok? ==>
        step == 2 && error.None? &&
        patient == Some(Patient(response.value.patientAbhaId, response.value.patientName)) &&
        journeys == (if response.value.journeys.Some? then response.value.journeys.value else [])
      ensures requested.Some? && response.Err? ==>
        error == Some(TextOr(response.error.error, NOT_FOUND)) &&
        step == old(step) && patient == old(patient) && journeys == old(journeys)
    {
      requested := LookupId(searchInput);
      if requested.None? {
        return;
      }
      searchLoading := true;
      error := None;
      if response.Ok? {
        var data := response.value;
        patient := Some(Patient(data.patientAbhaId, data.patientName));
        journeys := if data.journeys.Some? then data.journeys.value else [];
        step := 2;
      } else {
        error := Some(TextOr(response.error.error, NOT_FOUND));
      }
      searchLoading := false;
    }

    /** `selectStep(journey, journeyStep)`. */
    method SelectStep(journey: ClientJourney, s: ClientStep)
      modifies this`selectedStep, this`step
      ensures Valid()
      ensures selectedStep == Some(SelectedStep(s, journey.title, journey.id)) && step == 3
    {
      selectedStep := Some(SelectedStep(s, journey.title, journey.id));
      step := 3;
    }

    /** `handleFileChange`: a picked file replaces the old one and clears the
        error; cancelling the picker changes nothing. */
    method ChooseFile(picked: Option<string>)
      requires Valid()
      modifies this`file, this`error
      ensures Valid()
      ensures picked.Some? ==> file == picked && error.None?
      ensures picked.None? ==> file == old(file) && error == old(error)
    {
      if picked.Some? {
        file := picked;
        error := None;
      }
    }

    /** `handleUpload`. Without a chosen step and file nothing is sent;
        otherwise `request` is the upload made and `response` its answer. */
    method Upload(response: Result<JsValue, ApiError>) returns (request: Option<UploadRequest>)
      requires Valid()
      modifies this`uploading, this`error, this`result
      ensures Valid()
      ensures old(selectedStep).None? || old(file).None? ==>
        request.None? && error == Some(SELECTION_MISSING) && result == old(result) && uploading == old(uploading)
      ensures old(selectedStep).Some? && old(file).Some? ==>
        request == Some(UploadRequest(ReportUploadPath(selectedStep.value.step.id), [("file", file.value)])) &&
        !uploading
      ensures request.Some? && response.Ok? ==> result == Some(response.value) && error.None?
      ensures request.Some? && response.Err? ==>
        result == old(result) && error == Some(TextOr(response.error.error, UPLOAD_FAILED))
    {
      if selectedStep.None? || file.None? {
        error := Some(SELECTION_MISSING);
        return None;
      }
      uploading := true;
      error := None;
      var form := ReportUploadForm(file.value, Undefined, (v: JsValue) => "");
      request := Some(UploadRequest(ReportUploadPath(selectedStep.value.step.id), form));
      match response {
        case Ok(data) => result := Some(data);
        case Err(e) => error := Some(TextOr(e.error, UPLOAD_FAILED));
      }
      uploading := false;
    }

    /** `resetFlow`: every piece of wizard state back to its start. */
    method Reset()
      modifies this
      ensures Valid() && Initial()
      ensures searchLoading == old(searchLoading) && uploading == old(uploading)
    {
      step, searchInput, patient, journeys := 1, "", None, [];
      selectedStep, file, result, error := None, None, None, None;
    }

    /** "Search Another Patient" in the empty state: back to step one with the
        patient and the input cleared; the journeys, the chosen step and the
        file are left as they were. */
    method SearchAnother()
      modifies this`step, this`patient, this`searchInput
      ensures Valid()
      ensures step == 1 && patient.None? && searchInput == ""
    {
      step, patient, searchInput := 1, None, "";
    }
  }

  /** Reset then a search that finds the patient lands on step two with
      nothing chosen yet, whatever happened before. */
  method ResetThenFind(w: UploadWizard, input: string, data: LookupResponse) returns (requested: Option<string>)
    requires LookupId(input).Some?
    modifies w
    ensures w.Valid()
    ensures requested == LookupId(input)
    ensures w.step == 2 && w.selectedStep.None? && w.file.None? && w.result.None? && w.error.None?
  {
    w.Reset();
    w.Type(input);
    requested := w.Search(Ok(data));
  }
}

=== FILE: users.dfy ===
/** Accounts: a user with a single `type` field from which the three role flags
    are derived, unique e-mail addresses, and the per-role profiles. */
module Users {
  import opened Wrappers

  const PATIENT: string := "PATIENT"
  const DOCTOR: string := "DOCTOR"
  const PROVIDER: string := "PROVIDER"

  /** The choices of the `type` field. */
  predicate IsUserType(t: string) { t == PATIENT || t == DOCTOR || t == PROVIDER }

  /** A user row. `kind` is the `type` column; the database does not enforce the choices. */
  datatype User = User(id: nat, email: string, firstName: string, lastName: string,
                       phoneNumber: Option<string>, kind: string)

  predicate IsPatient(u: User) { u.kind == PATIENT }
  predicate IsDoctor(u: User) { u.kind == DOCTOR }
  predicate IsProvider(u: User) { u.kind == PROVIDER }

  function RoleCount(u: User): (n: nat)
    ensures n <= 3
  {
    (if IsPatient(u) then 1 else 0) + (if IsDoctor(u) then 1 else 0) + (if IsProvider(u) then 1 else 0)
  }

  /** At most one role flag is true, and exactly one when `type` is one of the choices. */
  lemma RoleFlagsExclusive(u: User)
    ensures RoleCount(u) <= 1
    ensures RoleCount(u) == 1 <==> IsUserType(u.kind)
  {
    assert PATIENT != DOCTOR && PATIENT != PROVIDER && DOCTOR != PROVIDER by {
      assert PATIENT[0] != DOCTOR[0] && PATIENT[1] != PROVIDER[1] && DOCTOR[0] != PROVIDER[0];
    }
  }

  /** A user created without an explicit type is a patient. */
  function NewUser(id: nat, email: string, firstName: string, lastName: string): (u: User)
    ensures IsPatient(u) && !IsDoctor(u) && !IsProvider(u)
    ensures u.email == email && u.phoneNumber.None?
  {
    RoleFlagsExclusive(User(id, email, firstName, lastName, None, PATIENT));
    User(id, email, firstName, lastName, None, PATIENT)
  }

  /** `email` is declared unique and is the login field. */
  ghost predicate UniqueEmails(users: seq<User>) {
    forall i, j :: 0 <= i < j < |users| ==> users[i].email != users[j].email
  }

  /** The login lookup: the first user with the given e-mail. */
  function FindByEmail(users: seq<User>, email: string): (r: Option<nat>)
    ensures r.Some? ==> r.value < |users| && users[r.value].email == email
    ensures r.Some? ==> forall k :: 0 <= k < r.value ==> users[k].email != email
    ensures r.None? <==> forall k :: 0 <= k < |users| ==> users[k].email != email
  {
    if |users| == 0 then None
    else if users[0].email == email then Some(0)
    else
      match FindByEmail(users[1..], email)
      case None => None
      case Some(k) => Some(k + 1)
  }

  /** With unique e-mails, the lookup finds the only row that carries the address. */
  lemma {:induction false} FindByEmailUnique(users: seq<User>, email: string, i: nat)
    requires UniqueEmails(users)
    requires i < |users| && users[i].email == email
    ensures FindByEmail(users, email) == Some(i)
  {
    if i > 0 {
      assert users[0].email != email;
      var rest := users[1..];
      assert UniqueEmails(rest) by {
        forall a, b | 0 <= a < b < |rest| ensures rest[a].email != rest[b].email {
          assert rest[a] == users[a + 1] && rest[b] == users[b + 1];
        }
      }
      FindByEmailUnique(rest, email, i - 1);
    }
  }

  datatype ProviderType = Pharmacy | Lab | Hospital

  /** Profiles are identified by their position in their table. `abhaId` is
      unique when present. */
  datatype PatientProfile = PatientProfile(userId: nat, abhaId: Option<string>)

  /** The consultation fee is in paise and defaults to 0. The views read an
      `organization` of a doctor that this model does not declare; here it is
      an optional provider id. */
  datatype DoctorProfile = DoctorProfile(userId: nat, specialization: string,
                                         licenseNumber: string, consultationFee: int,
                                         organization: Option<nat>)

  datatype ProviderProfile = ProviderProfile(userId: nat, kind: ProviderType,
                                             name: string, address: string)
}

=== FILE: wrappers.dfy ===
/** Option and Result, used for the source's `None`, missing keys and error responses. */
module Wrappers {

  datatype Option<+T> = None | Some(value: T) {
    function GetOr(default: T): T {
      match this
      case Some(v) => v
      case None => default
    }
  }

  datatype Result<+R, +E> = Ok(value: R) | Err(error: E)
}
